=== FILE: README.md ===
# Dental clinic scheduling assistant — a Dafny model of the backend core

The system is a chat assistant for a dental clinic. A patient chats with a
language model. When the model's reply holds a JSON tool call such as
`{"tool": "book_appointment", "parameters": {...}}`, the backend runs that
tool against the clinic database and feeds the result back to the model.
It repeats this until the model answers without a tool call. A management
command fills the calendar with bookable availability slots.

This project models that backend core as pure functions over an in-memory
clinic store, and proves what each piece promises:

- `Models` (models.dfy): the six tables (patients, families, family
  members, availability slots, appointments, staff alerts), their enums and
  defaults, and the schema's constraints as the store invariant `Valid`.
  Each table is a sequence in increasing primary-key order. Each database
  write is a function that either returns the new store or raises the
  database's exception (`IntegrityError`, `DataError`).
- `Tools` (tools.dfy): the seven scheduling tools and their helpers. Each
  tool is a state transition `Store -> Result<Outcome, Exc>`. An `Outcome`
  is the reply dictionary together with the store left behind.
- `Timeslots` (timeslots.dfy): the availability generator, written as
  methods whose loops follow the command's loops. It is proved against
  `WindowRows`, an independent recursive description of the slots it must
  create.
- `Router` (router.dfy): extracting a tool call from assistant text by
  brace-depth counting, the seven-entry tool table, and `execute_tool`,
  which never raises.
- `Flows` (flows.dfy): the system-prompt table and its lookup with a
  default key.
- `Views` (views.dfy): converting messages for the model client, the
  fixed greeting menu, and the bookkeeping of the chat endpoint's tool
  loop.
- `Wrappers`, `Text`, `Seqs` and `Json` hold the supporting pieces:
  - `Option` and `Result`;
  - Python string operations (`strip`, `find`, `endswith`, and the regular
    expression `\D+` that removes everything but Unicode decimal digits);
  - the database's case-insensitive comparison `iexact`;
  - query-set operations (filter, order by, slice, first);
  - a JSON value type.

Modelling choices:

- **Time.** Time is an integer number of seconds on a uniform local
  timeline of 86400 seconds per day. Day `d` covers
  `[d * 86400, (d + 1) * 86400)`, and day 0 is a Thursday, so Monday is
  weekday 0. Seconds rather than minutes keep the floor rounding of
  `_slot_duration_minutes` visible.
- **Database backend.** The database is PostgreSQL. A string longer than
  its column's `max_length` raises `DataError` there, and the model follows
  that. The case folding of `iexact` is modelled for ASCII letters only
  (see "Left out").
- **Primary keys.** All tables draw primary keys from one counter,
  `nextId`. Only the numbers differ from the database's per-table
  sequences.
- **Outside inputs are parameters.**
  - The clock and the fuzzy date-phrase parser are the `Env` record.
  - Reading tool parameters from the JSON dictionary (`params["x"]`,
    `int(...)`, ISO date parsing) is a `Decoders` record. Each function
    returns the arguments or the exception that reading them raises. Most
    tools read all their parameters first and have one function.
    `book_appointment` reads `patient_info`, finds or creates the patient,
    and only then reads `type` and `start`. `reschedule_appointment` looks
    the appointment up before it parses `new_start`. Each of these two has
    one function per stage, called in the source's order, so the exception
    reported is the one the source raises first.
  - `json.loads`, `json.dumps` and the language model (system prompt,
    contents and output-token budget in, the reply's `text` out) are fields
    of `Oracles`. The reply's `text` is optional: the client library gives
    `None` for a reply with no text part, and the endpoint then fails when
    it strips it (`NoText`).
- **Transactions and exceptions.** An exception inside a tool is a
  `Failure`. `execute_tool` then reports the error with the store it was
  given, which is what the rollback of `transaction.atomic` leaves.
- **Termination.** The chat loop's `while True` has no bound in the
  source: it ends when the model stops calling tools. The model gives it
  a `fuel` bound and an `OutOfFuel` failure.
- **Failed requests.** A failed chat request carries the store it leaves
  behind. Each tool call commits on its own, so the writes of the rounds
  before the failure stay.

## Model

| member | source | states |
|---|---|---|
| Models.ParseType | backend/appointments/models.py:42-46 | a stored type value denotes a choice exactly when it is one of cleaning, checkup, filling, emergency, and then the choice's label is that value |
| Models.TypeLabelRoundTrip | backend/appointments/models.py:42-46 | every appointment type's label parses back to the same type |
| Models.InsertPatient | backend/appointments/models.py:3-7 | creating a patient raises DataError exactly when the name exceeds 120, the phone 32 or the insurance name 120 characters; otherwise it appends a patient with a fresh id, nothing else changes, and the schema's constraints still hold |
| Models.SetInsurance | backend/appointments/models.py:7 | saving an insurance name raises DataError exactly when it exceeds 120 characters; otherwise only that patient's insurance changes |
| Models.InsertAvailability | backend/appointments/models.py:41-50 | creating a slot always succeeds, appends exactly that slot with a fresh id and keeps the constraints |
| Models.DeleteSlotAt | backend/appointments/models.py:41-50 | deleting a slot removes exactly that slot and keeps the constraints |
| Models.InsertAppointment | backend/appointments/models.py:61-82 | creating an appointment raises IntegrityError exactly when the patient does not exist or another appointment has the same patient, start and end; otherwise the new row has status BOOKED and the constraints still hold |
| Models.MoveAppointment | backend/appointments/models.py:79-82 | changing an appointment's times raises IntegrityError exactly when it would duplicate another appointment's (patient, start, end); otherwise only those two fields of that row change |
| Models.SetStatus | backend/appointments/models.py:62-72 | setting a status changes only that row's status and keeps the constraints |
| Models.InsertStaffAlert | backend/appointments/models.py:85-92 | creating an alert raises IntegrityError exactly when it names a missing appointment; the kind defaults to GENERAL and only the alert table grows |
| Models.AppendAlert | backend/appointments/models.py:85-92 | an alert that names an existing appointment or none is always stored, with a fresh id |
| Models.InsertFamilyMember | backend/appointments/models.py:26-38 | adding a member raises IntegrityError exactly when the family or patient is missing or the patient is already in that family; the relationship defaults to SELF |
| Models.AppendAppointmentKeepsValid | backend/appointments/models.py:79-82 | an appointment for an existing patient whose (patient, start, end) is new keeps every constraint |
| Models.AppendMemberKeepsValid | backend/appointments/models.py:37-38 | a membership of an existing family and patient that is not yet present keeps every constraint |
| Models.SetStatusKeepsValid | backend/appointments/models.py:79-82 | changing a status never breaks the uniqueness of (patient, start, end) |
| Tools.NormPhone | backend/chat/tools.py:15-18 | the normalised phone holds only Unicode decimal digits (category Nd, any script): exactly the input's digits in order, and "" for a missing phone |
| Tools.NormPhoneIdempotent | backend/chat/tools.py:15-18 | normalising a normalised phone changes nothing |
| Tools.NormPhoneConcat | backend/chat/tools.py:15-18 | normalisation distributes over concatenation, so digits keep their order |
| Tools.NormPhoneKeepsUnicodeDigits | backend/chat/tools.py:15-18 | full-width and Arabic-Indic digits are kept by normalisation, and the spaces and hyphen around them are removed |
| Tools.FindPatientByNamePhone | backend/chat/tools.py:20-30 | nothing is found for an empty name or phone; a found patient is the first one whose name equals the stripped name ignoring case and whose phone digits end with the caller's; nothing found means no patient matches |
| Tools.DigitlessPhoneMatchesAnyPhone | backend/chat/tools.py:23-29 | a caller phone with no digits matches any patient of that name, whatever the stored phone |
| Tools.VerifyPatient | backend/chat/tools.py:32-42 | the reply is patient_not_found exactly when no patient matches; otherwise it carries the id, name and phone of the first matching patient the lookup returns |
| Tools.OrElse | backend/chat/tools.py:106 | Python's `or` on optional strings: the result is one of the two values; it is truthy exactly when either is; it is the first whenever the first is truthy and the second otherwise, so `""` or a missing first value gives the second as it is, even when that is missing |
| Tools.GetOrCreatePatient | backend/chat/tools.py:102-124 | a missing name or phone raises AttributeError; when some patient has that name (any case), the exact stripped phone and, when given, the birth date, the first such patient is returned, its insurance name filled in only when it had none and one is given, and nothing else changes; otherwise a new patient is created under the next id, whose birth date defaults to today, and the store differs only by that patient and the advanced id; the constraints still hold |
| Tools.GetOrCreatePatientFails | backend/chat/tools.py:102-124 | once a name and a phone are given, the lookup raises only DataError: for a found patient exactly when it fills in an insurance name longer than 120 characters, for a new patient exactly when the stripped name is over 120, the stripped phone over 32 or the insurance name over 120 characters |
| Tools.ResolvePatient | backend/chat/tools.py:61-66 | a patient id resolves exactly when that patient exists; a name and phone resolve as the name-and-phone lookup does |
| Tools.ListingWindow | backend/chat/tools.py:71-76 | a missing or blank date range gives [now, now + 60 days]; any other phrase is parsed |
| Tools.SelectListed | backend/chat/tools.py:78-86 | the listed appointments are BOOKED ones of the patient that intersect the window and, unless past ones are asked for, have not ended; each appears at most as often as it is stored; sorted by start; at most `limit`; none left out starts earlier than one kept; all of them when fewer than `limit` |
| Tools.ListAppointments | backend/chat/tools.py:45-100 | an unresolved patient gives patient_not_found; otherwise it fails exactly when the date phrase fails to parse or the limit is negative (the slice `qs[:limit]` refuses it); the listing holds the first `limit` (default 10) qualifying appointments in start order, and the store is only read |
| Tools.FindSlots | backend/chat/tools.py:130-155 | the slots returned are exactly the stored slots of the requested type lying wholly inside the parsed window (default phrase "next 14 days"), ordered by start |
| Tools.ChooseSlot | backend/chat/tools.py:166-179 | a slot of the type starting exactly at the requested time is preferred; otherwise the earliest slot of the type starting within 30 minutes of it; none exactly when no slot of the type starts within 30 minutes |
| Tools.BookAppointment | backend/chat/tools.py:158-190 | the patient lookup's exception is raised as is; without a slot the reply is slot_not_available, the store is the one the lookup left, and slots and appointments are unchanged; with a slot the result is that of booking the chosen slot for the patient found, in the store the lookup left |
| Tools.BookSlot | backend/chat/tools.py:181-190 | booking a slot raises IntegrityError exactly when the patient already has an appointment, of any status, with the slot's start and end; otherwise the store gains exactly one BOOKED appointment of that patient with the slot's type, times and the notes under the next id, loses exactly that slot, and nothing else changes |
| Tools.BookOutcome | backend/chat/tools.py:158-190 | once the patient is found or created and a slot chosen, the whole booking raises IntegrityError exactly on that clash, and otherwise answers with the new id and times and a store that differs from the lookup's only by the appointment, the removed slot and the next id |
| Tools.BookScheduled | backend/chat/tools.py:158-190 | a scheduled booking took the chosen slot, whose type label is the requested type, kept every earlier appointment, and belongs to a stored patient of the caller's name, phone and birth date |
| Tools.SlotDurationMinutes | backend/chat/tools.py:127-128 | the duration is the whole minutes between the two instants, rounded down |
| Tools.RescheduleAppointment | backend/chat/tools.py:193-223 | DoesNotExist is raised exactly when no appointment has the id; otherwise the outcome is that of rescheduling the appointment holding the id; any exception is DoesNotExist or IntegrityError; the constraints still hold |
| Tools.FirstMatchingSlot | backend/chat/tools.py:200-206 | the slot chosen is the first availability of the appointment's type starting at the new start and lasting its length in whole minutes; none exactly when no availability matches |
| Tools.RescheduleAt | backend/chat/tools.py:200-223 | without a matching availability the reply is no_matching_slot and the store is unchanged; otherwise the first matching slot is taken |
| Tools.MoveToSlot | backend/chat/tools.py:210-223 | it raises IntegrityError exactly when another appointment of the same patient already has the slot's start and end; otherwise the old time is appended as a new availability, only the appointment's start and end change, the slot is removed, and patients, families, members and alerts are unchanged |
| Tools.RescheduleConflict | backend/chat/tools.py:198-217 | when a matching slot exists, rescheduling raises IntegrityError exactly when the patient already holds another appointment at the new start with the same whole-minute length |
| Tools.RescheduleScheduled | backend/chat/tools.py:193-223 | a successful reschedule moves the appointment holding the id onto a matching slot, deletes that slot, appends the old time as an availability under the next id and changes no other table |
| Tools.RescheduleKeepsDuration | backend/chat/tools.py:199-217 | a rescheduled appointment starts at the requested time and keeps its length rounded down to whole minutes |
| Tools.MatchingSlotKeepsDuration | backend/chat/tools.py:200-205 | a matching slot starts at the new start and lasts the appointment's length rounded down to whole minutes, exactly its length when that is whole minutes |
| Tools.WholeMinutesExact | backend/chat/tools.py:127-128 | rounding down to whole minutes changes a length exactly when it is not a whole number of minutes |
| Tools.CancelAppointment | backend/chat/tools.py:226-239 | an unknown id gives not_found and no change; otherwise the status becomes CANCELED, one availability with the same start, end and type is added, and nothing else changes |
| Tools.CancelTwiceFreesTwice | backend/chat/tools.py:230-237 | cancelling an already cancelled appointment succeeds again and adds a second availability for the same time |
| Models.IndexFromSameIds | backend/chat/tools.py:229 | the appointment a lookup by id finds depends only on the ids in the table, so a status update leaves it where it was |
| Tools.CreateStaffAlert | backend/chat/tools.py:242-251 | the new alert has kind EMERGENCY, refers to the given appointment id (or none when none is given) and has as summary exactly the first 2000 characters of the given one (all of it when shorter); the store gains exactly that alert under the next id; an unknown appointment id raises IntegrityError |
| Timeslots.Weekday | backend/appointments/management/commands/create_timeslots.py:11 | a day's weekday lies in 0..6 |
| Timeslots.WeekdayPeriodic | backend/appointments/management/commands/create_timeslots.py:11 | weekdays repeat every seven days |
| Timeslots.OpenDayIff | backend/appointments/management/commands/create_timeslots.py:11 | a day is open exactly when it is not a Sunday |
| Timeslots.DayOfWithinDay | backend/appointments/management/commands/create_timeslots.py:43 | every instant of a day normalises to that day |
| Timeslots.Overlaps | backend/appointments/management/commands/create_timeslots.py:24-25 | two intervals overlap exactly when each starts before the other ends |
| Timeslots.OverlapsSymmetric | backend/appointments/management/commands/create_timeslots.py:24-25 | overlap is symmetric |
| Timeslots.TouchingDoNotOverlap | backend/appointments/management/commands/create_timeslots.py:24-25 | intervals that only touch do not overlap |
| Timeslots.DayAppointmentsMembers | backend/appointments/management/commands/create_timeslots.py:56-61 | the day's preloaded appointments are exactly the BOOKED ones that intersect its business hours |
| Timeslots.AnyOverlapIff | backend/appointments/management/commands/create_timeslots.py:69 | the overlap test holds exactly when some listed appointment overlaps the slot |
| Timeslots.SlotExistsIff | backend/appointments/management/commands/create_timeslots.py:74 | the existence test holds exactly when a stored slot has the same start and end |
| Timeslots.AcceptedIff | backend/appointments/management/commands/create_timeslots.py:56-76 | inside business hours a time is offered exactly when no BOOKED appointment overlaps it (cancelled and completed ones never block) and, when asked, no slot has the same times |
| Timeslots.CandidateCountBounds | backend/appointments/management/commands/create_timeslots.py:63-64 | the number of slot times in a day is the largest count of whole slots fitting between opening and closing |
| Timeslots.CandidateIff | backend/appointments/management/commands/create_timeslots.py:64 | the loop condition holds at the k-th slot time exactly when k is below that count |
| Timeslots.SlotTimeBounds | backend/appointments/management/commands/create_timeslots.py:53-66 | every candidate slot starts at or after 08:00, ends by 18:00 and lies in its own day |
| Timeslots.GridAcceptedIsProper | backend/appointments/management/commands/create_timeslots.py:63-85 | a grid slot at an offered time overlaps no BOOKED appointment and duplicates no existing slot when asked |
| Timeslots.WindowRowsShape | backend/appointments/management/commands/create_timeslots.py:46-87 | every slot the window describes is on an open day of the window, one slot long, on the grid from 08:00, ends by 18:00, and has a requested type |
| Timeslots.WindowRowsComplete | backend/appointments/management/commands/create_timeslots.py:63-85 | every offered grid time of every open day yields one slot per requested type |
| Timeslots.WindowRowsCount | backend/appointments/management/commands/create_timeslots.py:46-85 | the window describes at most days x slot times per day x types slots |
| Timeslots.DefaultDayCapacity | backend/appointments/management/commands/create_timeslots.py:8-17 | with the defaults a day has 20 slot times and at most 60 slots |
| Timeslots.CreateForTypes | backend/appointments/management/commands/create_timeslots.py:79-85 | one slot per requested type is appended at the given time, nothing else changes, and the count equals the number created |
| Timeslots.VisitTime | backend/appointments/management/commands/create_timeslots.py:65-87 | one pass of the day's loop creates a slot per type exactly when the time is offered, judged against the store the run began with |
| Timeslots.GenerateDay | backend/appointments/management/commands/create_timeslots.py:63-87 | the day's loop appends exactly the day's described slots |
| Timeslots.GenerateDays | backend/appointments/management/commands/create_timeslots.py:46-87 | the loop over days appends exactly the window's described slots and keeps the constraints |
| Timeslots.GenerateAvailabilityWindow | backend/appointments/management/commands/create_timeslots.py:27-89 | the command only appends slots; the count it returns is the number appended; every new slot is a proper grid slot on an open day, overlapping no BOOKED appointment and, when asked, duplicating no existing slot; every offered time gets one slot per type; at most days x slot times x types are made |
| Timeslots.NonPositiveSlotNeverEnds | backend/appointments/management/commands/create_timeslots.py:63-87 | with a slot length of zero or less the loop guard holds after every number of rounds and the time never advances, so the day's loop never ends |
| Timeslots.CheckedAvailabilityWindow | backend/appointments/management/commands/create_timeslots.py:27-89 | with a check on the slot length, a length of zero or less is refused with ValueError and nothing is written; any other length appends exactly the window's slots, changes nothing else and keeps the constraints |
| Router.DepthSnoc | backend/chat/router.py:29-33 | scanning one more character changes the counter by that character's brace |
| Router.ScanEndSpec | backend/chat/router.py:28-37 | the scan stops exactly where the counter first returns to zero, or at the end of the text |
| Router.CallEndSpec | backend/chat/router.py:28-37 | the extracted text from the marker ends at the first brace that balances the count, or runs to the end when the braces never balance |
| Router.CloseUnique | backend/chat/router.py:28-37 | that end is unique |
| Router.OpenUntilClose | backend/chat/router.py:28-37 | before the balancing brace every prefix has more opening than closing braces |
| Router.ScanCall | backend/chat/router.py:27-37 | the scan loop as written extracts exactly the text `CallText` describes: from the marker to its first balancing brace, or the whole rest of the text, and brace-balanced |
| Router.CallText | backend/chat/router.py:22-27 | there is a call text exactly when the stripped text contains `{"tool":` |
| Router.MaybeParseToolCall | backend/chat/router.py:17-44 | no marker means no call; a call is returned exactly when the extracted text parses to an object with both `tool` and `parameters`; a parse failure gives no call and never raises |
| Router.FirstMarkerAfter | backend/chat/router.py:27 | extraction starts at the first marker; text before it is ignored |
| Router.CallTextOfEmbedded | backend/chat/router.py:27-37 | a balanced call after marker-free text is extracted exactly, whatever follows it |
| Router.ParsesEmbeddedCall | backend/chat/router.py:17-44 | such a call that parses to an object with both keys is what the parser returns |
| Router.ToolTableComplete | backend/chat/router.py:6-14 | every tool is in the table under its own name |
| Router.ToolTableNames | backend/chat/router.py:6-14 | every name in the table maps to the tool of that name |
| Router.ToolTableSize | backend/chat/router.py:6-14 | the table has exactly seven entries, one for each tool |
| Router.RunTool | backend/chat/router.py:50-51 | the named tool runs: each tool raises what its first failing step raises, in the source's order (book: patient_info, then the patient lookup, then type and start; reschedule: the id, then DoesNotExist, then new_start), and otherwise returns that tool's own result; a normal return never reports an unknown tool or an exception; the verifying, listing and slot-finding tools leave the store unchanged; every tool keeps the constraints |
| Router.ExecuteTool | backend/chat/router.py:46-53 | a name outside the table gives unknown_tool and no change; a name in the table returns exactly that tool's outcome when it returns normally, and its exception as an error reply with the store unchanged; it never raises and keeps the constraints |
| Flows.FlowOf | backend/prompts/flows.py:283-292 | a key names a flow only when it is that flow's key |
| Flows.GetPromptForFlow | backend/prompts/flows.py:298-303 | the lookup is total, every prompt begins with the base prompt, a key in the table gives its entry and any other key the general-information prompt |
| Flows.PromptOfFlow | backend/prompts/flows.py:283-292 | each flow's prompt is the base prompt followed by that flow's few-shot text |
| Flows.KeysAreFlows | backend/prompts/flows.py:283-292 | the table's keys are exactly the eight flow keys |
| Flows.UnknownKeyIsGeneral | backend/prompts/flows.py:301-303 | a key that names no flow gets the general_info prompt |
| Flows.WritingToolsUseGeneralPrompt | backend/prompts/flows.py:283-292 | the tool names book_appointment, cancel_appointment and create_staff_alert, looked up as flow keys, get the general_info prompt |
| Views.ConvertToGeminiContents | backend/api/views.py:54-66 | conversion keeps length, order and each message's text; role assistant becomes model and every other role is kept |
| Views.ConvertedRoles | backend/api/views.py:57-59 | no converted content has role assistant, and a content is model exactly when its message was assistant or model |
| Views.ConvertAppend | backend/api/views.py:54-66 | converting a history piece by piece gives the conversion of the whole |
| Views.ScalarKeysAreUnknown | backend/api/views.py:110-111 | only a string tool value can name a tool |
| Views.TakeTurnFacts | backend/api/views.py:105-135 | a round runs exactly when the reply holds a tool call; it fails with the store it was given exactly when the tool value is a list or object; any failure is that one or a next reply without text, and keeps the constraints; otherwise it reports the tool's result as a user message starting with `TOOL_RESULT: ` and keeps the constraints |
| Views.TextlessFollowupKeepsToolWrites | backend/api/views.py:110-135 | a next reply without text fails the round with the store the tool left, so the tool's writes stay |
| Views.TranscriptStep | backend/api/views.py:119-122 | appending the reply and the tool result extends the history by one round |
| Views.LoopShape | backend/api/views.py:100-136 | for any round function, the finished loop's chain starts with the first reply, ends with the returned one, and grows the history by two messages per tool call |
| Views.LoopKeepsValid | backend/api/views.py:102-136 | a loop whose rounds keep the constraints, whether they finish or fail, leaves a store that keeps them whether it finishes or fails |
| Views.ToolLoopShape | backend/api/views.py:100-136 | in the endpoint's loop every reply but the last calls a tool and the last calls none |
| Views.ToolLoopKeepsValid | backend/api/views.py:102-136 | the endpoint's loop keeps the constraints, whether it finishes or fails |
| Views.LoopSecondRoundFails | backend/api/views.py:102-136 | a loop whose first round succeeds and whose second fails ends with the second round's failure |
| Views.UnhashableKeepsEarlierRounds | backend/api/views.py:105-111 | a list or object tool value in the second round fails the request with the store the first round's tool left, not the one the request started with |
| Views.RespondShape | backend/api/views.py:138-142 | the response's chain is every reply as an assistant message, ending with the returned reply |
| Views.ChatbotPost | backend/api/views.py:68-106 | a missing or empty history gets exactly the fixed menu and leaves the store alone, and only such a history gets it; a first reply without text fails before any tool runs, with the store unchanged |
| Views.AnswerShape | backend/api/views.py:85-142 | every answer has one more chain entry than tool calls, ends with the returned reply, and extends the history by that reply and `TOOL_RESULT: ` message per tool call |
| Views.MenuIgnoresModel | backend/api/views.py:70-83 | the menu depends on neither the model, the flow nor whether `messages` is missing or empty |
| Views.NoToolCall | backend/api/views.py:70-100 | a first reply without a tool call is returned as is, under the flow's prompt (general_info by default), with a one-entry chain and the history unchanged |
| Views.ChatKeepsValid | backend/api/views.py:68-142 | answering a chat keeps the store's constraints, and a failed request leaves a store that keeps them too |

## Left out

- The language model (the Gemini client in the chat endpoint and in the
  date parser) is a parameter: a function from system prompt, contents and
  token budget to optional text. Its temperature and top-p settings are not modelled.
- `parse_fuzzy_date_range` (backend/scheduling/fuzzy.py) is a parameter,
  `Env.fuzzy`, returning a window or an exception. backend/scheduling/fuzzy.py
  is not part of this model.
- `json.loads` and `json.dumps` are parameters; only the brace-depth
  extraction around them is modelled. JSON numbers are integers (no floats).
- Reading tool parameters (`params["x"]`, `params.get`, `int()`, `bool()`,
  `fromisoformat`) is a per-tool `Decoders` parameter. Its `KeyError`,
  `ValueError` or `TypeError` is an exception like any other.
- Dates and times lie on a uniform timeline of seconds. Time zones,
  daylight-saving changes, `make_aware`, `isoformat` and microseconds are
  not modelled. The clock is one reading per request.
- `transaction.atomic` and `select_for_update` are not modelled as such.
  An exception leaves the store as it was, which is what the rollback
  gives. Concurrency is out.
- Unordered query sets (`for p in qs`, `.first()` without `order_by`) are
  taken in primary-key order. `order_by("start").first()` breaks ties by
  the same order.
- `print` calls, `Command.add_arguments` and `Command.handle` (argument
  parsing and the success message), `HelloView`, the URL table and the
  frontend are not modelled.
- `ErrorText` gives the error string of every reply except a raised
  exception's, because the text of `str(e)` comes from the library.
- Views.ChatbotPost: the `while True` tool loop is bounded by `fuel`. Running
  out of fuel is a failure (`OutOfFuel`) the source does not have: it
  loops for as long as the model keeps calling tools.
- Views.ChatbotPost: a `tool` value that is a list or object cannot be
  looked up in the flow table and raises a server error. This is the
  `UnhashableTool` failure, carrying the store the earlier rounds left; it
  is not a modelled HTTP 500 response. Any other scalar is looked up by its
  string form. A reply without text raises the same way (`NoText`).
- Views.ChatbotPost: other server errors of the request are not modelled.
  A `flow` that is a list or object raises TypeError in the prompt lookup,
  and a message without `role` or `content` raises KeyError in the
  conversion. The request is typed, so these inputs cannot be written.
  An exception from the model client itself is not modelled: `generate`
  always answers. Such an exception would end the request after the
  earlier rounds' tool writes, as `NoText` does.
- Tools.FindPatientByNamePhone: the case-insensitive name comparison folds
  ASCII letters only. PostgreSQL's `iexact` compares `UPPER` of both sides,
  which also folds other letters (`É` and `é`), so the model misses some
  matches the database finds.
- Tools.GetOrCreatePatient: the same ASCII-only folding applies to its
  name lookup.
- Models.InsertPatient: on SQLite, which does not enforce `max_length`, an
  over-long name, phone or insurance name is stored instead of raising
  `DataError`. The model follows PostgreSQL.
- Tools.NormPhone: digits are those of Unicode 15.0's decimal-digit
  category (Nd). A Python built against another Unicode version can differ
  for characters added later.
- Tools.BookAppointment: when no slot is found the appointments and slots
  are unchanged, but a patient created by the lookup is kept. The function
  returns normally, so the transaction commits.
- Timeslots.GenerateAvailabilityWindow: requires `slotMinutes > 0`,
  because the source's day loop never ends otherwise (see "## Findings";
  Timeslots.CheckedAvailabilityWindow refuses such a length). `start_dt` is given; the
  default "now" is the caller's clock reading. The types are the model's
  four appointment types, not arbitrary strings.
- Tools.RescheduleKeepsDuration: the new length is the old one rounded down
  to whole minutes, as the source computes it. It equals the old length
  only when that is a whole number of minutes (Tools.WholeMinutesExact).
- The verify-patient few-shot text is defined in the flows file but used by
  no flow, so `PromptTexts.verifyPatient` appears in no prompt.

## Findings

| source | as written | input that shows it | evidently intended | confidence | as-written member | corrected member |
|---|---|---|---|---|---|---|
| backend/appointments/management/commands/create_timeslots.py:63-64 | the day loop `while t + timedelta(minutes=slot_minutes) <= day_close` advances `t` by `slot_minutes` with no check on its sign | `generate_availability_window(days=1, slot_minutes=0)` on a Monday: `t` stays at 08:00 and the guard stays true; a negative length moves `t` backwards until the datetime range runs out | a slot length of zero or less is refused before the loop | not executed | Timeslots.NonPositiveSlotNeverEnds | Timeslots.CheckedAvailabilityWindow |

=== FILE: flows.dfy ===
/** The system prompt chosen for each conversation flow
    (backend/prompts/flows.py). The prompt texts themselves are long string
    constants; they are parameters here. */
module Flows {
  import opened Wrappers
  import opened Text

  /** The string constants the prompt table is built from. */
  datatype PromptTexts = PromptTexts(
    base: string,
    newPatient: string,
    existingPatient: string,
    familyBooking: string,
    emergency: string,
    generalInfo: string,
    verifyPatient: string,
    listAppointments: string,
    findSlots: string,
    rescheduleAppointment: string)

  /** The eight flows with a prompt of their own. */
  datatype Flow =
    | NewPatientFlow
    | VerifyPatientFlow
    | ListAppointmentsFlow
    | FindSlotsFlow
    | FamilyBookingFlow
    | EmergencyFlow
    | GeneralInfoFlow
    | RescheduleAppointmentFlow

  function FlowKey(f: Flow): string {
    match f
    case NewPatientFlow => "new_patient"
    case VerifyPatientFlow => "verify_patient"
    case ListAppointmentsFlow => "list_appointments"
    case FindSlotsFlow => "find_slots"
    case FamilyBookingFlow => "family_booking"
    case EmergencyFlow => "emergency"
    case GeneralInfoFlow => "general_info"
    case RescheduleAppointmentFlow => "reschedule_appointment"
  }

  /** The few-shot text each flow appends to the base prompt. The
      `verify_patient` flow uses the existing-patient examples; the
      verify-patient examples are defined but never used. */
  function FewShot(texts: PromptTexts, f: Flow): string {
    match f
    case NewPatientFlow => texts.newPatient
    case VerifyPatientFlow => texts.existingPatient
    case ListAppointmentsFlow => texts.listAppointments
    case FindSlotsFlow => texts.findSlots
    case FamilyBookingFlow => texts.familyBooking
    case EmergencyFlow => texts.emergency
    case GeneralInfoFlow => texts.generalInfo
    case RescheduleAppointmentFlow => texts.rescheduleAppointment
  }

  /** `PROMPT_MAP`. */
  function PromptMap(texts: PromptTexts): map<string, string> {
    map[
      "new_patient" := texts.base + texts.newPatient,
      "verify_patient" := texts.base + texts.existingPatient,
      "list_appointments" := texts.base + texts.listAppointments,
      "find_slots" := texts.base + texts.findSlots,
      "family_booking" := texts.base + texts.familyBooking,
      "emergency" := texts.base + texts.emergency,
      "general_info" := texts.base + texts.generalInfo,
      "reschedule_appointment" := texts.base + texts.rescheduleAppointment
    ]
  }

  /** The flow a key names, if any. */
  function FlowOf(key: string): (r: Option<Flow>)
    ensures r.Some? ==> FlowKey(r.value) == key
  {
    if key == "new_patient" then Some(NewPatientFlow)
    else if key == "verify_patient" then Some(VerifyPatientFlow)
    else if key == "list_appointments" then Some(ListAppointmentsFlow)
    else if key == "find_slots" then Some(FindSlotsFlow)
    else if key == "family_booking" then Some(FamilyBookingFlow)
    else if key == "emergency" then Some(EmergencyFlow)
    else if key == "general_info" then Some(GeneralInfoFlow)
    else if key == "reschedule_appointment" then Some(RescheduleAppointmentFlow)
    else None
  }

  /** `get_prompt_for_flow`: total; the prompt of the named flow, and the
      general-information prompt for any other key. */
  function GetPromptForFlow(texts: PromptTexts, key: string): (r: string)
    ensures StartsWith(r, texts.base)
    ensures key in PromptMap(texts) ==> r == PromptMap(texts)[key]
    ensures key !in PromptMap(texts) ==> r == texts.base + texts.generalInfo
  {
    var prompts := PromptMap(texts);
    if key in prompts then prompts[key] else prompts["general_info"]
  }

  /** Each flow's key selects the base prompt followed by that flow's
      few-shot text. */
  lemma PromptOfFlow(texts: PromptTexts, f: Flow)
    ensures FlowKey(f) in PromptMap(texts)
    ensures GetPromptForFlow(texts, FlowKey(f)) == texts.base + FewShot(texts, f)
  {
  }

  /** A key is in the table exactly when it names a flow. */
  lemma KeysAreFlows(texts: PromptTexts, key: string)
    ensures key in PromptMap(texts) <==> FlowOf(key).Some?
  {
  }

  /** Any key that names no flow gets the general-information prompt. */
  lemma UnknownKeyIsGeneral(texts: PromptTexts, key: string)
    requires FlowOf(key).None?
    ensures GetPromptForFlow(texts, key) == GetPromptForFlow(texts, FlowKey(GeneralInfoFlow))
  {
    KeysAreFlows(texts, key);
  }

  /** The chat loop looks prompts up by tool name; the tools that book,
      cancel and raise alerts have no flow of their own and get the
      general-information prompt. */
  lemma WritingToolsUseGeneralPrompt(texts: PromptTexts)
    ensures GetPromptForFlow(texts, "book_appointment") == texts.base + texts.generalInfo
    ensures GetPromptForFlow(texts, "cancel_appointment") == texts.base + texts.generalInfo
    ensures GetPromptForFlow(texts, "create_staff_alert") == texts.base + texts.generalInfo
  {
    KeysAreFlows(texts, "book_appointment");
    KeysAreFlows(texts, "cancel_appointment");
    KeysAreFlows(texts, "create_staff_alert");
  }
}

=== FILE: json.dfy ===
/** JSON values as `json.loads` produces them (floating-point numbers left out). */
module Json {

  datatype Json =
    | JNull
    | JBool(b: bool)
    | JNum(n: int)
    | JStr(s: string)
    | JArr(items: seq<Json>)
    | JObj(fields: map<string, Json>)
}

=== FILE: models.dfy ===
/** The clinic's records (backend/appointments/models.py) as an in-memory store,
    with the database constraints the ORM enforces on every write. */
module Models {
  import opened Wrappers
  import Seqs

  /** Instants are whole seconds on the clinic's local wall-clock timeline. */
  type Time = int
  type Id = nat

  const SecondsPerMinute: int := 60
  const SecondsPerDay: int := 86400

  const NameMaxLength: nat := 120
  const PhoneMaxLength: nat := 32
  const InsuranceMaxLength: nat := 120

  datatype ApptType = Cleaning | Checkup | Filling | Emergency

  /** The stored value of each appointment type choice. */
  function TypeLabel(t: ApptType): string {
    match t
    case Cleaning => "cleaning"
    case Checkup => "checkup"
    case Filling => "filling"
    case Emergency => "emergency"
  }

  /** The choice a stored value denotes, if it is one of the four. */
  function ParseType(text: string): (r: Option<ApptType>)
    ensures r.Some? <==> text in {"cleaning", "checkup", "filling", "emergency"}
    ensures r.Some? ==> TypeLabel(r.value) == text
  {
    if text == "cleaning" then Some(Cleaning)
    else if text == "checkup" then Some(Checkup)
    else if text == "filling" then Some(Filling)
    else if text == "emergency" then Some(Emergency)
    else None
  }

  lemma TypeLabelRoundTrip(t: ApptType)
    ensures ParseType(TypeLabel(t)) == Some(t)
  {
  }

  datatype Status = Booked | Canceled | Completed
  datatype Relationship = Self | Spouse | Child | Other
  datatype Kind = EmergencyAlert | General

  /** The exceptions the backend can raise; `execute_tool` turns them into error replies. */
  datatype Exc =
    | KeyError(key: string)
    | ValueError
    | TypeError
    | AttributeError
    | ValidationError
    | DoesNotExist
    | IntegrityError
    | DataError
    | OracleFailure

  datatype Patient = Patient(id: Id, fullName: string, phone: string, dob: int, insurance: Option<string>)
  datatype Family = Family(id: Id, name: string)
  datatype FamilyMember = FamilyMember(id: Id, family: Id, patient: Id, relationship: Relationship)
  datatype Availability = Availability(id: Id, start: Time, end: Time, apptType: ApptType)
  datatype Appointment = Appointment(id: Id, patient: Id, apptType: ApptType, start: Time, end: Time,
                                     notes: Option<string>, status: Status)
  datatype StaffAlert = StaffAlert(id: Id, appointment: Option<Id>, kind: Kind, summary: string)

  /** One sequence per table, each in increasing id order; `nextId` is the next
      primary key handed out. */
  datatype Store = Store(
    patients: seq<Patient>,
    families: seq<Family>,
    members: seq<FamilyMember>,
    slots: seq<Availability>,
    appointments: seq<Appointment>,
    alerts: seq<StaffAlert>,
    nextId: Id)

  function PatientId(p: Patient): Id { p.id }
  function FamilyId(f: Family): Id { f.id }
  function MemberId(m: FamilyMember): Id { m.id }
  function SlotId(a: Availability): Id { a.id }
  function AppointmentId(a: Appointment): Id { a.id }
  function AlertId(a: StaffAlert): Id { a.id }

  /** Primary keys increase along the sequence and are all below `next`. */
  ghost predicate IdsOrdered<T>(s: seq<T>, id: T -> Id, next: Id) {
    && (forall i, j :: 0 <= i < j < |s| ==> id(s[i]) < id(s[j]))
    && (forall i :: 0 <= i < |s| ==> id(s[i]) < next)
  }

  predicate PatientFits(p: Patient) {
    && |p.fullName| <= NameMaxLength
    && |p.phone| <= PhoneMaxLength
    && (p.insurance.Some? ==> |p.insurance.value| <= InsuranceMaxLength)
  }

  predicate HasPatient(st: Store, id: int) {
    exists i :: 0 <= i < |st.patients| && st.patients[i].id == id
  }

  predicate HasFamily(st: Store, id: int) {
    exists i :: 0 <= i < |st.families| && st.families[i].id == id
  }

  predicate HasAppointment(st: Store, id: int) {
    exists i :: 0 <= i < |st.appointments| && st.appointments[i].id == id
  }

  /** Two appointments differ in patient, start or end (`uniq_patient_timeslot`). */
  predicate DistinctTimeslot(a: Appointment, b: Appointment) {
    a.patient != b.patient || a.start != b.start || a.end != b.end
  }

  /** Two memberships differ in family or patient (`unique_together`). */
  predicate DistinctMembership(a: FamilyMember, b: FamilyMember) {
    a.family != b.family || a.patient != b.patient
  }

  ghost predicate PatientsValid(st: Store) {
    && IdsOrdered(st.patients, PatientId, st.nextId)
    && (forall i :: 0 <= i < |st.patients| ==> PatientFits(st.patients[i]))
  }

  ghost predicate MembersValid(st: Store) {
    && IdsOrdered(st.families, FamilyId, st.nextId)
    && IdsOrdered(st.members, MemberId, st.nextId)
    && (forall i, j :: 0 <= i < j < |st.members| ==> DistinctMembership(st.members[i], st.members[j]))
    && (forall i :: 0 <= i < |st.members| ==>
          HasFamily(st, st.members[i].family) && HasPatient(st, st.members[i].patient))
  }

  ghost predicate SlotsValid(st: Store) {
    IdsOrdered(st.slots, SlotId, st.nextId)
  }

  ghost predicate AppointmentsValid(st: Store) {
    && IdsOrdered(st.appointments, AppointmentId, st.nextId)
    && (forall i, j :: 0 <= i < j < |st.appointments| ==>
          DistinctTimeslot(st.appointments[i], st.appointments[j]))
    && (forall i :: 0 <= i < |st.appointments| ==> HasPatient(st, st.appointments[i].patient))
  }

  ghost predicate AlertsValid(st: Store) {
    && IdsOrdered(st.alerts, AlertId, st.nextId)
    && (forall i :: 0 <= i < |st.alerts| && st.alerts[i].appointment.Some? ==>
          HasAppointment(st, st.alerts[i].appointment.value))
  }

  /** Every constraint of the schema holds. */
  ghost predicate Valid(st: Store) {
    PatientsValid(st) && MembersValid(st) && SlotsValid(st) && AppointmentsValid(st) && AlertsValid(st)
  }

  lemma IdsOrderedGrow<T>(s: seq<T>, id: T -> Id, next: Id, next': Id)
    requires IdsOrdered(s, id, next) && next <= next'
    ensures IdsOrdered(s, id, next')
  {
  }

  lemma IdsOrderedAppend<T>(s: seq<T>, x: T, id: T -> Id, next: Id)
    requires IdsOrdered(s, id, next) && id(x) == next
    ensures IdsOrdered(s + [x], id, next + 1)
  {
  }

  lemma IdsOrderedRemoveAt<T>(s: seq<T>, i: nat, id: T -> Id, next: Id)
    requires i < |s| && IdsOrdered(s, id, next)
    ensures IdsOrdered(Seqs.RemoveAt(s, i), id, next)
  {
    var r := Seqs.RemoveAt(s, i);
    forall a, b | 0 <= a < b < |r|
      ensures id(r[a]) < id(r[b])
    {
      var a' := if a < i then a else a + 1;
      var b' := if b < i then b else b + 1;
      assert r[a] == s[a'] && r[b] == s[b'];
    }
  }

  /** A write that only raises `nextId` and appends to or keeps each table
      keeps every schema constraint that mentions no new record. */
  lemma GrowKeepsIds(st: Store, st': Store)
    requires Valid(st)
    requires st.nextId <= st'.nextId
    ensures st'.patients == st.patients ==> IdsOrdered(st'.patients, PatientId, st'.nextId)
    ensures st'.families == st.families ==> IdsOrdered(st'.families, FamilyId, st'.nextId)
    ensures st'.members == st.members ==> IdsOrdered(st'.members, MemberId, st'.nextId)
    ensures st'.slots == st.slots ==> IdsOrdered(st'.slots, SlotId, st'.nextId)
    ensures st'.appointments == st.appointments ==> IdsOrdered(st'.appointments, AppointmentId, st'.nextId)
    ensures st'.alerts == st.alerts ==> IdsOrdered(st'.alerts, AlertId, st'.nextId)
  {
    IdsOrderedGrow(st.patients, PatientId, st.nextId, st'.nextId);
    IdsOrderedGrow(st.families, FamilyId, st.nextId, st'.nextId);
    IdsOrderedGrow(st.members, MemberId, st.nextId, st'.nextId);
    IdsOrderedGrow(st.slots, SlotId, st.nextId, st'.nextId);
    IdsOrderedGrow(st.appointments, AppointmentId, st.nextId, st'.nextId);
    IdsOrderedGrow(st.alerts, AlertId, st.nextId, st'.nextId);
  }

  /** The position of the record with primary key `id`, if any. */
  function AppointmentIndex(st: Store, id: int): (r: Option<nat>)
    ensures r.Some? ==> r.value < |st.appointments| && st.appointments[r.value].id == id
    ensures r.None? ==> !HasAppointment(st, id)
  {
    IndexFrom(st.appointments, AppointmentId, id, 0)
  }

  function PatientIndex(st: Store, id: int): (r: Option<nat>)
    ensures r.Some? ==> r.value < |st.patients| && st.patients[r.value].id == id
    ensures r.None? ==> !HasPatient(st, id)
  {
    IndexFrom(st.patients, PatientId, id, 0)
  }

  function IndexFrom<T>(s: seq<T>, id: T -> Id, key: int, from: nat): (r: Option<nat>)
    requires from <= |s|
    ensures r.Some? ==> from <= r.value < |s| && id(s[r.value]) == key
    ensures r.None? ==> forall i :: from <= i < |s| ==> id(s[i]) != key
    decreases |s| - from
  {
    if from == |s| then None
    else if id(s[from]) == key then Some(from)
    else IndexFrom(s, id, key, from + 1)
  }

  /** The position found for a key depends only on the records' keys. */
  lemma {:induction false} IndexFromSameIds<T>(s: seq<T>, t: seq<T>, id: T -> Id, key: int, from: nat)
    requires from <= |s| == |t|
    requires forall i :: 0 <= i < |s| ==> id(s[i]) == id(t[i])
    ensures IndexFrom(s, id, key, from) == IndexFrom(t, id, key, from)
    decreases |s| - from
  {
    if from < |s| && id(s[from]) != key {
      IndexFromSameIds(s, t, id, key, from + 1);
    }
  }

  // ---------------------------------------------------------------------------
  // Each write keeps the schema's constraints
  // ---------------------------------------------------------------------------

  lemma AppendPatientKeepsValid(st: Store, p: Patient)
    requires Valid(st) && p.id == st.nextId && PatientFits(p)
    ensures Valid(st.(patients := st.patients + [p], nextId := st.nextId + 1))
  {
    var st' := st.(patients := st.patients + [p], nextId := st.nextId + 1);
    GrowKeepsIds(st, st');
    IdsOrderedAppend(st.patients, p, PatientId, st.nextId);
    forall id | HasPatient(st, id) ensures HasPatient(st', id) {
      var i :| 0 <= i < |st.patients| && st.patients[i].id == id;
      assert st'.patients[i].id == id;
    }
  }

  lemma ReplacePatientKeepsValid(st: Store, i: nat, p: Patient)
    requires Valid(st) && i < |st.patients| && p.id == st.patients[i].id && PatientFits(p)
    ensures Valid(st.(patients := st.patients[i := p]))
  {
    var st' := st.(patients := st.patients[i := p]);
    forall id ensures HasPatient(st, id) <==> HasPatient(st', id) {
      if HasPatient(st, id) {
        var k :| 0 <= k < |st.patients| && st.patients[k].id == id;
        assert st'.patients[k].id == id;
      }
      if HasPatient(st', id) {
        var k :| 0 <= k < |st'.patients| && st'.patients[k].id == id;
        assert st.patients[k].id == id;
      }
    }
    assert forall k :: 0 <= k < |st.patients| ==> st'.patients[k].id == st.patients[k].id;
  }

  lemma AppendSlotKeepsValid(st: Store, a: Availability)
    requires Valid(st) && a.id == st.nextId
    ensures Valid(st.(slots := st.slots + [a], nextId := st.nextId + 1))
  {
    GrowKeepsIds(st, st.(slots := st.slots + [a], nextId := st.nextId + 1));
    IdsOrderedAppend(st.slots, a, SlotId, st.nextId);
  }

  lemma RemoveSlotKeepsValid(st: Store, i: nat)
    requires Valid(st) && i < |st.slots|
    ensures Valid(st.(slots := Seqs.RemoveAt(st.slots, i)))
  {
    IdsOrderedRemoveAt(st.slots, i, SlotId, st.nextId);
  }

  lemma AppendAppointmentKeepsValid(st: Store, a: Appointment)
    requires Valid(st) && a.id == st.nextId && HasPatient(st, a.patient)
    requires forall j :: 0 <= j < |st.appointments| ==> DistinctTimeslot(st.appointments[j], a)
    ensures Valid(st.(appointments := st.appointments + [a], nextId := st.nextId + 1))
  {
    var st' := st.(appointments := st.appointments + [a], nextId := st.nextId + 1);
    GrowKeepsIds(st, st');
    IdsOrderedAppend(st.appointments, a, AppointmentId, st.nextId);
    forall id | HasAppointment(st, id) ensures HasAppointment(st', id) {
      var i :| 0 <= i < |st.appointments| && st.appointments[i].id == id;
      assert st'.appointments[i].id == id;
    }
  }

  /** Rewriting the non-key fields of one appointment keeps alert references valid. */
  lemma SameIdsKeepAlerts(st: Store, i: nat, a: Appointment)
    requires AlertsValid(st) && i < |st.appointments| && a.id == st.appointments[i].id
    ensures AlertsValid(st.(appointments := st.appointments[i := a]))
  {
    var st' := st.(appointments := st.appointments[i := a]);
    forall id | HasAppointment(st, id) ensures HasAppointment(st', id) {
      var k :| 0 <= k < |st.appointments| && st.appointments[k].id == id;
      assert st'.appointments[k].id == id;
    }
  }

  lemma ReplaceAppointmentKeepsValid(st: Store, i: nat, a: Appointment)
    requires Valid(st) && i < |st.appointments|
    requires a.id == st.appointments[i].id && a.patient == st.appointments[i].patient
    requires forall j :: 0 <= j < |st.appointments| && j != i ==> DistinctTimeslot(st.appointments[j], a)
    ensures Valid(st.(appointments := st.appointments[i := a]))
  {
    SameIdsKeepAlerts(st, i, a);
  }

  lemma SetStatusKeepsValid(st: Store, i: nat, status: Status)
    requires Valid(st) && i < |st.appointments|
    ensures Valid(st.(appointments := st.appointments[i := st.appointments[i].(status := status)]))
  {
    var a := st.appointments[i].(status := status);
    forall j | 0 <= j < |st.appointments| && j != i
      ensures DistinctTimeslot(st.appointments[j], a)
    {
      if j < i {
        assert DistinctTimeslot(st.appointments[j], st.appointments[i]);
      } else {
        assert DistinctTimeslot(st.appointments[i], st.appointments[j]);
      }
    }
    ReplaceAppointmentKeepsValid(st, i, a);
  }

  lemma AppendAlertKeepsValid(st: Store, a: StaffAlert)
    requires Valid(st) && a.id == st.nextId
    requires a.appointment.Some? ==> HasAppointment(st, a.appointment.value)
    ensures Valid(st.(alerts := st.alerts + [a], nextId := st.nextId + 1))
  {
    GrowKeepsIds(st, st.(alerts := st.alerts + [a], nextId := st.nextId + 1));
    IdsOrderedAppend(st.alerts, a, AlertId, st.nextId);
  }

  lemma AppendMemberKeepsValid(st: Store, m: FamilyMember)
    requires Valid(st) && m.id == st.nextId && HasFamily(st, m.family) && HasPatient(st, m.patient)
    requires forall j :: 0 <= j < |st.members| ==> DistinctMembership(st.members[j], m)
    ensures Valid(st.(members := st.members + [m], nextId := st.nextId + 1))
  {
    GrowKeepsIds(st, st.(members := st.members + [m], nextId := st.nextId + 1));
    IdsOrderedAppend(st.members, m, MemberId, st.nextId);
  }

  // ---------------------------------------------------------------------------
  // Writes; each enforces the constraints the schema declares
  // ---------------------------------------------------------------------------

  /** `Patient.objects.create`: DataError when a field exceeds its `max_length`. */
  function InsertPatient(st: Store, fullName: string, phone: string, dob: int, insurance: Option<string>)
    : (r: Result<(Patient, Store), Exc>)
    ensures r.Failure? <==> !PatientFits(Patient(0, fullName, phone, dob, insurance))
    ensures r.Failure? ==> r.error == DataError
    ensures r.Success? ==>
              && r.value.0 == Patient(st.nextId, fullName, phone, dob, insurance)
              && r.value.1 == st.(patients := st.patients + [r.value.0], nextId := st.nextId + 1)
    ensures r.Success? && Valid(st) ==> Valid(r.value.1)
  {
    if !PatientFits(Patient(0, fullName, phone, dob, insurance)) then Failure(DataError)
    else
      var p := Patient(st.nextId, fullName, phone, dob, insurance);
      var st' := st.(patients := st.patients + [p], nextId := st.nextId + 1);
      assert Valid(st) ==> Valid(st') by {
        if Valid(st) {
          AppendPatientKeepsValid(st, p);
        }
      }
      Success((p, st'))
  }

  /** `p.insurance_name = ...; p.save()` on the patient at position `i`. */
  function SetInsurance(st: Store, i: nat, insurance: string): (r: Result<Store, Exc>)
    requires i < |st.patients|
    ensures r.Failure? <==> |insurance| > InsuranceMaxLength
    ensures r.Failure? ==> r.error == DataError
    ensures r.Success? ==>
              && r.value == st.(patients := st.patients[i := st.patients[i].(insurance := Some(insurance))])
    ensures r.Success? && Valid(st) ==> Valid(r.value)
  {
    if |insurance| > InsuranceMaxLength then Failure(DataError)
    else
      var st' := st.(patients := st.patients[i := st.patients[i].(insurance := Some(insurance))]);
      assert Valid(st) ==> Valid(st') by {
        if Valid(st) {
          ReplacePatientKeepsValid(st, i, st.patients[i].(insurance := Some(insurance)));
        }
      }
      Success(st')
  }

  /** `Availability.objects.create`: no constraint can fail. */
  function InsertAvailability(st: Store, start: Time, end: Time, t: ApptType): (r: (Availability, Store))
    ensures r.0 == Availability(st.nextId, start, end, t)
    ensures r.1 == st.(slots := st.slots + [r.0], nextId := st.nextId + 1)
    ensures Valid(st) ==> Valid(r.1)
  {
    var a := Availability(st.nextId, start, end, t);
    var st' := st.(slots := st.slots + [a], nextId := st.nextId + 1);
    assert Valid(st) ==> Valid(st') by {
      if Valid(st) {
        AppendSlotKeepsValid(st, a);
      }
    }
    (a, st')
  }

  /** `slot.delete()` for the availability at position `i`. */
  function DeleteSlotAt(st: Store, i: nat): (r: Store)
    requires i < |st.slots|
    ensures r == st.(slots := Seqs.RemoveAt(st.slots, i))
    ensures Valid(st) ==> Valid(r)
  {
    var st' := st.(slots := Seqs.RemoveAt(st.slots, i));
    assert Valid(st) ==> Valid(st') by {
      if Valid(st) {
        RemoveSlotKeepsValid(st, i);
      }
    }
    st'
  }

  /** `Appointment.objects.create`: the status takes its default, BOOKED; the
      foreign key and `uniq_patient_timeslot` raise IntegrityError when violated. */
  function InsertAppointment(st: Store, patient: Id, t: ApptType, start: Time, end: Time,
                             notes: Option<string>): (r: Result<(Appointment, Store), Exc>)
    ensures r.Failure? <==>
              || !HasPatient(st, patient)
              || exists j :: 0 <= j < |st.appointments| && st.appointments[j].patient == patient
                             && st.appointments[j].start == start && st.appointments[j].end == end
    ensures r.Failure? ==> r.error == IntegrityError
    ensures r.Success? ==>
              && r.value.0 == Appointment(st.nextId, patient, t, start, end, notes, Booked)
              && r.value.1 == st.(appointments := st.appointments + [r.value.0], nextId := st.nextId + 1)
    ensures r.Success? && Valid(st) ==> Valid(r.value.1)
  {
    var a := Appointment(st.nextId, patient, t, start, end, notes, Booked);
    if !HasPatient(st, patient) then Failure(IntegrityError)
    else if exists j :: 0 <= j < |st.appointments| && !DistinctTimeslot(st.appointments[j], a) then
      Failure(IntegrityError)
    else
      var st' := st.(appointments := st.appointments + [a], nextId := st.nextId + 1);
      assert Valid(st) ==> Valid(st') by {
        if Valid(st) {
          AppendAppointmentKeepsValid(st, a);
        }
      }
      Success((a, st'))
  }

  /** `Appointment.objects.filter(id=...).update(start=..., end=...)` for the
      appointment at position `i`: IntegrityError when another appointment of
      the same patient already has that start and end. */
  function MoveAppointment(st: Store, i: nat, start: Time, end: Time): (r: Result<Store, Exc>)
    requires i < |st.appointments|
    ensures r.Failure? <==>
              exists j :: 0 <= j < |st.appointments| && j != i
                          && st.appointments[j].patient == st.appointments[i].patient
                          && st.appointments[j].start == start && st.appointments[j].end == end
    ensures r.Failure? ==> r.error == IntegrityError
    ensures r.Success? ==>
              r.value == st.(appointments := st.appointments[i := st.appointments[i].(start := start, end := end)])
    ensures r.Success? && Valid(st) ==> Valid(r.value)
  {
    var a := st.appointments[i].(start := start, end := end);
    if exists j :: 0 <= j < |st.appointments| && j != i && !DistinctTimeslot(st.appointments[j], a) then
      Failure(IntegrityError)
    else
      var st' := st.(appointments := st.appointments[i := a]);
      assert Valid(st) ==> Valid(st') by {
        if Valid(st) {
          ReplaceAppointmentKeepsValid(st, i, a);
        }
      }
      Success(st')
  }

  /** `appt.status = ...; appt.save(update_fields=["status"])`. */
  function SetStatus(st: Store, i: nat, status: Status): (r: Store)
    requires i < |st.appointments|
    ensures r == st.(appointments := st.appointments[i := st.appointments[i].(status := status)])
    ensures Valid(st) ==> Valid(r)
  {
    var st' := st.(appointments := st.appointments[i := st.appointments[i].(status := status)]);
    assert Valid(st) ==> Valid(st') by {
      if Valid(st) {
        SetStatusKeepsValid(st, i, status);
      }
    }
    st'
  }

  /** `StaffAlert.objects.create`: the kind defaults to GENERAL; a reference to
      a missing appointment raises IntegrityError. */
  function InsertStaffAlert(st: Store, appointment: Option<int>, kind: Option<Kind>, summary: string)
    : (r: Result<(StaffAlert, Store), Exc>)
    ensures r.Failure? <==> appointment.Some? && !HasAppointment(st, appointment.value)
    ensures r.Failure? ==> r.error == IntegrityError
    ensures r.Success? ==>
              && r.value.0.id == st.nextId
              && r.value.0.kind == kind.GetOr(General)
              && r.value.0.summary == summary
              && (r.value.0.appointment.Some? <==> appointment.Some?)
              && (appointment.Some? ==> r.value.0.appointment.value == appointment.value)
              && r.value.1 == st.(alerts := st.alerts + [r.value.0], nextId := st.nextId + 1)
    ensures r.Success? && Valid(st) ==> Valid(r.value.1)
  {
    match appointment
    case Some(id) =>
      if !HasAppointment(st, id) then Failure(IntegrityError)
      else
        var k :| 0 <= k < |st.appointments| && st.appointments[k].id == id;
        AppendAlert(st, Some(st.appointments[k].id), kind.GetOr(General), summary)
    case None =>
      AppendAlert(st, None, kind.GetOr(General), summary)
  }

  function AppendAlert(st: Store, appointment: Option<Id>, kind: Kind, summary: string)
    : (r: Result<(StaffAlert, Store), Exc>)
    requires appointment.Some? ==> HasAppointment(st, appointment.value)
    ensures r.Success?
    ensures r.value.0 == StaffAlert(st.nextId, appointment, kind, summary)
    ensures r.value.1 == st.(alerts := st.alerts + [r.value.0], nextId := st.nextId + 1)
    ensures Valid(st) ==> Valid(r.value.1)
  {
    var a := StaffAlert(st.nextId, appointment, kind, summary);
    var st' := st.(alerts := st.alerts + [a], nextId := st.nextId + 1);
    assert Valid(st) ==> Valid(st') by {
      if Valid(st) {
        AppendAlertKeepsValid(st, a);
      }
    }
    Success((a, st'))
  }

  /** `FamilyMember.objects.create`: the relationship defaults to SELF; a second
      membership of the same patient in the same family, or a missing family or
      patient, raises IntegrityError. */
  function InsertFamilyMember(st: Store, family: Id, patient: Id, relationship: Option<Relationship>)
    : (r: Result<(FamilyMember, Store), Exc>)
    ensures r.Failure? <==>
              || !HasFamily(st, family) || !HasPatient(st, patient)
              || exists j :: 0 <= j < |st.members| && st.members[j].family == family
                             && st.members[j].patient == patient
    ensures r.Failure? ==> r.error == IntegrityError
    ensures r.Success? ==>
              && r.value.0 == FamilyMember(st.nextId, family, patient, relationship.GetOr(Self))
              && r.value.1 == st.(members := st.members + [r.value.0], nextId := st.nextId + 1)
    ensures r.Success? && Valid(st) ==> Valid(r.value.1)
  {
    var m := FamilyMember(st.nextId, family, patient, relationship.GetOr(Self));
    if !HasFamily(st, family) || !HasPatient(st, patient) then Failure(IntegrityError)
    else if exists j :: 0 <= j < |st.members| && !DistinctMembership(st.members[j], m) then
      Failure(IntegrityError)
    else
      var st' := st.(members := st.members + [m], nextId := st.nextId + 1);
      assert Valid(st) ==> Valid(st') by {
        if Valid(st) {
          AppendMemberKeepsValid(st, m);
        }
      }
      Success((m, st'))
  }
}

=== FILE: router.dfy ===
/** Tool-call extraction from the assistant's text and dispatch through the
    fixed tool table (backend/chat/router.py). */
module Router {
  import opened Wrappers
  import opened Text
  import opened Json
  import opened Models
  import opened Tools

  // ---------------------------------------------------------------------------
  // Brace-depth extraction
  // ---------------------------------------------------------------------------

  /** The text that announces a tool call. */
  const Marker: string := "{\"tool\":"

  /** How one character moves the brace counter. */
  function BraceDelta(c: char): int {
    if c == '{' then 1 else if c == '}' then -1 else 0
  }

  /** Opening minus closing braces in `t`: the counter after scanning `t`.
      Braces inside JSON string literals count like any other. */
  function Depth(t: string): int {
    if |t| == 0 then 0 else Depth(t[..|t| - 1]) + BraceDelta(t[|t| - 1])
  }

  lemma DepthSnoc(s: string, a: nat, m: nat)
    requires a <= m < |s|
    ensures Depth(s[a..m + 1]) == Depth(s[a..m]) + BraceDelta(s[m])
  {
    assert s[a..m + 1][..m - a] == s[a..m];
  }

  /** The counter, started at `start`, first returns to zero just before `e`. */
  ghost predicate FirstClose(s: string, start: nat, e: nat) {
    && start < e <= |s|
    && Depth(s[start..e]) == 0
    && forall m :: start < m < e ==> Depth(s[start..m]) != 0
  }

  /** The counter, started at `start`, never returns to zero. */
  ghost predicate NeverCloses(s: string, start: nat)
    requires start <= |s|
  {
    forall m :: start < m <= |s| ==> Depth(s[start..m]) != 0
  }

  /** The scan of `maybe_parse_tool_call` from index `i` with counter `count`:
      the end (exclusive) of the extracted text. */
  function ScanEnd(s: string, i: nat, count: int): (e: nat)
    requires i <= |s|
    ensures i <= e <= |s|
    decreases |s| - i
  {
    if i == |s| then |s|
    else
      var c := count + BraceDelta(s[i]);
      if c == 0 then i + 1 else ScanEnd(s, i + 1, c)
  }

  /** The end (exclusive) of the text extracted from `start`. */
  function CallEnd(s: string, start: nat): (e: nat)
    requires start <= |s|
    ensures start <= e <= |s|
  {
    ScanEnd(s, start, 0)
  }

  lemma {:induction false} ScanEndSpec(s: string, start: nat, i: nat, count: int)
    requires start <= i <= |s|
    requires count == Depth(s[start..i])
    requires forall m :: start < m <= i ==> Depth(s[start..m]) != 0
    ensures FirstClose(s, start, ScanEnd(s, i, count))
            || (ScanEnd(s, i, count) == |s| && NeverCloses(s, start))
    decreases |s| - i
  {
    if i < |s| {
      DepthSnoc(s, start, i);
      if count + BraceDelta(s[i]) != 0 {
        ScanEndSpec(s, start, i + 1, count + BraceDelta(s[i]));
      }
    }
  }

  /** The extracted text ends where the counter first returns to zero, and is
      the whole rest of the text when it never does. */
  lemma CallEndSpec(s: string, start: nat)
    requires start <= |s|
    ensures FirstClose(s, start, CallEnd(s, start))
            || (CallEnd(s, start) == |s| && NeverCloses(s, start))
  {
    ScanEndSpec(s, start, start, 0);
  }

  /** At most one end satisfies the extraction's description. */
  lemma CloseUnique(s: string, start: nat, e1: nat, e2: nat)
    requires FirstClose(s, start, e1)
    requires FirstClose(s, start, e2) || (e2 == |s| && NeverCloses(s, start))
    ensures e1 == e2
  {
  }

  /** Every proper prefix of an extracted call that starts with an opening
      brace is open: the counter stays positive until it closes, so what is
      extracted is brace-balanced. */
  lemma {:induction false} OpenUntilClose(s: string, start: nat, e: nat, m: nat)
    requires start < |s| && s[start] == '{'
    requires start < m <= e <= |s|
    requires forall k :: start < k < e ==> Depth(s[start..k]) != 0
    requires m < e
    ensures Depth(s[start..m]) > 0
  {
    DepthSnoc(s, start, m - 1);
    if m - 1 == start {
      assert s[start..start] == [];
    } else {
      OpenUntilClose(s, start, e, m - 1);
    }
  }

  /** The scan loop of `maybe_parse_tool_call` as written: it counts braces
      from the marker, stops once the count is back to zero, and slices up to
      one past the last index it recorded. */
  method ScanCall(s: string, start: nat) returns (call: string)
    requires start < |s| && s[start] == '{'
    ensures start + |call| <= |s| && call == s[start..start + |call|]
    ensures FirstClose(s, start, start + |call|)
            || (start + |call| == |s| && NeverCloses(s, start))
    ensures forall m :: start < m < start + |call| ==> Depth(s[start..m]) > 0
    ensures call == s[start..CallEnd(s, start)]
  {
    var count := 0;
    var endIndex := start;
    var i := start;
    while i < |s|
      invariant start <= i <= |s|
      invariant count == Depth(s[start..i])
      invariant forall m :: start < m <= i ==> Depth(s[start..m]) != 0
      invariant i > start ==> endIndex == i
    {
      DepthSnoc(s, start, i);
      if s[i] == '{' {
        count := count + 1;
      } else if s[i] == '}' {
        count := count - 1;
      }
      if count == 0 {
        break;
      }
      endIndex := i + 1;
      i := i + 1;
    }
    var stop := if endIndex + 1 < |s| then endIndex + 1 else |s|;
    call := s[start..stop];
    assert s[start..start] == [];
    forall m | start < m < start + |call|
      ensures Depth(s[start..m]) > 0
    {
      OpenUntilClose(s, start, start + |call|, m);
    }
    CallEndSpec(s, start);
    if FirstClose(s, start, start + |call|) {
      CloseUnique(s, start, start + |call|, CallEnd(s, start));
    }
  }

  /** The tool call's text inside (already stripped) assistant text: from the
      first marker to where the brace count first closes. */
  function CallText(s: string): (r: Option<string>)
    ensures r.None? <==> !Contains(s, Marker)
  {
    match Find(s, Marker)
    case None => None
    case Some(i) => Some(s[i..CallEnd(s, i)])
  }

  /** `maybe_parse_tool_call`: the parsed call when the extracted text is a JSON
      object with both a `tool` and a `parameters` member; `None` otherwise,
      including when `json.loads` fails. */
  function MaybeParseToolCall(text: string, parse: string -> Option<Json>): (r: Option<map<string, Json>>)
    ensures !Contains(Strip(text), Marker) ==> r.None?
    ensures r.Some? ==> "tool" in r.value && "parameters" in r.value
    ensures r.Some? <==>
              && CallText(Strip(text)).Some?
              && var obj := parse(CallText(Strip(text)).value);
                 obj.Some? && obj.value.JObj? && "tool" in obj.value.fields && "parameters" in obj.value.fields
    ensures r.Some? ==> parse(CallText(Strip(text)).value) == Some(JObj(r.value))
  {
    match CallText(Strip(text))
    case None => None
    case Some(call) =>
      match parse(call)
      case Some(JObj(fields)) =>
        if "tool" in fields && "parameters" in fields then Some(fields) else None
      case _ => None
  }

  /** No character after the first opens a brace, so a marker cannot start
      inside text that ends just before another marker. */
  lemma MarkerTail(k: nat)
    requires 0 < k < |Marker|
    ensures Marker[k] != '{'
  {
  }

  /** In a marker-free lead-in followed by a text that starts with the
      marker, the first marker is the second text's. */
  lemma FirstMarkerAfter(p: string, t: string, q: string)
    requires !Contains(p, Marker)
    requires StartsWith(t, Marker)
    ensures Find(p + t + q, Marker) == Some(|p|)
  {
    var s := p + t + q;
    assert OccursAt(s, Marker, |p|) by {
      assert s[|p|..|p| + |Marker|] == t[..|Marker|];
    }
    forall j: nat | j < |p|
      ensures !OccursAt(s, Marker, j)
    {
      if j + |Marker| <= |p| {
        assert s[j..j + |Marker|] == p[j..j + |Marker|];
        assert !OccursAt(p, Marker, j);
      } else if j + |Marker| <= |s| {
        MarkerTail(|p| - j);
        assert s[|p|] == t[0] == '{';
        assert s[j..j + |Marker|][|p| - j] != Marker[|p| - j];
      }
    }
  }

  /** The extracted call of a text that is some marker-free lead-in, then a
      call starting with the marker whose braces first balance at its last
      character, then anything, is exactly that call: text before the marker
      is ignored and text after the closing brace is cut off. */
  lemma {:induction false} CallTextOfEmbedded(p: string, t: string, q: string)
    requires !Contains(p, Marker)
    requires StartsWith(t, Marker)
    requires Depth(t) == 0 && forall m :: 0 < m < |t| ==> Depth(t[..m]) != 0
    ensures CallText(p + t + q) == Some(t)
  {
    var s := p + t + q;
    FirstMarkerAfter(p, t, q);
    forall m | |p| < m < |p| + |t|
      ensures Depth(s[|p|..m]) != 0
    {
      assert s[|p|..m] == t[..m - |p|];
    }
    assert s[|p|..|p| + |t|] == t;
    assert FirstClose(s, |p|, |p| + |t|);
    CallEndSpec(s, |p|);
    CloseUnique(s, |p|, |p| + |t|, CallEnd(s, |p|));
  }

  /** Hence a well-formed call embedded this way in the assistant's (stripped)
      text is returned whenever it parses to an object with `tool` and
      `parameters`. */
  lemma ParsesEmbeddedCall(text: string, parse: string -> Option<Json>, p: string, t: string, q: string,
                           fields: map<string, Json>)
    requires Strip(text) == p + t + q
    requires !Contains(p, Marker)
    requires StartsWith(t, Marker)
    requires Depth(t) == 0 && forall m :: 0 < m < |t| ==> Depth(t[..m]) != 0
    requires parse(t) == Some(JObj(fields)) && "tool" in fields && "parameters" in fields
    ensures MaybeParseToolCall(text, parse) == Some(fields)
  {
    CallTextOfEmbedded(p, t, q);
  }

  // ---------------------------------------------------------------------------
  // Dispatch
  // ---------------------------------------------------------------------------

  /** The seven tools the assistant may call. */
  datatype Tool =
    | VerifyPatientTool
    | ListAppointmentsTool
    | FindSlotsTool
    | BookAppointmentTool
    | RescheduleAppointmentTool
    | CancelAppointmentTool
    | CreateStaffAlertTool

  function ToolName(t: Tool): string {
    match t
    case VerifyPatientTool => "verify_patient"
    case ListAppointmentsTool => "list_appointments"
    case FindSlotsTool => "find_slots"
    case BookAppointmentTool => "book_appointment"
    case RescheduleAppointmentTool => "reschedule_appointment"
    case CancelAppointmentTool => "cancel_appointment"
    case CreateStaffAlertTool => "create_staff_alert"
  }

  /** `TOOL_FNS`: tool name to tool. */
  const ToolFns: map<string, Tool> := map[
    "verify_patient" := VerifyPatientTool,
    "list_appointments" := ListAppointmentsTool,
    "find_slots" := FindSlotsTool,
    "book_appointment" := BookAppointmentTool,
    "reschedule_appointment" := RescheduleAppointmentTool,
    "cancel_appointment" := CancelAppointmentTool,
    "create_staff_alert" := CreateStaffAlertTool
  ]

  /** The table holds every tool under its own name ... */
  lemma ToolTableComplete(t: Tool)
    ensures ToolName(t) in ToolFns && ToolFns[ToolName(t)] == t
  {
  }

  /** ... and nothing else. */
  lemma ToolTableNames(name: string)
    ensures name in ToolFns ==> ToolName(ToolFns[name]) == name
  {
  }

  /** There are seven tools, one per name. */
  lemma ToolTableSize()
    ensures |ToolFns| == 7
    ensures forall t: Tool :: ToolName(t) in ToolFns
  {
  }

  /** How each tool reads its `params`: dictionary lookups, `int()` and ISO
      date parsing, any of which may raise. `book_appointment` and
      `reschedule_appointment` read theirs in two stages, with work between
      them, so each stage has its own decoder. */
  datatype Decoders = Decoders(
    verifyArgs: Json -> Result<(string, string), Exc>,
    listArgs: Json -> Result<ListQuery, Exc>,
    findArgs: Json -> Result<SlotQuery, Exc>,
    /** `params["patient_info"]`, read first */
    bookPatient: Json -> Result<PatientInfo, Exc>,
    /** `params["type"]`, the parsed `params["start"]` and `params.get("notes")`,
        read once the patient is found or created */
    bookSlot: Json -> Result<(string, Time, Option<string>), Exc>,
    /** `params["appointment_id"]`, read first */
    rescheduleId: Json -> Result<int, Exc>,
    /** the parsed `params["new_start"]`, read once the appointment is found */
    rescheduleStart: Json -> Result<Time, Exc>,
    cancelArgs: Json -> Result<int, Exc>,
    alertArgs: Json -> Result<AlertRequest, Exc>)

  /** A tool run on its parameters; an exception is the `Failure`. Each tool
      raises what its first failing step raises, in the order the tool takes
      its steps, and otherwise returns what the tool's own operation returns.
      A normal return never reports an exception or an unknown tool, the three
      lookup tools leave the store alone, and every tool keeps the schema's
      constraints. */
  function RunTool(st: Store, env: Env, dec: Decoders, t: Tool, params: Json): (r: Result<Outcome, Exc>)
    ensures t == VerifyPatientTool ==>
              var a := dec.verifyArgs(params);
              && (a.Failure? ==> r == Failure(a.error))
              && (a.Success? ==> r == Success(Outcome(VerifyPatient(st, a.value.0, a.value.1), st)))
    ensures t == ListAppointmentsTool ==>
              var a := dec.listArgs(params);
              && (a.Failure? ==> r == Failure(a.error))
              && (a.Success? && ListAppointments(st, env, a.value).Failure? ==>
                    r == Failure(ListAppointments(st, env, a.value).error))
              && (a.Success? && ListAppointments(st, env, a.value).Success? ==>
                    r == Success(Outcome(ListAppointments(st, env, a.value).value, st)))
    ensures t == FindSlotsTool ==>
              var a := dec.findArgs(params);
              && (a.Failure? ==> r == Failure(a.error))
              && (a.Success? && FindSlots(st, env, a.value).Failure? ==>
                    r == Failure(FindSlots(st, env, a.value).error))
              && (a.Success? && FindSlots(st, env, a.value).Success? ==>
                    r == Success(Outcome(FindSlots(st, env, a.value).value, st)))
    ensures t == BookAppointmentTool ==>
              var info := dec.bookPatient(params);
              && (info.Failure? ==> r == Failure(info.error))
              && (info.Success? ==>
                    var found, rest := GetOrCreatePatient(st, info.value, Today(env)), dec.bookSlot(params);
                    && (found.Failure? ==> r == Failure(found.error))
                    && (found.Success? && rest.Failure? ==> r == Failure(rest.error))
                    && (found.Success? && rest.Success? ==>
                          r == BookAppointment(st, env, BookRequest(info.value, rest.value.0, rest.value.1, rest.value.2))))
    ensures t == RescheduleAppointmentTool ==>
              var id := dec.rescheduleId(params);
              && (id.Failure? ==> r == Failure(id.error))
              && (id.Success? && !HasAppointment(st, id.value) ==> r == Failure(DoesNotExist))
              && (id.Success? && HasAppointment(st, id.value) ==>
                    var newStart := dec.rescheduleStart(params);
                    && (newStart.Failure? ==> r == Failure(newStart.error))
                    && (newStart.Success? ==>
                          r == RescheduleAppointment(st, RescheduleRequest(id.value, newStart.value))))
    ensures t == CancelAppointmentTool ==>
              var id := dec.cancelArgs(params);
              && (id.Failure? ==> r == Failure(id.error))
              && (id.Success? ==> r == Success(CancelAppointment(st, id.value)))
    ensures t == CreateStaffAlertTool ==>
              var a := dec.alertArgs(params);
              && (a.Failure? ==> r == Failure(a.error))
              && (a.Success? ==> r == CreateStaffAlert(st, a.value))
    ensures r.Success? && r.value.reply.Failed? ==>
              !r.value.reply.error.Raised? && !r.value.reply.error.UnknownTool?
    ensures r.Success? && t in {VerifyPatientTool, ListAppointmentsTool, FindSlotsTool} ==> r.value.store == st
    ensures r.Success? && Valid(st) ==> Valid(r.value.store)
  {
    match t
    case VerifyPatientTool =>
      var (name, phone) :- dec.verifyArgs(params);
      Success(Outcome(VerifyPatient(st, name, phone), st))
    case ListAppointmentsTool =>
      var q :- dec.listArgs(params);
      var reply :- ListAppointments(st, env, q);
      Success(Outcome(reply, st))
    case FindSlotsTool =>
      var q :- dec.findArgs(params);
      var reply :- FindSlots(st, env, q);
      Success(Outcome(reply, st))
    case BookAppointmentTool =>
      var info :- dec.bookPatient(params);
      // `_get_or_create_patient` runs before `params["type"]` is read; what it
      // writes is rolled back with the rest of the transaction if that raises
      var found :- GetOrCreatePatient(st, info, Today(env));
      var (apptType, start, notes) :- dec.bookSlot(params);
      BookAppointment(st, env, BookRequest(info, apptType, start, notes))
    case RescheduleAppointmentTool =>
      var id :- dec.rescheduleId(params);
      // `.get(id=...)` raises DoesNotExist before `new_start` is parsed
      if !HasAppointment(st, id) then Failure(DoesNotExist)
      else
        var newStart :- dec.rescheduleStart(params);
        RescheduleAppointment(st, RescheduleRequest(id, newStart))
    case CancelAppointmentTool =>
      var id :- dec.cancelArgs(params);
      Success(CancelAppointment(st, id))
    case CreateStaffAlertTool =>
      var q :- dec.alertArgs(params);
      CreateStaffAlert(st, q)
  }

  /** `execute_tool`: never raises. An unknown name and an exception both
      come back as a failed reply, with the store as it was. */
  function ExecuteTool(st: Store, env: Env, dec: Decoders, name: string, params: Json): (r: Outcome)
    ensures name !in ToolFns ==> r == Outcome(Failed(UnknownTool(name)), st)
    ensures name in ToolFns ==> !(r.reply.Failed? && r.reply.error.UnknownTool?)
    ensures r.reply.Failed? && r.reply.error.Raised? ==> r.store == st
    ensures name in ToolFns && RunTool(st, env, dec, ToolFns[name], params).Failure? ==>
              r == Outcome(Failed(Raised(RunTool(st, env, dec, ToolFns[name], params).error)), st)
    ensures name in ToolFns && RunTool(st, env, dec, ToolFns[name], params).Success? ==>
              r == RunTool(st, env, dec, ToolFns[name], params).value
    ensures name in ToolFns && ToolFns[name] in {VerifyPatientTool, ListAppointmentsTool, FindSlotsTool} ==>
              r.store == st
    ensures Valid(st) ==> Valid(r.store)
  {
    if name !in ToolFns then Outcome(Failed(UnknownTool(name)), st)
    else
      match RunTool(st, env, dec, ToolFns[name], params)
      case Failure(e) => Outcome(Failed(Raised(e)), st)
      case Success(o) => o
  }
}

=== FILE: seqs.dfy ===
/** Query-set operations over sequences: filter, order by an integer key, slice, first. */
module Seqs {
  import opened Wrappers

  function Filter<T>(s: seq<T>, p: T -> bool): (r: seq<T>)
    ensures FilterOf(s, p, r)
  {
    if |s| == 0 then []
    else
      var rest := Filter(s[1..], p);
      FilterCons(s, p, rest);
      if p(s[0]) then [s[0]] + rest else rest
  }

  /** `r` keeps exactly the elements of `s` satisfying `p`, each no more often
      than in `s`. */
  ghost predicate FilterOf<T>(s: seq<T>, p: T -> bool, r: seq<T>) {
    && |r| <= |s|
    && (forall i :: 0 <= i < |r| ==> r[i] in s && p(r[i]))
    && (forall i :: 0 <= i < |s| && p(s[i]) ==> s[i] in r)
    && multiset(r) <= multiset(s)
  }

  lemma FilterCons<T>(s: seq<T>, p: T -> bool, rest: seq<T>)
    requires |s| > 0 && FilterOf(s[1..], p, rest)
    ensures FilterOf(s, p, if p(s[0]) then [s[0]] + rest else rest)
  {
    assert s == [s[0]] + s[1..];
    var r := if p(s[0]) then [s[0]] + rest else rest;
    forall i | 0 <= i < |s| && p(s[i])
      ensures s[i] in r
    {
      if i > 0 {
        assert s[i] == s[1..][i - 1];
      }
    }
  }

  /** The multiplicity of every element the filter keeps is unchanged. */
  lemma {:induction false} FilterCount<T>(s: seq<T>, p: T -> bool, x: T)
    requires p(x)
    ensures multiset(Filter(s, p))[x] == multiset(s)[x]
  {
    if |s| > 0 {
      assert s == [s[0]] + s[1..];
      FilterCount(s[1..], p, x);
    }
  }

  ghost predicate SortedBy<T>(s: seq<T>, key: T -> int) {
    forall i, j :: 0 <= i < j < |s| ==> key(s[i]) <= key(s[j])
  }

  function Insert<T>(x: T, s: seq<T>, key: T -> int): (r: seq<T>)
    requires SortedBy(s, key)
    ensures SortedBy(r, key)
    ensures multiset(r) == multiset(s) + multiset{x}
    ensures |r| == |s| + 1
  {
    if |s| == 0 || key(x) <= key(s[0]) then [x] + s
    else
      var rest := Insert(x, s[1..], key);
      assert s == [s[0]] + s[1..];
      HeadBeforeRest(s, x, rest, key);
      [s[0]] + rest
  }

  /** Putting the head of a sorted sequence before a sorted permutation of its
      tail and a larger element keeps the order. */
  lemma HeadBeforeRest<T>(s: seq<T>, x: T, rest: seq<T>, key: T -> int)
    requires |s| > 0 && SortedBy(s, key) && key(s[0]) < key(x)
    requires SortedBy(rest, key) && multiset(rest) == multiset(s[1..]) + multiset{x}
    ensures SortedBy([s[0]] + rest, key)
  {
    forall j | 0 <= j < |rest|
      ensures key(s[0]) <= key(rest[j])
    {
      assert rest[j] in multiset(rest);
      if rest[j] != x {
        assert rest[j] in multiset(s[1..]);
        var k :| 0 <= k < |s[1..]| && s[1..][k] == rest[j];
        assert s[k + 1] == rest[j];
      }
    }
  }

  /** `order_by(key)`: a permutation of `s` in ascending key order. */
  function SortBy<T>(s: seq<T>, key: T -> int): (r: seq<T>)
    ensures SortedBy(r, key)
    ensures multiset(r) == multiset(s)
    ensures |r| == |s|
  {
    if |s| == 0 then []
    else
      assert s == [s[0]] + s[1..];
      Insert(s[0], SortBy(s[1..], key), key)
  }

  /** Python's slice `s[:n]` for `n >= 0`. */
  function Take<T>(s: seq<T>, n: nat): (r: seq<T>)
    ensures |r| == if |s| <= n then |s| else n
    ensures r == s[..|r|]
  {
    if |s| <= n then s else s[..n]
  }

  /** The index of the first element satisfying `p`. */
  function FirstIndex<T>(s: seq<T>, p: T -> bool): (r: Option<nat>)
    ensures r.Some? ==> r.value < |s| && p(s[r.value])
    ensures r.Some? ==> forall j :: 0 <= j < r.value ==> !p(s[j])
    ensures r.None? ==> forall j :: 0 <= j < |s| ==> !p(s[j])
  {
    if |s| == 0 then None
    else if p(s[0]) then Some(0)
    else
      match FirstIndex(s[1..], p)
      case None => None
      case Some(i) => Some(i + 1)
  }

  /** `filter(p).order_by(key).first()`: the least-key element satisfying
      `p`, the earliest one in `s` among equal keys. */
  function FirstMinBy<T>(s: seq<T>, p: T -> bool, key: T -> int): (r: Option<nat>)
    ensures r.Some? ==> r.value < |s| && p(s[r.value])
    ensures r.Some? ==> forall j :: 0 <= j < |s| && p(s[j]) ==> key(s[r.value]) <= key(s[j])
    ensures r.Some? ==> forall j :: 0 <= j < r.value && p(s[j]) ==> key(s[r.value]) < key(s[j])
    ensures r.None? ==> forall j :: 0 <= j < |s| ==> !p(s[j])
  {
    if |s| == 0 then None
    else
      var rest := FirstMinBy(s[1..], p, key);
      if !p(s[0]) then
        (match rest case None => None case Some(i) => Some(i + 1))
      else if rest.Some? && key(s[1..][rest.value]) < key(s[0]) then Some(rest.value + 1)
      else Some(0)
  }

  /** `s` with the element at index `i` deleted. */
  function RemoveAt<T>(s: seq<T>, i: nat): (r: seq<T>)
    requires i < |s|
    ensures |r| == |s| - 1
    ensures forall j :: 0 <= j < i ==> r[j] == s[j]
    ensures forall j :: i <= j < |r| ==> r[j] == s[j + 1]
    ensures multiset(r) + multiset{s[i]} == multiset(s)
  {
    assert s == s[..i] + [s[i]] + s[i + 1..];
    s[..i] + s[i + 1..]
  }

  /** `filter(p).order_by(key)[:n]` returns the `n` least-key elements
      satisfying `p`: whatever it leaves out has a key no smaller than any it
      keeps, and it leaves nothing out when it returns fewer than `n`. */
  lemma {:induction false} EarliestPrefix<T>(s: seq<T>, p: T -> bool, key: T -> int, n: nat)
    ensures var items := Take(SortBy(Filter(s, p), key), n);
            forall x, i :: x in s && p(x) && x !in items && 0 <= i < |items| ==> key(items[i]) <= key(x)
    ensures var items := Take(SortBy(Filter(s, p), key), n);
            |items| < n ==> forall x :: x in s && p(x) ==> x in items
  {
    var matching := Filter(s, p);
    var sorted := SortBy(matching, key);
    var items := Take(sorted, n);
    forall x | x in s && p(x)
      ensures x in sorted
    {
      var k :| 0 <= k < |s| && s[k] == x;
      assert x in matching;
      assert x in multiset(matching);
    }
    forall x, i | x in s && p(x) && x !in items && 0 <= i < |items|
      ensures key(items[i]) <= key(x)
    {
      assert x in sorted;
      var k :| 0 <= k < |sorted| && sorted[k] == x;
      assert items[i] == sorted[i];
    }
  }

  /** What `filter(p).order_by(key)[:n]` returns: elements of `s` satisfying
      `p`, each no more often than in `s`, in key order. */
  lemma SelectFacts<T>(s: seq<T>, p: T -> bool, key: T -> int, n: nat)
    ensures var items := Take(SortBy(Filter(s, p), key), n);
            && (forall i :: 0 <= i < |items| ==> items[i] in s && p(items[i]))
            && multiset(items) <= multiset(s)
            && SortedBy(items, key)
    ensures |Take(SortBy(Filter(s, p), key), n)| <= n
  {
    var matching := Filter(s, p);
    var sorted := SortBy(matching, key);
    var items := Take(sorted, n);
    PrefixMultiset(sorted, |items|);
    assert multiset(items) <= multiset(matching);
    forall i | 0 <= i < |items|
      ensures items[i] in s && p(items[i])
    {
      assert items[i] in multiset(matching);
      var k :| 0 <= k < |matching| && matching[k] == items[i];
    }
  }

  lemma PrefixMultiset<T>(s: seq<T>, k: nat)
    requires k <= |s|
    ensures multiset(s[..k]) <= multiset(s)
  {
    assert s == s[..k] + s[k..];
  }

  /** What `filter(p).order_by(key)` returns: exactly the elements of `s`
      satisfying `p`, in key order. */
  lemma SortedFilterFacts<T>(s: seq<T>, p: T -> bool, key: T -> int)
    ensures var r := SortBy(Filter(s, p), key);
            && (forall i :: 0 <= i < |r| ==> r[i] in s && p(r[i]))
            && (forall i :: 0 <= i < |s| && p(s[i]) ==> s[i] in r)
            && multiset(r) <= multiset(s)
            && SortedBy(r, key)
  {
    var matching := Filter(s, p);
    var r := SortBy(matching, key);
    forall i | 0 <= i < |r|
      ensures r[i] in s && p(r[i])
    {
      assert r[i] in multiset(matching);
    }
    forall i | 0 <= i < |s| && p(s[i])
      ensures s[i] in r
    {
      assert s[i] in multiset(matching);
    }
  }
}

=== FILE: text.dfy ===
/** Character and string helpers with Python `str` semantics. */
module Text {
  import opened Wrappers

  /** Python's `str.isspace`: the characters `str.strip()` removes. */
  predicate IsSpace(c: char) {
    || ('\U{9}' <= c <= '\U{D}')
    || ('\U{1C}' <= c <= '\U{20}')
    || c == '\U{85}' || c == '\U{A0}' || c == '\U{1680}'
    || ('\U{2000}' <= c <= '\U{200A}')
    || c == '\U{2028}' || c == '\U{2029}' || c == '\U{202F}'
    || c == '\U{205F}' || c == '\U{3000}'
  }

  /** A Unicode decimal digit (general category Nd, Unicode 15.0): what the
      regular expression class `\d` matches in a `str` pattern. */
  predicate IsDigit(c: char) {
    || ('\U{30}' <= c <= '\U{39}') || ('\U{660}' <= c <= '\U{669}') || ('\U{6F0}' <= c <= '\U{6F9}')
    || ('\U{7C0}' <= c <= '\U{7C9}') || ('\U{966}' <= c <= '\U{96F}') || ('\U{9E6}' <= c <= '\U{9EF}')
    || ('\U{A66}' <= c <= '\U{A6F}') || ('\U{AE6}' <= c <= '\U{AEF}') || ('\U{B66}' <= c <= '\U{B6F}')
    || ('\U{BE6}' <= c <= '\U{BEF}') || ('\U{C66}' <= c <= '\U{C6F}') || ('\U{CE6}' <= c <= '\U{CEF}')
    || ('\U{D66}' <= c <= '\U{D6F}') || ('\U{DE6}' <= c <= '\U{DEF}') || ('\U{E50}' <= c <= '\U{E59}')
    || ('\U{ED0}' <= c <= '\U{ED9}') || ('\U{F20}' <= c <= '\U{F29}') || ('\U{1040}' <= c <= '\U{1049}')
    || ('\U{1090}' <= c <= '\U{1099}') || ('\U{17E0}' <= c <= '\U{17E9}') || ('\U{1810}' <= c <= '\U{1819}')
    || ('\U{1946}' <= c <= '\U{194F}') || ('\U{19D0}' <= c <= '\U{19D9}') || ('\U{1A80}' <= c <= '\U{1A89}')
    || ('\U{1A90}' <= c <= '\U{1A99}') || ('\U{1B50}' <= c <= '\U{1B59}') || ('\U{1BB0}' <= c <= '\U{1BB9}')
    || ('\U{1C40}' <= c <= '\U{1C49}') || ('\U{1C50}' <= c <= '\U{1C59}') || ('\U{A620}' <= c <= '\U{A629}')
    || ('\U{A8D0}' <= c <= '\U{A8D9}') || ('\U{A900}' <= c <= '\U{A909}') || ('\U{A9D0}' <= c <= '\U{A9D9}')
    || ('\U{A9F0}' <= c <= '\U{A9F9}') || ('\U{AA50}' <= c <= '\U{AA59}') || ('\U{ABF0}' <= c <= '\U{ABF9}')
    || ('\U{FF10}' <= c <= '\U{FF19}') || ('\U{104A0}' <= c <= '\U{104A9}') || ('\U{10D30}' <= c <= '\U{10D39}')
    || ('\U{11066}' <= c <= '\U{1106F}') || ('\U{110F0}' <= c <= '\U{110F9}') || ('\U{11136}' <= c <= '\U{1113F}')
    || ('\U{111D0}' <= c <= '\U{111D9}') || ('\U{112F0}' <= c <= '\U{112F9}') || ('\U{11450}' <= c <= '\U{11459}')
    || ('\U{114D0}' <= c <= '\U{114D9}') || ('\U{11650}' <= c <= '\U{11659}') || ('\U{116C0}' <= c <= '\U{116C9}')
    || ('\U{11730}' <= c <= '\U{11739}') || ('\U{118E0}' <= c <= '\U{118E9}') || ('\U{11950}' <= c <= '\U{11959}')
    || ('\U{11C50}' <= c <= '\U{11C59}') || ('\U{11D50}' <= c <= '\U{11D59}') || ('\U{11DA0}' <= c <= '\U{11DA9}')
    || ('\U{11F50}' <= c <= '\U{11F59}') || ('\U{16A60}' <= c <= '\U{16A69}') || ('\U{16AC0}' <= c <= '\U{16AC9}')
    || ('\U{16B50}' <= c <= '\U{16B59}') || ('\U{1D7CE}' <= c <= '\U{1D7FF}') || ('\U{1E140}' <= c <= '\U{1E149}')
    || ('\U{1E2F0}' <= c <= '\U{1E2F9}') || ('\U{1E4F0}' <= c <= '\U{1E4F9}') || ('\U{1E950}' <= c <= '\U{1E959}')
    || ('\U{1FBF0}' <= c <= '\U{1FBF9}')
  }

  predicate AllDigits(s: string) {
    forall i :: 0 <= i < |s| ==> IsDigit(s[i])
  }

  /** Number of leading whitespace characters. */
  function LeadingSpace(s: string): (n: nat)
    ensures n <= |s|
    ensures forall i :: 0 <= i < n ==> IsSpace(s[i])
    ensures n < |s| ==> !IsSpace(s[n])
  {
    if |s| == 0 || !IsSpace(s[0]) then 0 else 1 + LeadingSpace(s[1..])
  }

  /** Number of trailing whitespace characters. */
  function TrailingSpace(s: string): (n: nat)
    ensures n <= |s|
    ensures forall i :: |s| - n <= i < |s| ==> IsSpace(s[i])
    ensures n < |s| ==> !IsSpace(s[|s| - 1 - n])
  {
    if |s| == 0 || !IsSpace(s[|s| - 1]) then 0 else 1 + TrailingSpace(s[..|s| - 1])
  }

  /** Python's `str.strip()` with no argument. */
  function Strip(s: string): (r: string)
    ensures |r| <= |s|
    ensures r == [] || (!IsSpace(r[0]) && !IsSpace(r[|r| - 1]))
    ensures LeadingSpace(s) + |r| <= |s|
    ensures r == s[LeadingSpace(s)..LeadingSpace(s) + |r|]
    ensures forall k :: LeadingSpace(s) + |r| <= k < |s| ==> IsSpace(s[k])
  {
    var lead := LeadingSpace(s);
    if lead == |s| then
      assert s[0..0] == [];
      []
    else
      var rest := s[lead..];
      var trail := TrailingSpace(rest);
      assert trail < |rest| by {
        assert !IsSpace(rest[0]);
      }
      var r := rest[..|rest| - trail];
      assert r == s[lead..lead + |r|];
      r
  }

  /** The digits of `s`, in order (`re.sub(r"\D+", "", s)`). */
  function Digits(s: string): (r: string)
    ensures AllDigits(r)
    ensures |r| <= |s|
  {
    if |s| == 0 then []
    else if IsDigit(s[0]) then [s[0]] + Digits(s[1..])
    else Digits(s[1..])
  }

  lemma {:induction false} DigitsAppend(a: string, b: string)
    ensures Digits(a + b) == Digits(a) + Digits(b)
  {
    if |a| == 0 {
      assert a + b == b;
    } else {
      assert (a + b)[1..] == a[1..] + b;
      DigitsAppend(a[1..], b);
    }
  }

  /** A string made only of digits is its own digit string. */
  lemma {:induction false} DigitsOfDigits(s: string)
    requires AllDigits(s)
    ensures Digits(s) == s
  {
    if |s| > 0 {
      DigitsOfDigits(s[1..]);
    }
  }

  /** Whitespace carries no digits. */
  lemma {:induction false} DigitsOfSpace(s: string)
    requires forall i :: 0 <= i < |s| ==> IsSpace(s[i])
    ensures Digits(s) == []
  {
    if |s| > 0 {
      DigitsOfSpace(s[1..]);
    }
  }

  /** Stripping whitespace never changes the digits of a string. */
  lemma {:induction false} DigitsOfStrip(s: string)
    ensures Digits(Strip(s)) == Digits(s)
  {
    var r := Strip(s);
    var i := LeadingSpace(s);
    var pre, post := s[..i], s[i + |r|..];
    assert s == pre + r + post;
    DigitsOfSpace(pre);
    DigitsOfSpace(post);
    calc {
      Digits(s);
      { DigitsAppend(pre + r, post); }
      Digits(pre + r) + Digits(post);
      { DigitsAppend(pre, r); }
      Digits(pre) + Digits(r) + Digits(post);
    }
    assert Digits(pre) + Digits(r) + Digits(post) == Digits(r);
  }

  /** ASCII lower-casing of one character. */
  function Lower(c: char): char {
    if 'A' <= c <= 'Z' then (c as int + 32) as char else c
  }

  /** Case-insensitive equality (the database's `iexact`). */
  predicate EqualsIgnoreCase(a: string, b: string) {
    |a| == |b| && forall i :: 0 <= i < |a| ==> Lower(a[i]) == Lower(b[i])
  }

  predicate EndsWith(s: string, suffix: string) {
    |suffix| <= |s| && s[|s| - |suffix|..] == suffix
  }

  predicate StartsWith(s: string, prefix: string) {
    |prefix| <= |s| && s[..|prefix|] == prefix
  }

  predicate OccursAt(s: string, pat: string, i: nat) {
    i + |pat| <= |s| && s[i..i + |pat|] == pat
  }

  predicate Contains(s: string, pat: string) {
    exists i: nat :: i <= |s| && OccursAt(s, pat, i)
  }

  /** Python's `str.find`: the first index where `pat` occurs. */
  function Find(s: string, pat: string, from: nat := 0): (r: Option<nat>)
    requires from <= |s|
    ensures r.Some? ==> from <= r.value && OccursAt(s, pat, r.value)
    ensures r.Some? ==> forall j: nat :: from <= j < r.value ==> !OccursAt(s, pat, j)
    ensures r.None? ==> forall j: nat :: from <= j ==> !OccursAt(s, pat, j)
    decreases |s| - from
  {
    if from + |pat| > |s| then None
    else if s[from..from + |pat|] == pat then Some(from)
    else Find(s, pat, from + 1)
  }

  /** Python's `s[:n]` for `n >= 0`. */
  function Truncate(s: string, n: nat): (r: string)
    ensures |r| <= n
    ensures |s| <= n ==> r == s
    ensures |s| > n ==> |r| == n
    ensures StartsWith(s, r)
  {
    if |s| <= n then s else s[..n]
  }

  /** Python's `str(n)` for an integer. */
  function IntToString(n: int): (r: string)
    ensures n >= 0 ==> AllDigits(r) && |r| > 0
    ensures n < 0 ==> |r| > 1 && r[0] == '-' && AllDigits(r[1..])
  {
    if n < 0 then "-" + NatToString(-n) else NatToString(n)
  }

  function NatToString(n: nat): (r: string)
    ensures AllDigits(r) && |r| > 0
  {
    var d := ['0' + (n % 10) as char];
    if n < 10 then d else NatToString(n / 10) + d
  }
}

=== FILE: timeslots.dfy ===
/** The availability generator (create_timeslots.py): fixed-length slots inside
    business hours on open weekdays, skipping times taken by booked
    appointments or already offered. */
module Timeslots {
  import opened Wrappers
  import opened Models
  import Seqs

  const OpenHour: int := 8
  const CloseHour: int := 18
  const SlotMinutes: int := 30
  const OpenWeekdays: set<int> := {0, 1, 2, 3, 4, 5}
  const DefaultTypes: seq<ApptType> := [Cleaning, Checkup, Filling]
  const DefaultDays: int := 14
  const SecondsPerHour: int := 3600

  /** The weekday of a day number, Monday being 0; day 0 (1970-01-01) was a Thursday. */
  function Weekday(day: int): (r: int)
    ensures 0 <= r < 7
  {
    (day + 3) % 7
  }

  /** The week repeats: a day and the same day a week later share their weekday. */
  lemma WeekdayPeriodic(day: int)
    ensures Weekday(day + 7) == Weekday(day)
  {
  }

  /** Only Sunday is closed. */
  lemma OpenDayIff(day: int)
    ensures OpenDay(day) <==> Weekday(day) != 6
  {
  }

  predicate OpenDay(day: int) {
    Weekday(day) in OpenWeekdays
  }

  /** The day an instant falls on (`replace(hour=0, ...)`, as a day number). */
  function DayOf(t: Time): int {
    t / SecondsPerDay
  }

  function DayOpen(day: int): Time {
    day * SecondsPerDay + OpenHour * SecondsPerHour
  }

  function DayClose(day: int): Time {
    day * SecondsPerDay + CloseHour * SecondsPerHour
  }

  lemma DayOfWithinDay(day: int, t: Time)
    requires day * SecondsPerDay <= t < day * SecondsPerDay + SecondsPerDay
    ensures DayOf(t) == day
  {
  }

  /** `_overlaps`: two half-open intervals share an instant. */
  function Overlaps(aStart: Time, aEnd: Time, bStart: Time, bEnd: Time): (r: bool)
    ensures r <==> aStart < bEnd && bStart < aEnd
  {
    !(aEnd <= bStart || bEnd <= aStart)
  }

  lemma OverlapsSymmetric(aStart: Time, aEnd: Time, bStart: Time, bEnd: Time)
    ensures Overlaps(aStart, aEnd, bStart, bEnd) == Overlaps(bStart, bEnd, aStart, aEnd)
  {
  }

  /** Intervals that only touch do not overlap. */
  lemma TouchingDoNotOverlap(aStart: Time, mid: Time, bEnd: Time)
    ensures !Overlaps(aStart, mid, mid, bEnd)
  {
  }

  /** A booked appointment that meets the day's business hours. */
  predicate BlocksDay(a: Appointment, day: int) {
    a.start < DayClose(day) && a.end > DayOpen(day) && a.status == Booked
  }

  /** The appointments preloaded for a day, in store order. */
  function DayAppointments(appts: seq<Appointment>, day: int): seq<Appointment> {
    if |appts| == 0 then []
    else (if BlocksDay(appts[0], day) then [appts[0]] else []) + DayAppointments(appts[1..], day)
  }

  lemma {:induction false} DayAppointmentsMembers(appts: seq<Appointment>, day: int)
    ensures forall a :: a in DayAppointments(appts, day) <==> a in appts && BlocksDay(a, day)
  {
    if |appts| > 0 {
      DayAppointmentsMembers(appts[1..], day);
      assert appts == [appts[0]] + appts[1..];
    }
  }

  /** `any(_overlaps(...) for (a0, a1) in appts)`. */
  function AnyOverlap(appts: seq<Appointment>, start: Time, end: Time): bool {
    if |appts| == 0 then false
    else Overlaps(start, end, appts[0].start, appts[0].end) || AnyOverlap(appts[1..], start, end)
  }

  lemma {:induction false} AnyOverlapIff(appts: seq<Appointment>, start: Time, end: Time)
    ensures AnyOverlap(appts, start, end) <==>
              exists a :: a in appts && Overlaps(start, end, a.start, a.end)
  {
    if |appts| > 0 {
      AnyOverlapIff(appts[1..], start, end);
      assert appts == [appts[0]] + appts[1..];
    }
  }

  /** `Availability.objects.filter(start=..., end=...).exists()`. */
  function SlotExists(slots: seq<Availability>, start: Time, end: Time): bool {
    if |slots| == 0 then false
    else (slots[0].start == start && slots[0].end == end) || SlotExists(slots[1..], start, end)
  }

  lemma {:induction false} SlotExistsIff(slots: seq<Availability>, start: Time, end: Time)
    ensures SlotExists(slots, start, end) <==>
              exists i :: 0 <= i < |slots| && slots[i].start == start && slots[i].end == end
  {
    if |slots| > 0 {
      SlotExistsIff(slots[1..], start, end);
      if SlotExists(slots[1..], start, end) {
        var i :| 0 <= i < |slots[1..]| && slots[1..][i].start == start && slots[1..][i].end == end;
        assert slots[i + 1] == slots[1..][i];
      }
      if exists i :: 0 <= i < |slots| && slots[i].start == start && slots[i].end == end {
        var i :| 0 <= i < |slots| && slots[i].start == start && slots[i].end == end;
        if i > 0 {
          assert slots[1..][i - 1] == slots[i];
        }
      }
    }
  }

  /** The generator offers the time `t` of `day` (checked against the store it
      started from). */
  predicate Accepted(st: Store, day: int, t: Time, slotSec: int, skip: bool) {
    && !AnyOverlap(DayAppointments(st.appointments, day), t, t + slotSec)
    && !(skip && SlotExists(st.slots, t, t + slotSec))
  }

  /** Inside business hours, the day's preloaded appointments block a time
      exactly when some BOOKED appointment of the store overlaps it; cancelled
      and completed ones never block. */
  lemma {:induction false} AcceptedIff(st: Store, day: int, t: Time, slotSec: int, skip: bool)
    requires DayOpen(day) <= t && t + slotSec <= DayClose(day)
    ensures Accepted(st, day, t, slotSec, skip) <==>
              && (forall i :: 0 <= i < |st.appointments| && st.appointments[i].status == Booked ==>
                    !Overlaps(t, t + slotSec, st.appointments[i].start, st.appointments[i].end))
              && !(skip && SlotExists(st.slots, t, t + slotSec))
  {
    var appts := DayAppointments(st.appointments, day);
    DayAppointmentsMembers(st.appointments, day);
    AnyOverlapIff(appts, t, t + slotSec);
    if AnyOverlap(appts, t, t + slotSec) {
      var a :| a in appts && Overlaps(t, t + slotSec, a.start, a.end);
      var i :| 0 <= i < |st.appointments| && st.appointments[i] == a;
    }
    forall i | 0 <= i < |st.appointments| && st.appointments[i].status == Booked
                 && Overlaps(t, t + slotSec, st.appointments[i].start, st.appointments[i].end)
      ensures AnyOverlap(appts, t, t + slotSec)
    {
      assert BlocksDay(st.appointments[i], day);
      assert st.appointments[i] in appts;
    }
  }

  /** The number of slot times `while t + slot <= close` visits in one day. */
  function CandidateCount(slotSec: int): nat
    requires slotSec > 0
  {
    (DayClose(0) - DayOpen(0)) / slotSec
  }

  /** The loop visits every time whose slot ends by closing time, and no other. */
  lemma CandidateCountBounds(slotSec: int)
    requires slotSec > 0
    ensures CandidateCount(slotSec) * slotSec <= DayClose(0) - DayOpen(0) < (CandidateCount(slotSec) + 1) * slotSec
  {
  }

  /** The `k`-th time the day's loop visits. */
  function SlotTime(day: int, k: int, slotSec: int): Time {
    DayOpen(day) + k * slotSec
  }

  /** A created slot with its id left out. */
  datatype SlotSpec = SlotSpec(start: Time, end: Time, apptType: ApptType)

  function Key(a: Availability): SlotSpec {
    SlotSpec(a.start, a.end, a.apptType)
  }

  function Keys(s: seq<Availability>): seq<SlotSpec> {
    seq(|s|, i requires 0 <= i < |s| => Key(s[i]))
  }

  lemma KeysConcat(s: seq<Availability>, u: seq<Availability>)
    ensures Keys(s + u) == Keys(s) + Keys(u)
  {
    assert forall i :: 0 <= i < |s + u| ==> Keys(s + u)[i] == (Keys(s) + Keys(u))[i];
  }

  /** One slot per requested type at time `t`, in the order of the types. */
  function RowsAt(t: Time, slotSec: int, types: seq<ApptType>): seq<SlotSpec> {
    seq(|types|, i requires 0 <= i < |types| => SlotSpec(t, t + slotSec, types[i]))
  }

  /** Which (day, time) pairs a run of the generator offers. */
  type Acceptor = (int, Time) -> bool

  /** The run's test, made against the store it started from. */
  function AcceptorOf(st: Store, slotSec: int, skip: bool): (accept: Acceptor)
    ensures forall day, t :: accept(day, t) == Accepted(st, day, t, slotSec, skip)
  {
    (day: int, t: Time) => Accepted(st, day, t, slotSec, skip)
  }

  /** What the day's loop creates over its first `k` times. */
  function DayRows(accept: Acceptor, day: int, slotSec: int, types: seq<ApptType>, k: nat): seq<SlotSpec>
  {
    if k == 0 then []
    else
      var t := SlotTime(day, k - 1, slotSec);
      DayRows(accept, day, slotSec, types, k - 1)
        + (if accept(day, t) then RowsAt(t, slotSec, types) else [])
  }

  /** What the generator creates over its first `d` days from `firstDay`. */
  function WindowRows(accept: Acceptor, firstDay: int, d: nat, slotSec: int, types: seq<ApptType>)
    : seq<SlotSpec>
    requires slotSec > 0
  {
    if d == 0 then []
    else
      var day := firstDay + d - 1;
      WindowRows(accept, firstDay, d - 1, slotSec, types)
        + (if OpenDay(day) then DayRows(accept, day, slotSec, types, CandidateCount(slotSec)) else [])
  }

  /** A slot of the right shape: on an open day of the window, starting on the
      slot grid from opening time, one slot long, ending by closing time, of a
      requested type. */
  ghost predicate GridSlot(firstDay: int, days: nat, slotSec: int, types: seq<ApptType>, r: SlotSpec)
    requires slotSec > 0
  {
    var day := DayOf(r.start);
    && firstDay <= day < firstDay + days
    && OpenDay(day)
    && (exists k :: 0 <= k < CandidateCount(slotSec) && r.start == SlotTime(day, k, slotSec))
    && r.end == r.start + slotSec
    && DayOpen(day) <= r.start && r.end <= DayClose(day)
    && r.apptType in types
  }

  /** A created slot is as the generator promises: the right shape, overlapping
      no booked appointment and, when asked, repeating no existing slot's times. */
  ghost predicate ProperSlot(st: Store, firstDay: int, days: nat, slotSec: int, types: seq<ApptType>,
                             skip: bool, r: SlotSpec)
    requires slotSec > 0
  {
    && GridSlot(firstDay, days, slotSec, types, r)
    && (forall i :: 0 <= i < |st.appointments| && st.appointments[i].status == Booked ==>
          !Overlaps(r.start, r.end, st.appointments[i].start, st.appointments[i].end))
    && (skip ==> !SlotExists(st.slots, r.start, r.end))
  }

  /** A slot of the right shape at a time the run accepts is proper. */
  lemma GridAcceptedIsProper(st: Store, firstDay: int, days: nat, slotSec: int, types: seq<ApptType>,
                             skip: bool, r: SlotSpec)
    requires slotSec > 0
    requires GridSlot(firstDay, days, slotSec, types, r)
    requires Accepted(st, DayOf(r.start), r.start, slotSec, skip)
    ensures ProperSlot(st, firstDay, days, slotSec, types, skip, r)
  {
    AcceptedIff(st, DayOf(r.start), r.start, slotSec, skip);
  }

  lemma SlotTimeBounds(day: int, k: int, slotSec: int)
    requires slotSec > 0 && 0 <= k < CandidateCount(slotSec)
    ensures DayOpen(day) <= SlotTime(day, k, slotSec)
    ensures SlotTime(day, k, slotSec) + slotSec <= DayClose(day)
    ensures DayOf(SlotTime(day, k, slotSec)) == day
  {
    CandidateIff(day, k, slotSec);
    DayOfWithinDay(day, SlotTime(day, k, slotSec));
  }

  lemma MulMono(a: int, b: int, c: int)
    requires a <= b && c >= 0
    ensures a * c <= b * c
  {
    assert b * c - a * c == (b - a) * c;
  }

  /** The day's loop runs exactly `CandidateCount` times. */
  lemma CandidateIff(day: int, k: nat, slotSec: int)
    requires slotSec > 0
    ensures SlotTime(day, k, slotSec) + slotSec <= DayClose(day) <==> k < CandidateCount(slotSec)
  {
    var n := CandidateCount(slotSec);
    CandidateCountBounds(slotSec);
    if k < n {
      MulMono(k + 1, n, slotSec);
    } else {
      MulMono(n + 1, k + 1, slotSec);
    }
  }

  lemma {:induction false} DayRowsShape(accept: Acceptor, firstDay: int, days: nat, day: int, slotSec: int,
                                        types: seq<ApptType>, k: nat)
    requires slotSec > 0 && k <= CandidateCount(slotSec)
    requires firstDay <= day < firstDay + days && OpenDay(day)
    ensures forall r :: r in DayRows(accept, day, slotSec, types, k) ==>
              GridSlot(firstDay, days, slotSec, types, r) && accept(DayOf(r.start), r.start)
    ensures forall r :: r in DayRows(accept, day, slotSec, types, k) ==> r.start < SlotTime(day, k, slotSec)
  {
    if k > 0 {
      DayRowsShape(accept, firstDay, days, day, slotSec, types, k - 1);
      var t := SlotTime(day, k - 1, slotSec);
      if accept(day, t) {
        SlotTimeBounds(day, k - 1, slotSec);
        forall r | r in RowsAt(t, slotSec, types)
          ensures GridSlot(firstDay, days, slotSec, types, r)
        {
          var i :| 0 <= i < |types| && RowsAt(t, slotSec, types)[i] == r;
          assert r.apptType == types[i];
        }
      }
    }
  }

  lemma {:induction false} WindowRowsShape(accept: Acceptor, firstDay: int, days: nat, d: nat, slotSec: int,
                                           types: seq<ApptType>)
    requires slotSec > 0 && d <= days
    ensures forall r :: r in WindowRows(accept, firstDay, d, slotSec, types) ==>
              GridSlot(firstDay, days, slotSec, types, r) && accept(DayOf(r.start), r.start)
    ensures forall r :: r in WindowRows(accept, firstDay, d, slotSec, types) ==> r.start < DayOpen(firstDay + d)
  {
    if d > 0 {
      WindowRowsShape(accept, firstDay, days, d - 1, slotSec, types);
      var day := firstDay + d - 1;
      if OpenDay(day) {
        var n := CandidateCount(slotSec);
        DayRowsShape(accept, firstDay, days, day, slotSec, types, n);
        CandidateCountBounds(slotSec);
        assert SlotTime(day, n, slotSec) <= DayClose(day);
      }
    }
  }

  /** Every accepted time yields one slot for each requested type. */
  lemma {:induction false} DayRowsComplete(accept: Acceptor, day: int, slotSec: int, types: seq<ApptType>,
                                           k: nat, j: nat, i: nat)
    requires j < k && i < |types|
    requires accept(day, SlotTime(day, j, slotSec))
    ensures SlotSpec(SlotTime(day, j, slotSec), SlotTime(day, j, slotSec) + slotSec, types[i])
              in DayRows(accept, day, slotSec, types, k)
  {
    if j < k - 1 {
      DayRowsComplete(accept, day, slotSec, types, k - 1, j, i);
    } else {
      var t := SlotTime(day, j, slotSec);
      assert RowsAt(t, slotSec, types)[i] == SlotSpec(t, t + slotSec, types[i]);
    }
  }

  lemma {:induction false} WindowRowsComplete(accept: Acceptor, firstDay: int, d: nat, slotSec: int,
                                              types: seq<ApptType>, day: int, j: nat, i: nat)
    requires slotSec > 0 && firstDay <= day < firstDay + d && j < CandidateCount(slotSec) && i < |types|
    requires OpenDay(day) && accept(day, SlotTime(day, j, slotSec))
    ensures SlotSpec(SlotTime(day, j, slotSec), SlotTime(day, j, slotSec) + slotSec, types[i])
              in WindowRows(accept, firstDay, d, slotSec, types)
  {
    var r := SlotSpec(SlotTime(day, j, slotSec), SlotTime(day, j, slotSec) + slotSec, types[i]);
    var prefix := WindowRows(accept, firstDay, d - 1, slotSec, types);
    var last := firstDay + d - 1;
    assert WindowRows(accept, firstDay, d, slotSec, types)
           == prefix + (if OpenDay(last) then DayRows(accept, last, slotSec, types, CandidateCount(slotSec)) else []);
    if day < last {
      WindowRowsComplete(accept, firstDay, d - 1, slotSec, types, day, j, i);
      assert r in prefix;
    } else {
      DayRowsComplete(accept, day, slotSec, types, CandidateCount(slotSec), j, i);
    }
  }

  lemma {:induction false} DayRowsCount(accept: Acceptor, day: int, slotSec: int, types: seq<ApptType>, k: nat)
    ensures |DayRows(accept, day, slotSec, types, k)| <= k * |types|
  {
    if k > 0 {
      DayRowsCount(accept, day, slotSec, types, k - 1);
      assert (k - 1) * |types| + |types| == k * |types|;
    }
  }

  /** At most one slot per type for each time of each day in the window. */
  lemma {:induction false} WindowRowsCount(accept: Acceptor, firstDay: int, d: nat, slotSec: int,
                                           types: seq<ApptType>)
    requires slotSec > 0
    ensures |WindowRows(accept, firstDay, d, slotSec, types)| <= d * (CandidateCount(slotSec) * |types|)
  {
    if d > 0 {
      var n := CandidateCount(slotSec);
      WindowRowsCount(accept, firstDay, d - 1, slotSec, types);
      DayRowsCount(accept, firstDay + d - 1, slotSec, types, n);
      var c := n * |types|;
      assert (d - 1) * c + c == d * c;
    }
  }

  /** With the default 30-minute slots and three types, a day offers at most
      20 times and so at most 60 slots. */
  lemma DefaultDayCapacity()
    ensures CandidateCount(SlotMinutes * SecondsPerMinute) == 20
    ensures CandidateCount(SlotMinutes * SecondsPerMinute) * |DefaultTypes| == 60
  {
  }

  // ---------------------------------------------------------------------------
  // The generator itself
  // ---------------------------------------------------------------------------

  /** `Availability.objects.create` once per type at time `t`. */
  method CreateForTypes(st: Store, t: Time, slotSec: int, types: seq<ApptType>) returns (st': Store, made: nat)
    ensures made == |types|
    ensures |st'.slots| == |st.slots| + made && st'.slots[..|st.slots|] == st.slots
    ensures Keys(st'.slots[|st.slots|..]) == RowsAt(t, slotSec, types)
    ensures st' == st.(slots := st'.slots, nextId := st'.nextId)
    ensures Valid(st) ==> Valid(st')
  {
    st' := st;
    made := 0;
    while made < |types|
      invariant made <= |types|
      invariant |st'.slots| == |st.slots| + made
      invariant forall i :: 0 <= i < |st.slots| ==> st'.slots[i] == st.slots[i]
      invariant forall i :: 0 <= i < made ==> Key(st'.slots[|st.slots| + i]) == SlotSpec(t, t + slotSec, types[i])
      invariant st' == st.(slots := st'.slots, nextId := st'.nextId)
      invariant Valid(st) ==> Valid(st')
    {
      var (_, next) := InsertAvailability(st', t, t + slotSec, types[made]);
      st' := next;
      made := made + 1;
    }
    assert st'.slots[..|st.slots|] == st.slots;
    assert Keys(st'.slots[|st.slots|..]) == RowsAt(t, slotSec, types);
  }

  /** The tables other than the availability table are as in `st0`. */
  predicate OnlySlotsChanged(st0: Store, st: Store) {
    st == st0.(slots := st.slots, nextId := st.nextId)
  }

  /** The day's loop checks the store as it now stands; since every slot made
      so far starts before `t`, that is the same as checking the store the
      generator started from. */
  lemma {:induction false} LiveCheckIsAccepted(st0: Store, st: Store, day: int, t: Time, slotSec: int, skip: bool)
    requires OnlySlotsChanged(st0, st)
    requires |st0.slots| <= |st.slots| && st.slots[..|st0.slots|] == st0.slots
    requires forall i :: |st0.slots| <= i < |st.slots| ==> st.slots[i].start < t
    ensures (!AnyOverlap(DayAppointments(st.appointments, day), t, t + slotSec)
             && !(skip && SlotExists(st.slots, t, t + slotSec)))
            == AcceptorOf(st0, slotSec, skip)(day, t)
  {
    FreshTime(st0, st, t, slotSec);
    assert st.appointments == st0.appointments;
  }

  /** The slots made so far all start before `t`, so the store holds a slot
      at `t` exactly when the starting store did. */
  lemma FreshTime(st0: Store, st: Store, t: Time, slotSec: int)
    requires |st0.slots| <= |st.slots| && st.slots[..|st0.slots|] == st0.slots
    requires forall i :: |st0.slots| <= i < |st.slots| ==> st.slots[i].start < t
    ensures SlotExists(st.slots, t, t + slotSec) == SlotExists(st0.slots, t, t + slotSec)
  {
    SlotExistsIff(st.slots, t, t + slotSec);
    SlotExistsIff(st0.slots, t, t + slotSec);
    if SlotExists(st.slots, t, t + slotSec) {
      var i :| 0 <= i < |st.slots| && st.slots[i].start == t && st.slots[i].end == t + slotSec;
      assert st0.slots[i] == st.slots[i];
    }
    if SlotExists(st0.slots, t, t + slotSec) {
      var i :| 0 <= i < |st0.slots| && st0.slots[i].start == t && st0.slots[i].end == t + slotSec;
      assert st.slots[i] == st0.slots[i];
    }
  }

  /** Appending the slots made at `t` keeps every new slot before the next time. */
  lemma {:induction false} BatchBefore(st0: Store, prev: seq<Availability>, batch: seq<Availability>, t: Time, slotSec: int, types: seq<ApptType>)
    requires slotSec > 0
    requires forall i :: |st0.slots| <= i < |prev| ==> prev[i].start < t
    requires Keys(batch) == RowsAt(t, slotSec, types)
    ensures forall i :: |st0.slots| <= i < |prev + batch| ==> (prev + batch)[i].start < t + slotSec
  {
    forall i | |st0.slots| <= i < |prev + batch|
      ensures (prev + batch)[i].start < t + slotSec
    {
      if i >= |prev| {
        assert Keys(batch)[i - |prev|] == Key(batch[i - |prev|]);
      }
    }
  }

  /** One pass of the day's loop at time `t`: skip the time when a preloaded
      appointment overlaps it or, when asked, a slot already occupies it;
      otherwise create one slot per type there. */
  method VisitTime(ghost st0: Store, st: Store, dayAppts: seq<Appointment>, day: int, t: Time, slotSec: int,
                   types: seq<ApptType>, skip: bool) returns (st': Store, made: nat)
    requires slotSec > 0
    requires dayAppts == DayAppointments(st.appointments, day)
    requires OnlySlotsChanged(st0, st)
    requires |st0.slots| <= |st.slots| && st.slots[..|st0.slots|] == st0.slots
    requires forall i :: |st0.slots| <= i < |st.slots| ==> st.slots[i].start < t
    ensures |st'.slots| == |st.slots| + made && st'.slots[..|st.slots|] == st.slots
    ensures Keys(st'.slots[|st.slots|..])
            == if AcceptorOf(st0, slotSec, skip)(day, t) then RowsAt(t, slotSec, types) else []
    ensures forall i :: |st0.slots| <= i < |st'.slots| ==> st'.slots[i].start < t + slotSec
    ensures OnlySlotsChanged(st0, st')
    ensures Valid(st) ==> Valid(st')
  {
    LiveCheckIsAccepted(st0, st, day, t, slotSec, skip);
    var slotStart, slotEnd := t, t + slotSec;
    if AnyOverlap(dayAppts, slotStart, slotEnd) {
      st', made := st, 0;
    } else if skip && SlotExists(st.slots, slotStart, slotEnd) {
      st', made := st, 0;
    } else {
      st', made := CreateForTypes(st, slotStart, slotSec, types);
      ghost var batch := st'.slots[|st.slots|..];
      assert st'.slots == st.slots + batch;
      BatchBefore(st0, st.slots, batch, t, slotSec, types);
    }
  }

  /** After the visit of the `k`-th time, the slots made since the day began
      are the day's rows over its first `k + 1` times. */
  lemma DayAdvance(accept: Acceptor, stDay: Store, st: Store, st': Store, day: int, k: nat, slotSec: int,
                   types: seq<ApptType>)
    requires |stDay.slots| <= |st.slots| && st.slots[..|stDay.slots|] == stDay.slots
    requires Keys(st.slots[|stDay.slots|..]) == DayRows(accept, day, slotSec, types, k)
    requires |st.slots| <= |st'.slots| && st'.slots[..|st.slots|] == st.slots
    requires Keys(st'.slots[|st.slots|..])
             == if accept(day, SlotTime(day, k, slotSec)) then RowsAt(SlotTime(day, k, slotSec), slotSec, types) else []
    ensures |stDay.slots| <= |st'.slots| && st'.slots[..|stDay.slots|] == stDay.slots
    ensures Keys(st'.slots[|stDay.slots|..]) == DayRows(accept, day, slotSec, types, k + 1)
  {
    assert st'.slots[|stDay.slots|..] == st.slots[|stDay.slots|..] + st'.slots[|st.slots|..];
    DayRowsStep(accept, day, slotSec, types, k, st.slots[|stDay.slots|..], st'.slots[|st.slots|..]);
  }

  /** The day's rows grow by what the visit of the next time creates. */
  lemma DayRowsStep(accept: Acceptor, day: int, slotSec: int, types: seq<ApptType>, k: nat,
                    added: seq<Availability>, batch: seq<Availability>)
    requires Keys(added) == DayRows(accept, day, slotSec, types, k)
    requires Keys(batch) == if accept(day, SlotTime(day, k, slotSec)) then RowsAt(SlotTime(day, k, slotSec), slotSec, types) else []
    ensures Keys(added + batch) == DayRows(accept, day, slotSec, types, k + 1)
  {
    KeysConcat(added, batch);
  }

  lemma SlotTimeNext(day: int, k: int, slotSec: int)
    ensures SlotTime(day, k + 1, slotSec) == SlotTime(day, k, slotSec) + slotSec
  {
  }

  /** One open day of `generate_availability_window`: the loop over the
      day's slot times. */
  method GenerateDay(st0: Store, st: Store, day: int, slotSec: int, types: seq<ApptType>, skip: bool)
    returns (st': Store, made: nat)
    requires slotSec > 0
    requires OnlySlotsChanged(st0, st)
    requires |st0.slots| <= |st.slots| && st.slots[..|st0.slots|] == st0.slots
    requires forall i :: |st0.slots| <= i < |st.slots| ==> st.slots[i].start < DayOpen(day)
    ensures |st'.slots| == |st.slots| + made && st'.slots[..|st.slots|] == st.slots
    ensures Keys(st'.slots[|st.slots|..]) == DayRows(AcceptorOf(st0, slotSec, skip), day, slotSec, types, CandidateCount(slotSec))
    ensures OnlySlotsChanged(st0, st')
    ensures Valid(st) ==> Valid(st')
  {
    var dayAppts := DayAppointments(st.appointments, day);
    ghost var n := CandidateCount(slotSec);
    st' := st;
    made := 0;
    var k: nat := 0;
    var t := DayOpen(day);
    while t + slotSec <= DayClose(day)
      invariant t == SlotTime(day, k, slotSec) && k <= n
      invariant |st'.slots| == |st.slots| + made
      invariant |st.slots| <= |st'.slots| && st'.slots[..|st.slots|] == st.slots
      invariant Keys(st'.slots[|st.slots|..]) == DayRows(AcceptorOf(st0, slotSec, skip), day, slotSec, types, k)
      invariant |st0.slots| <= |st'.slots| && st'.slots[..|st0.slots|] == st0.slots
      invariant forall i :: |st0.slots| <= i < |st'.slots| ==> st'.slots[i].start < t
      invariant OnlySlotsChanged(st0, st')
      invariant Valid(st) ==> Valid(st')
      decreases DayClose(day) - t
    {
      CandidateIff(day, k, slotSec);
      var next, visited := VisitTime(st0, st', dayAppts, day, t, slotSec, types, skip);
      DayAdvance(AcceptorOf(st0, slotSec, skip), st, st', next, day, k, slotSec, types);
      st' := next;
      made := made + visited;
      SlotTimeNext(day, k, slotSec);
      t := t + slotSec;
      k := k + 1;
    }
    CandidateIff(day, k, slotSec);
  }

  /** After an open day, the slots made since the run began are the window's
      rows over one more day. */
  lemma WindowAdvance(accept: Acceptor, st0: Store, st: Store, st': Store, firstDay: int, d: nat, slotSec: int,
                      types: seq<ApptType>)
    requires slotSec > 0 && OpenDay(firstDay + d)
    requires |st0.slots| <= |st.slots| && st.slots[..|st0.slots|] == st0.slots
    requires Keys(st.slots[|st0.slots|..]) == WindowRows(accept, firstDay, d, slotSec, types)
    requires |st.slots| <= |st'.slots| && st'.slots[..|st.slots|] == st.slots
    requires Keys(st'.slots[|st.slots|..]) == DayRows(accept, firstDay + d, slotSec, types, CandidateCount(slotSec))
    ensures |st0.slots| <= |st'.slots| && st'.slots[..|st0.slots|] == st0.slots
    ensures Keys(st'.slots[|st0.slots|..]) == WindowRows(accept, firstDay, d + 1, slotSec, types)
  {
    assert st'.slots[|st0.slots|..] == st.slots[|st0.slots|..] + st'.slots[|st.slots|..];
    KeysConcat(st.slots[|st0.slots|..], st'.slots[|st.slots|..]);
  }

  /** Every slot made before an open day starts before that day opens. */
  lemma WindowBefore(accept: Acceptor, st0: Store, st: Store, firstDay: int, d: nat, slotSec: int,
                     types: seq<ApptType>)
    requires slotSec > 0
    requires |st0.slots| <= |st.slots|
    requires Keys(st.slots[|st0.slots|..]) == WindowRows(accept, firstDay, d, slotSec, types)
    ensures forall i :: |st0.slots| <= i < |st.slots| ==> st.slots[i].start < DayOpen(firstDay + d)
  {
    WindowRowsShape(accept, firstDay, d, d, slotSec, types);
    forall i | |st0.slots| <= i < |st.slots|
      ensures st.slots[i].start < DayOpen(firstDay + d)
    {
      assert Keys(st.slots[|st0.slots|..])[i - |st0.slots|] == Key(st.slots[i]);
    }
  }

  /** The created slots all have the shape and the freedom the run promises. */
  lemma WindowProper(st0: Store, st: Store, firstDay: int, days: nat, slotSec: int, types: seq<ApptType>,
                     skip: bool)
    requires slotSec > 0
    requires |st0.slots| <= |st.slots|
    requires Keys(st.slots[|st0.slots|..]) == WindowRows(AcceptorOf(st0, slotSec, skip), firstDay, days, slotSec, types)
    ensures forall i :: |st0.slots| <= i < |st.slots| ==>
              ProperSlot(st0, firstDay, days, slotSec, types, skip, Key(st.slots[i]))
  {
    var accept := AcceptorOf(st0, slotSec, skip);
    WindowRowsShape(accept, firstDay, days, days, slotSec, types);
    forall i | |st0.slots| <= i < |st.slots|
      ensures ProperSlot(st0, firstDay, days, slotSec, types, skip, Key(st.slots[i]))
    {
      var r := Key(st.slots[i]);
      assert Keys(st.slots[|st0.slots|..])[i - |st0.slots|] == r;
      assert accept(DayOf(r.start), r.start);
      GridAcceptedIsProper(st0, firstDay, days, slotSec, types, skip, r);
    }
  }

  /** The window's rows hold one slot per requested type at every acceptable
      time of every open day. */
  lemma WindowComplete(st0: Store, rows: seq<SlotSpec>, firstDay: int, days: int, slotSec: int,
                       types: seq<ApptType>, skip: bool)
    requires slotSec > 0
    requires rows == WindowRows(AcceptorOf(st0, slotSec, skip), firstDay, if days < 0 then 0 else days, slotSec, types)
    ensures forall day, j, i :: firstDay <= day < firstDay + days && OpenDay(day)
                                && 0 <= j < CandidateCount(slotSec) && 0 <= i < |types|
                                && Accepted(st0, day, SlotTime(day, j, slotSec), slotSec, skip)
                                ==> SlotSpec(SlotTime(day, j, slotSec), SlotTime(day, j, slotSec) + slotSec, types[i])
                                    in rows
  {
    forall day, j, i | firstDay <= day < firstDay + days && OpenDay(day)
                       && 0 <= j < CandidateCount(slotSec) && 0 <= i < |types|
                       && Accepted(st0, day, SlotTime(day, j, slotSec), slotSec, skip)
      ensures SlotSpec(SlotTime(day, j, slotSec), SlotTime(day, j, slotSec) + slotSec, types[i]) in rows
    {
      WindowRowsComplete(AcceptorOf(st0, slotSec, skip), firstDay, if days < 0 then 0 else days, slotSec,
                         types, day, j, i);
    }
  }

  /** The loop over the window's days: an open day runs the day's loop, a
      closed one is passed over. */
  method GenerateDays(st: Store, firstDay: int, days: nat, slotSec: int, types: seq<ApptType>, skip: bool)
    returns (created: nat, st': Store)
    requires slotSec > 0
    ensures |st'.slots| == |st.slots| + created
    ensures st'.slots[..|st.slots|] == st.slots
    ensures Keys(st'.slots[|st.slots|..]) == WindowRows(AcceptorOf(st, slotSec, skip), firstDay, days, slotSec, types)
    ensures OnlySlotsChanged(st, st')
    ensures Valid(st) ==> Valid(st')
  {
    ghost var accept := AcceptorOf(st, slotSec, skip);
    st' := st;
    created := 0;
    var d: nat := 0;
    while d < days
      invariant d <= days
      invariant |st'.slots| == |st.slots| + created
      invariant |st.slots| <= |st'.slots| && st'.slots[..|st.slots|] == st.slots
      invariant Keys(st'.slots[|st.slots|..]) == WindowRows(accept, firstDay, d, slotSec, types)
      invariant OnlySlotsChanged(st, st')
      invariant Valid(st) ==> Valid(st')
    {
      var day := firstDay + d;
      if OpenDay(day) {
        WindowBefore(accept, st, st', firstDay, d, slotSec, types);
        var next, made := GenerateDay(st, st', day, slotSec, types, skip);
        WindowAdvance(accept, st, st', next, firstDay, d, slotSec, types);
        st' := next;
        created := created + made;
      } else {
        assert st'.slots[|st.slots|..] + [] == st'.slots[|st.slots|..];
      }
      d := d + 1;
    }
  }

  /** `generate_availability_window(start_dt, days, slot_minutes, appt_types,
      skip_if_exists)`: it creates exactly the window's rows, each of them
      proper, at most one per type for each slot time of each day, and one per
      requested type at every acceptable time of every open day. A
      non-positive `slot_minutes` would never leave the day's loop, so it is
      excluded. */
  method GenerateAvailabilityWindow(st: Store, startTime: Time, days: int, slotMinutes: int,
                                    types: seq<ApptType>, skip: bool) returns (created: nat, st': Store)
    requires slotMinutes > 0
    ensures |st'.slots| == |st.slots| + created
    ensures st'.slots[..|st.slots|] == st.slots
    ensures OnlySlotsChanged(st, st')
    ensures Valid(st) ==> Valid(st')
    ensures Keys(st'.slots[|st.slots|..])
            == WindowRows(AcceptorOf(st, slotMinutes * SecondsPerMinute, skip), DayOf(startTime),
                          if days < 0 then 0 else days, slotMinutes * SecondsPerMinute, types)
    ensures forall i :: |st.slots| <= i < |st'.slots| ==>
              ProperSlot(st, DayOf(startTime), if days < 0 then 0 else days, slotMinutes * SecondsPerMinute,
                         types, skip, Key(st'.slots[i]))
    ensures created <= (if days < 0 then 0 else days) * (CandidateCount(slotMinutes * SecondsPerMinute) * |types|)
    ensures forall day, j, i :: DayOf(startTime) <= day < DayOf(startTime) + days && OpenDay(day)
                                && 0 <= j < CandidateCount(slotMinutes * SecondsPerMinute) && 0 <= i < |types|
                                && Accepted(st, day, SlotTime(day, j, slotMinutes * SecondsPerMinute),
                                            slotMinutes * SecondsPerMinute, skip)
                                ==> SlotSpec(SlotTime(day, j, slotMinutes * SecondsPerMinute),
                                             SlotTime(day, j, slotMinutes * SecondsPerMinute) + slotMinutes * SecondsPerMinute,
                                             types[i])
                                    in Keys(st'.slots[|st.slots|..])
  {
    var slotSec := slotMinutes * SecondsPerMinute;
    var firstDay := DayOf(startTime);
    var nDays: nat := if days < 0 then 0 else days;
    created, st' := GenerateDays(st, firstDay, nDays, slotSec, types, skip);
    WindowRowsCount(AcceptorOf(st, slotSec, skip), firstDay, nDays, slotSec, types);
    WindowProper(st, st', firstDay, nDays, slotSec, types, skip);
    WindowComplete(st, Keys(st'.slots[|st.slots|..]), firstDay, days, slotSec, types, skip);
  }

  /** The day loop's guard `t + timedelta(minutes=slot_minutes) <= day_close`
      after `k` rounds, as written: nothing checks the sign of the step. */
  predicate DayLoopContinues(day: int, k: nat, slotSec: int) {
    SlotTime(day, k, slotSec) + slotSec <= DayClose(day)
  }

  /** With a slot length of zero or less the guard holds after every number
      of rounds and the time never moves forward, so the day's loop never
      ends. */
  lemma NonPositiveSlotNeverEnds(day: int, k: nat, slotSec: int)
    requires slotSec <= 0
    ensures DayLoopContinues(day, k, slotSec)
    ensures SlotTime(day, k + 1, slotSec) <= SlotTime(day, k, slotSec)
  {
    MulMono(slotSec, 0, k);
    assert k * slotSec <= 0;
    assert (k + 1) * slotSec == k * slotSec + slotSec;
  }

  /** `generate_availability_window` with the missing check on its slot
      length: a length of zero or less is refused with ValueError before any
      row is written; any other length generates the window as above. */
  method CheckedAvailabilityWindow(st: Store, startTime: Time, days: int, slotMinutes: int,
                                   types: seq<ApptType>, skip: bool) returns (r: Result<(nat, Store), Exc>)
    ensures r.Failure? <==> slotMinutes <= 0
    ensures r.Failure? ==> r.error == ValueError
    ensures r.Success? ==>
              var (created, st') := r.value;
              && |st'.slots| == |st.slots| + created
              && st'.slots[..|st.slots|] == st.slots
              && OnlySlotsChanged(st, st')
              && (Valid(st) ==> Valid(st'))
              && Keys(st'.slots[|st.slots|..])
                 == WindowRows(AcceptorOf(st, slotMinutes * SecondsPerMinute, skip), DayOf(startTime),
                               if days < 0 then 0 else days, slotMinutes * SecondsPerMinute, types)
  {
    if slotMinutes <= 0 {
      return Failure(ValueError);
    }
    var created, st' := GenerateAvailabilityWindow(st, startTime, days, slotMinutes, types, skip);
    return Success((created, st'));
  }
}

=== FILE: tools.dfy ===
/** The scheduling tools the assistant calls (backend/chat/tools.py), as state
    transitions over the clinic store. */
module Tools {
  import opened Wrappers
  import opened Text
  import opened Models
  import Seqs

  /** A closed time window, as the fuzzy date parser returns it. */
  datatype Window = Window(start: Time, end: Time)

  /** What the tools take from outside: the clock, and the date phrase parser
      (a language-model call whose failures propagate as exceptions). */
  datatype Env = Env(now: Time, fuzzy: string -> Result<Window, Exc>)

  const DefaultListLimit: int := 10
  const DefaultListDays: int := 60
  const DefaultSlotPhrase: string := "next 14 days"
  const NearbyMinutes: int := 30
  const SummaryMaxLength: nat := 2000

  /** The date `timezone.now().date()` names. */
  function Today(env: Env): int {
    env.now / SecondsPerDay
  }

  datatype ErrorCode =
    | PatientNotFound
    | SlotNotAvailable
    | NoMatchingSlot
    | NotFound
    | UnknownTool(name: string)
    | Raised(exc: Exc)

  /** The `error` string of a failed reply; an exception's text is `str(e)`,
      which this model does not spell out. */
  function ErrorText(e: ErrorCode): string
    requires !e.Raised?
  {
    match e
    case PatientNotFound => "patient_not_found"
    case SlotNotAvailable => "slot_not_available"
    case NoMatchingSlot => "no_matching_slot"
    case NotFound => "not_found"
    case UnknownTool(name) => "unknown_tool:" + name
  }

  /** The dictionaries the tools return, one shape per kind of answer. */
  datatype Reply =
    | Failed(error: ErrorCode)
    | Verified(patientId: Id, name: string, phone: string)
    | Listing(patient: Patient, window: Window, appointments: seq<Appointment>)
    | SlotList(apptType: string, window: Window, slots: seq<Availability>)
    | Scheduled(appointmentId: Id, start: Time, end: Time)
    | Done
    | AlertCreated(alertId: Id)

  /** A tool's normal return: its reply and the store it leaves behind. */
  datatype Outcome = Outcome(reply: Reply, store: Store)

  // ---------------------------------------------------------------------------
  // Patients
  // ---------------------------------------------------------------------------

  /** `_norm_phone`: the digits of the phone, a missing phone read as "". */
  function NormPhone(p: Option<string>): (r: string)
    ensures AllDigits(r)
    ensures r == Digits(p.GetOr(""))
  {
    DigitsOfStrip(p.GetOr(""));
    Digits(Strip(p.GetOr("")))
  }

  lemma NormPhoneIdempotent(p: Option<string>)
    ensures NormPhone(Some(NormPhone(p))) == NormPhone(p)
  {
    DigitsOfDigits(NormPhone(p));
  }

  /** Normalising keeps the digits in order: it distributes over concatenation. */
  lemma NormPhoneConcat(a: string, b: string)
    ensures NormPhone(Some(a + b)) == NormPhone(Some(a)) + NormPhone(Some(b))
  {
    DigitsAppend(a, b);
  }

  /** Digits of any script are kept, not just ASCII ones: full-width digits
      survive normalisation and the hyphen between them goes. */
  lemma NormPhoneKeepsUnicodeDigits()
    ensures NormPhone(Some(" \U{FF11}\U{FF12}-\U{0663} ")) == "\U{FF11}\U{FF12}\U{0663}"
  {
    var s := " \U{FF11}\U{FF12}-\U{0663} ";
    assert IsDigit('\U{FF11}') && IsDigit('\U{FF12}') && IsDigit('\U{0663}') && !IsDigit('-') && !IsDigit(' ');
    assert Digits(s[5..]) == [] by { assert s[5..][1..] == []; }
    assert Digits(s[4..]) == "\U{0663}" by { assert s[4..][1..] == s[5..]; }
    assert Digits(s[3..]) == "\U{0663}" by { assert s[3..][1..] == s[4..]; }
    assert Digits(s[2..]) == "\U{FF12}\U{0663}" by { assert s[2..][1..] == s[3..]; }
    assert Digits(s[1..]) == "\U{FF11}\U{FF12}\U{0663}" by { assert s[1..][1..] == s[2..]; }
  }

  /** A stored phone matches the caller's normalised digits exactly or as a
      suffix (so a stored "+1" country code is tolerated). */
  predicate PhoneMatches(stored: string, normInput: string) {
    var pn := NormPhone(Some(stored));
    pn == normInput || EndsWith(pn, normInput)
  }

  predicate PatientMatches(p: Patient, name: string, normPhone: string) {
    EqualsIgnoreCase(p.fullName, Strip(name)) && PhoneMatches(p.phone, normPhone)
  }

  /** `_find_patient_by_name_phone`: the first patient whose name equals the
      stripped name case-insensitively and whose phone digits end with the
      caller's phone digits; nothing when either input is empty. */
  function FindPatientByNamePhone(patients: seq<Patient>, name: string, phone: string): (r: Option<Patient>)
    ensures name == "" || phone == "" ==> r.None?
    ensures r.Some? ==>
              && r.value in patients
              && EqualsIgnoreCase(r.value.fullName, Strip(name))
              && EndsWith(NormPhone(Some(r.value.phone)), NormPhone(Some(phone)))
    ensures r.None? && name != "" && phone != "" ==>
              forall i :: 0 <= i < |patients| ==> !PatientMatches(patients[i], name, NormPhone(Some(phone)))
    ensures r.Some? ==>
              exists k :: 0 <= k < |patients| && patients[k] == r.value
                          && forall j :: 0 <= j < k ==> !PatientMatches(patients[j], name, NormPhone(Some(phone)))
  {
    if name == "" || phone == "" then None
    else
      var norm := NormPhone(Some(phone));
      match Seqs.FirstIndex(patients, (p: Patient) => PatientMatches(p, name, norm))
      case None => None
      case Some(k) => Some(patients[k])
  }

  /** A caller phone with no digits at all matches every patient of that name. */
  lemma DigitlessPhoneMatchesAnyPhone(p: Patient, name: string, phone: string)
    requires name != "" && phone != "" && Digits(phone) == []
    requires EqualsIgnoreCase(p.fullName, Strip(name))
    ensures FindPatientByNamePhone([p], name, phone) == Some(p)
  {
    assert PatientMatches(p, name, NormPhone(Some(phone)));
  }

  /** `verify_patient`. */
  function VerifyPatient(st: Store, name: string, phone: string): (r: Reply)
    ensures r.Failed? || r.Verified?
    ensures r.Failed? <==> FindPatientByNamePhone(st.patients, name, phone).None?
    ensures r.Failed? ==> r.error == PatientNotFound
    ensures r.Verified? ==>
              var p := FindPatientByNamePhone(st.patients, name, phone).value;
              r.patientId == p.id && r.name == p.fullName && r.phone == p.phone
    ensures r.Verified? ==>
              exists p :: p in st.patients && p.id == r.patientId && p.fullName == r.name && p.phone == r.phone
                          && EqualsIgnoreCase(p.fullName, Strip(name))
                          && EndsWith(NormPhone(Some(p.phone)), NormPhone(Some(phone)))
  {
    match FindPatientByNamePhone(st.patients, name, phone)
    case None => Failed(PatientNotFound)
    case Some(p) => Verified(p.id, p.fullName, p.phone)
  }

  /** The `patient_info` object of a booking. */
  datatype PatientInfo = PatientInfo(
    fullName: Option<string>, name: Option<string>, phone: Option<string>,
    dob: Option<int>, insurance: Option<string>)

  /** Python's truth value of an optional string: `None` and "" are falsy. */
  predicate Truthy(s: Option<string>) {
    s.Some? && s.value != ""
  }

  /** Python's `a or b` for optional strings: one of the two, truthy when
      either is, the first whenever it is truthy and the second otherwise. */
  function OrElse(a: Option<string>, b: Option<string>): (r: Option<string>)
    ensures r == a || r == b
    ensures Truthy(r) <==> Truthy(a) || Truthy(b)
    ensures Truthy(a) ==> r == a
    ensures !Truthy(a) ==> r == b
  {
    if a.Some? && a.value != "" then a else b
  }

  predicate SameIdentity(p: Patient, name: string, phone: string, dob: Option<int>) {
    && EqualsIgnoreCase(p.fullName, Strip(name))
    && p.phone == Strip(phone)
    && (dob.Some? ==> p.dob == dob.value)
  }

  /** The position of the first stored patient with that identity. */
  function FirstIdentity(patients: seq<Patient>, name: string, phone: string, dob: Option<int>): Option<nat> {
    Seqs.FirstIndex(patients, (p: Patient) => SameIdentity(p, name, phone, dob))
  }

  /** `_get_or_create_patient`: the first patient with that name (any case),
      exact stripped phone and, when given, birth date; insurance is filled in
      when the record has none. Otherwise a new patient whose birth date
      defaults to today. */
  function GetOrCreatePatient(st: Store, info: PatientInfo, today: int): (r: Result<(Patient, Store), Exc>)
    ensures OrElse(info.fullName, info.name).None? || info.phone.None? ==> r == Failure(AttributeError)
    ensures r.Failure? ==> r.error == AttributeError || r.error == DataError
    ensures r.Success? ==>
              var (p, st') := r.value;
              var name := OrElse(info.fullName, info.name).value;
              && SameIdentity(p, name, info.phone.value, info.dob)
              && p in st'.patients
              && st'.slots == st.slots && st'.appointments == st.appointments
              && st'.alerts == st.alerts && st'.members == st.members && st'.families == st.families
              && |st'.patients| >= |st.patients|
    ensures r.Success? ==>
              var (p, st') := r.value;
              if exists i :: 0 <= i < |st.patients|
                             && SameIdentity(st.patients[i], OrElse(info.fullName, info.name).value,
                                             info.phone.value, info.dob)
              then exists k :: 0 <= k < |st.patients|
                     && SameIdentity(st.patients[k], OrElse(info.fullName, info.name).value, info.phone.value, info.dob)
                     && (forall j :: 0 <= j < k ==>
                           !SameIdentity(st.patients[j], OrElse(info.fullName, info.name).value, info.phone.value, info.dob))
                     && p == (if Truthy(info.insurance) && !Truthy(st.patients[k].insurance)
                              then st.patients[k].(insurance := info.insurance) else st.patients[k])
                     && st' == st.(patients := st.patients[k := p])
              else && p.id == st.nextId && st' == st.(patients := st.patients + [p], nextId := st.nextId + 1)
                   && p.fullName == Strip(OrElse(info.fullName, info.name).value)
                   && p.dob == info.dob.GetOr(today) && p.insurance == info.insurance
    ensures r.Success? && Valid(st) ==> Valid(r.value.1)
  {
    var name := OrElse(info.fullName, info.name);
    if name.None? || info.phone.None? then Failure(AttributeError)
    else
      var phone := info.phone.value;
      match FirstIdentity(st.patients, name.value, phone, info.dob)
      case Some(k) =>
        var p := st.patients[k];
        if Truthy(info.insurance) && !Truthy(p.insurance) then
          var st' :- SetInsurance(st, k, info.insurance.value);
          assert st'.patients[k].id == p.id;
          Success((st'.patients[k], st'))
        else
          assert st.(patients := st.patients[k := p]) == st;
          Success((p, st))
      case None =>
        InsertPatient(st, Strip(name.value), Strip(phone), info.dob.GetOr(today), info.insurance)
  }

  /** When `_get_or_create_patient` fails once a name and a phone are given:
      `save()` of a longer insurance name than the column holds on the patient
      found, or `create` of a row with an over-long field. */
  lemma GetOrCreatePatientFails(st: Store, info: PatientInfo, today: int)
    requires OrElse(info.fullName, info.name).Some? && info.phone.Some?
    ensures var name, phone := OrElse(info.fullName, info.name).value, info.phone.value;
            var r := GetOrCreatePatient(st, info, today);
            && (r.Failure? ==> r.error == DataError)
            && match FirstIdentity(st.patients, name, phone, info.dob)
               case Some(k) =>
                 r.Failure? <==> (&& Truthy(info.insurance) && !Truthy(st.patients[k].insurance)
                                  && |info.insurance.value| > InsuranceMaxLength)
               case None =>
                 r.Failure? <==> (|| |Strip(name)| > NameMaxLength || |Strip(phone)| > PhoneMaxLength
                                  || (info.insurance.Some? && |info.insurance.value| > InsuranceMaxLength))
  {
  }

  // ---------------------------------------------------------------------------
  // Listing appointments and finding slots
  // ---------------------------------------------------------------------------

  datatype PatientRef = ById(id: int) | ByNamePhone(name: string, phone: string)

  /** The parameters of `list_appointments`; `dateRange` is present only when
      the caller sent a string. */
  datatype ListQuery = ListQuery(
    who: PatientRef, dateRange: Option<string>, includePast: Option<bool>, limit: Option<int>)

  function ResolvePatient(st: Store, who: PatientRef): (r: Option<Patient>)
    ensures who.ById? ==> (r.Some? <==> HasPatient(st, who.id))
    ensures who.ById? && r.Some? ==> r.value.id == who.id && r.value in st.patients
    ensures who.ByNamePhone? ==> r == FindPatientByNamePhone(st.patients, who.name, who.phone)
  {
    match who
    case ById(id) =>
      (match PatientIndex(st, id) case None => None case Some(k) => Some(st.patients[k]))
    case ByNamePhone(name, phone) => FindPatientByNamePhone(st.patients, name, phone)
  }

  /** The listing window: the parsed phrase, or the next 60 days when no
      non-blank phrase was given. */
  function ListingWindow(env: Env, dateRange: Option<string>): (r: Result<Window, Exc>)
    ensures dateRange.None? || Strip(dateRange.value) == "" ==>
              r == Success(Window(env.now, env.now + DefaultListDays * SecondsPerDay))
    ensures dateRange.Some? && Strip(dateRange.value) != "" ==> r == env.fuzzy(dateRange.value)
  {
    if dateRange.Some? && Strip(dateRange.value) != "" then env.fuzzy(dateRange.value)
    else Success(Window(env.now, env.now + DefaultListDays * SecondsPerDay))
  }

  /** The appointment is a booked one of the patient's that meets the window
      and, unless past ones are wanted, has not ended before `now`. */
  predicate Listed(a: Appointment, patient: Id, now: Time, includePast: bool, w: Window) {
    && a.patient == patient
    && a.status == Booked
    && (includePast || a.end >= now)
    && a.start < w.end && a.end > w.start
  }

  function AppointmentStart(a: Appointment): int { a.start }
  function SlotStart(a: Availability): int { a.start }

  /** `items` are the first `limit` listed appointments of `st` by start,
      each as often as it is stored, and no more. */
  ghost predicate EarliestListed(st: Store, items: seq<Appointment>, patient: Id, now: Time,
                                 includePast: bool, w: Window, limit: int)
  {
    && |items| <= limit
    && (forall i :: 0 <= i < |items| ==> items[i] in st.appointments && Listed(items[i], patient, now, includePast, w))
    && multiset(items) <= multiset(st.appointments)
    && Seqs.SortedBy(items, AppointmentStart)
    && (forall a, i :: (a in st.appointments && Listed(a, patient, now, includePast, w) && a !in items
                        && 0 <= i < |items|) ==> items[i].start <= a.start)
    && (|items| < limit ==>
          forall a :: a in st.appointments && Listed(a, patient, now, includePast, w) ==> a in items)
  }

  /** The query `filter(patient, BOOKED, [end >= now], window).order_by("start")[:limit]`. */
  function SelectListed(st: Store, patient: Id, now: Time, includePast: bool, w: Window, limit: nat)
    : (items: seq<Appointment>)
    ensures EarliestListed(st, items, patient, now, includePast, w, limit)
  {
    var listed := (a: Appointment) => Listed(a, patient, now, includePast, w);
    var items := Seqs.Take(Seqs.SortBy(Seqs.Filter(st.appointments, listed), AppointmentStart), limit);
    Seqs.EarliestPrefix(st.appointments, listed, AppointmentStart, limit);
    Seqs.SelectFacts(st.appointments, listed, AppointmentStart, limit);
    assert forall i :: 0 <= i < |items| ==> items[i] in st.appointments && listed(items[i]);
    assert forall i :: 0 <= i < |items| ==> Listed(items[i], patient, now, includePast, w) by {
      forall i | 0 <= i < |items| ensures Listed(items[i], patient, now, includePast, w) {
        assert listed(items[i]);
      }
    }
    assert forall a, i :: (a in st.appointments && Listed(a, patient, now, includePast, w) && a !in items
                           && 0 <= i < |items|) ==> items[i].start <= a.start by {
      forall a, i | a in st.appointments && Listed(a, patient, now, includePast, w) && a !in items && 0 <= i < |items|
        ensures items[i].start <= a.start
      {
        assert listed(a);
        assert AppointmentStart(items[i]) <= AppointmentStart(a);
      }
    }
    assert |items| < limit ==>
             forall a :: a in st.appointments && Listed(a, patient, now, includePast, w) ==> a in items by {
      if |items| < limit {
        forall a | a in st.appointments && Listed(a, patient, now, includePast, w) ensures a in items {
          assert listed(a);
        }
      }
    }
    items
  }

  /** `list_appointments`. */
  function ListAppointments(st: Store, env: Env, q: ListQuery): (r: Result<Reply, Exc>)
    ensures r.Success? ==> r.value.Failed? || r.value.Listing?
    ensures r.Success? && r.value.Failed? ==> r.value.error == PatientNotFound
    ensures ResolvePatient(st, q.who).None? <==> r == Success(Failed(PatientNotFound))
    ensures r.Failure? <==>
              && ResolvePatient(st, q.who).Some?
              && (ListingWindow(env, q.dateRange).Failure? || q.limit.GetOr(DefaultListLimit) < 0)
    ensures r.Success? && r.value.Listing? ==>
              && Some(r.value.patient) == ResolvePatient(st, q.who)
              && ListingWindow(env, q.dateRange) == Success(r.value.window)
              && EarliestListed(st, r.value.appointments, r.value.patient.id, env.now,
                                q.includePast.GetOr(false), r.value.window, q.limit.GetOr(DefaultListLimit))
  {
    var limit := q.limit.GetOr(DefaultListLimit);
    var includePast := q.includePast.GetOr(false);
    match ResolvePatient(st, q.who)
    case None => Success(Failed(PatientNotFound))
    case Some(p) =>
      var w :- ListingWindow(env, q.dateRange);
      if limit < 0 then Failure(ValueError)
      else
        Success(Listing(p, w, SelectListed(st, p.id, env.now, includePast, w, limit)))
  }

  /** The parameters of `find_slots`. */
  datatype SlotQuery = SlotQuery(apptType: string, dateRange: Option<string>)

  /** The slot has the requested type and lies wholly inside the window. */
  predicate SlotFits(a: Availability, apptType: string, w: Window) {
    TypeLabel(a.apptType) == apptType && a.start >= w.start && a.end <= w.end
  }

  /** `find_slots`: every fitting slot, ordered by start; the store is only read. */
  function FindSlots(st: Store, env: Env, q: SlotQuery): (r: Result<Reply, Exc>)
    ensures r.Failure? <==> env.fuzzy(q.dateRange.GetOr(DefaultSlotPhrase)).Failure?
    ensures r.Success? ==>
              && r.value.SlotList?
              && r.value.apptType == q.apptType
              && env.fuzzy(q.dateRange.GetOr(DefaultSlotPhrase)) == Success(r.value.window)
              && (forall i :: 0 <= i < |r.value.slots| ==>
                    r.value.slots[i] in st.slots && SlotFits(r.value.slots[i], q.apptType, r.value.window))
              && (forall i :: 0 <= i < |st.slots| && SlotFits(st.slots[i], q.apptType, r.value.window) ==>
                    st.slots[i] in r.value.slots)
              && multiset(r.value.slots) <= multiset(st.slots)
              && Seqs.SortedBy(r.value.slots, SlotStart)
  {
    var w :- env.fuzzy(q.dateRange.GetOr(DefaultSlotPhrase));
    var fits := (a: Availability) => SlotFits(a, q.apptType, w);
    var slots := Seqs.SortBy(Seqs.Filter(st.slots, fits), SlotStart);
    Seqs.SortedFilterFacts(st.slots, fits, SlotStart);
    Success(SlotList(q.apptType, w, slots))
  }

  // ---------------------------------------------------------------------------
  // Booking, rescheduling, cancelling
  // ---------------------------------------------------------------------------

  predicate SlotAt(a: Availability, apptType: string, start: Time) {
    TypeLabel(a.apptType) == apptType && a.start == start
  }

  predicate SlotNear(a: Availability, apptType: string, start: Time) {
    TypeLabel(a.apptType) == apptType
    && start - NearbyMinutes * SecondsPerMinute <= a.start <= start + NearbyMinutes * SecondsPerMinute
  }

  /** The slot a booking takes: one of the type starting exactly at `start`,
      else the earliest of the type starting within 30 minutes of it. */
  function ChooseSlot(slots: seq<Availability>, apptType: string, start: Time): (r: Option<nat>)
    ensures r.Some? ==> r.value < |slots| && SlotNear(slots[r.value], apptType, start)
    ensures r.None? <==> forall j :: 0 <= j < |slots| ==> !SlotNear(slots[j], apptType, start)
    ensures (exists j :: 0 <= j < |slots| && SlotAt(slots[j], apptType, start)) ==>
              r.Some? && SlotAt(slots[r.value], apptType, start)
    ensures r.Some? && !SlotAt(slots[r.value], apptType, start) ==>
              forall j :: 0 <= j < |slots| && SlotNear(slots[j], apptType, start) ==>
                slots[r.value].start <= slots[j].start
  {
    match Seqs.FirstIndex(slots, (a: Availability) => SlotAt(a, apptType, start))
    case Some(i) => Some(i)
    case None => Seqs.FirstMinBy(slots, (a: Availability) => SlotNear(a, apptType, start), SlotStart)
  }

  /** The parameters of `book_appointment`, the start already parsed. */
  datatype BookRequest = BookRequest(patientInfo: PatientInfo, apptType: string, start: Time, notes: Option<string>)

  /** `book_appointment`, one transaction: it finds or creates the patient,
      takes the chosen slot's times for a new BOOKED appointment and deletes
      that slot. Without a slot it answers `slot_not_available`; a patient it
      created is kept, since the function returns normally. */
  function BookAppointment(st: Store, env: Env, q: BookRequest): (r: Result<Outcome, Exc>)
    ensures r.Failure? ==>
              GetOrCreatePatient(st, q.patientInfo, Today(env)).Failure? || r.error == IntegrityError
    ensures r.Success? ==> r.value.reply.Failed? || r.value.reply.Scheduled?
    ensures r.Success? && r.value.reply.Failed? ==>
              && r.value.reply.error == SlotNotAvailable
              && ChooseSlot(st.slots, q.apptType, q.start).None?
              && r.value.store.slots == st.slots
              && r.value.store.appointments == st.appointments
    ensures GetOrCreatePatient(st, q.patientInfo, Today(env)).Failure? ==>
              r == Failure(GetOrCreatePatient(st, q.patientInfo, Today(env)).error)
    ensures GetOrCreatePatient(st, q.patientInfo, Today(env)).Success? ==>
              var (p, st1) := GetOrCreatePatient(st, q.patientInfo, Today(env)).value;
              var i := ChooseSlot(st.slots, q.apptType, q.start);
              && (i.None? ==> r == Success(Outcome(Failed(SlotNotAvailable), st1)))
              && (i.Some? ==> r == BookSlot(st1, p, i.value, q.notes))
    ensures r.Success? && Valid(st) ==> Valid(r.value.store)
  {
    var found :- GetOrCreatePatient(st, q.patientInfo, Today(env));
    var (patient, st1) := found;
    match ChooseSlot(st1.slots, q.apptType, q.start)
    case None => Success(Outcome(Failed(SlotNotAvailable), st1))
    case Some(i) => BookSlot(st1, patient, i, q.notes)
  }

  /** The write half of `book_appointment` once the patient and the slot at
      position `i` are known: `Appointment.objects.create` with the slot's
      type and times, then `slot.delete()`. */
  function BookSlot(st: Store, p: Patient, i: nat, notes: Option<string>): (r: Result<Outcome, Exc>)
    requires i < |st.slots| && HasPatient(st, p.id)
    ensures r.Failure? <==>
              exists j :: 0 <= j < |st.appointments| && st.appointments[j].patient == p.id
                          && st.appointments[j].start == st.slots[i].start && st.appointments[j].end == st.slots[i].end
    ensures r.Failure? ==> r.error == IntegrityError
    ensures r.Success? ==>
              var slot := st.slots[i];
              var a := Appointment(st.nextId, p.id, slot.apptType, slot.start, slot.end, notes, Booked);
              && r.value.reply == Scheduled(a.id, a.start, a.end)
              && r.value.store == st.(appointments := st.appointments + [a],
                                      slots := Seqs.RemoveAt(st.slots, i),
                                      nextId := st.nextId + 1)
    ensures r.Success? && Valid(st) ==> Valid(r.value.store)
  {
    var slot := st.slots[i];
    var created :- InsertAppointment(st, p.id, slot.apptType, slot.start, slot.end, notes);
    var (appt, st2) := created;
    Success(Outcome(Scheduled(appt.id, appt.start, appt.end), DeleteSlotAt(st2, i)))
  }

  /** Once the patient is found or created and a slot chosen, the booking
      raises IntegrityError exactly when that patient already holds an
      appointment, of any status, at the slot's times; otherwise it stores
      the BOOKED appointment, deletes the slot and changes nothing else. */
  lemma BookOutcome(st: Store, env: Env, q: BookRequest)
    requires GetOrCreatePatient(st, q.patientInfo, Today(env)).Success?
    requires ChooseSlot(st.slots, q.apptType, q.start).Some?
    ensures var (p, st1) := GetOrCreatePatient(st, q.patientInfo, Today(env)).value;
            var i := ChooseSlot(st.slots, q.apptType, q.start).value;
            var slot := st.slots[i];
            var r := BookAppointment(st, env, q);
            && (r.Failure? <==>
                  exists j :: 0 <= j < |st.appointments| && st.appointments[j].patient == p.id
                              && st.appointments[j].start == slot.start && st.appointments[j].end == slot.end)
            && (r.Success? ==>
                  var a := Appointment(st1.nextId, p.id, slot.apptType, slot.start, slot.end, q.notes, Booked);
                  && r.value.reply == Scheduled(a.id, a.start, a.end)
                  && r.value.store == st1.(appointments := st.appointments + [a],
                                           slots := Seqs.RemoveAt(st.slots, i),
                                           nextId := st1.nextId + 1))
  {
    var (p, st1) := GetOrCreatePatient(st, q.patientInfo, Today(env)).value;
    assert HasPatient(st1, p.id);
  }

  /** A scheduled booking holds the chosen slot's type and times, keeps every
      earlier appointment and belongs to a patient of the caller's identity. */
  lemma BookScheduled(st: Store, env: Env, q: BookRequest)
    ensures var r := BookAppointment(st, env, q);
            r.Success? && r.value.reply.Scheduled? ==>
              var i := ChooseSlot(st.slots, q.apptType, q.start);
              var st' := r.value.store;
              && i.Some?
              && r.value.reply.start == st.slots[i.value].start
              && r.value.reply.end == st.slots[i.value].end
              && st'.slots == Seqs.RemoveAt(st.slots, i.value)
              && |st'.appointments| == |st.appointments| + 1
              && st'.appointments[..|st.appointments|] == st.appointments
              && var a := st'.appointments[|st.appointments|];
                 && a.id == r.value.reply.appointmentId
                 && a.apptType == st.slots[i.value].apptType
                 && TypeLabel(a.apptType) == q.apptType
                 && a.start == st.slots[i.value].start && a.end == st.slots[i.value].end
                 && a.notes == q.notes && a.status == Booked
                 && OrElse(q.patientInfo.fullName, q.patientInfo.name).Some? && q.patientInfo.phone.Some?
                 && exists p :: p in st'.patients && p.id == a.patient
                                && SameIdentity(p, OrElse(q.patientInfo.fullName, q.patientInfo.name).value,
                                                q.patientInfo.phone.value, q.patientInfo.dob)
  {
    var r := BookAppointment(st, env, q);
    if r.Success? && r.value.reply.Scheduled? {
      var (p, st1) := GetOrCreatePatient(st, q.patientInfo, Today(env)).value;
      var i := ChooseSlot(st.slots, q.apptType, q.start).value;
      var a := r.value.store.appointments[|st.appointments|];
      assert r.value.store.appointments[..|st.appointments|] == st.appointments;
      assert a.patient == p.id && p in r.value.store.patients;
    }
  }

  /** `_slot_duration_minutes`: whole minutes between two instants, rounded down. */
  function SlotDurationMinutes(start: Time, end: Time): (r: int)
    ensures r * SecondsPerMinute <= end - start < (r + 1) * SecondsPerMinute
  {
    (end - start) / SecondsPerMinute
  }

  /** The parameters of `reschedule_appointment`, the new start already parsed. */
  datatype RescheduleRequest = RescheduleRequest(appointmentId: int, newStart: Time)

  /** An availability of the appointment's type at exactly the new start and
      with the appointment's length in whole minutes. */
  predicate MatchingSlot(s: Availability, a: Appointment, newStart: Time) {
    && s.apptType == a.apptType
    && s.start == newStart
    && s.end == newStart + SlotDurationMinutes(a.start, a.end) * SecondsPerMinute
  }

  /** `reschedule_appointment`, one transaction: it frees the old time as a new
      availability, moves the appointment onto the matching slot and deletes
      that slot. */
  function RescheduleAppointment(st: Store, q: RescheduleRequest): (r: Result<Outcome, Exc>)
    ensures r == Failure(DoesNotExist) <==> !HasAppointment(st, q.appointmentId)
    ensures r.Failure? ==> r.error == DoesNotExist || r.error == IntegrityError
    ensures r.Success? ==> r.value.reply.Failed? || r.value.reply.Scheduled?
    ensures HasAppointment(st, q.appointmentId) ==>
              var k := AppointmentIndex(st, q.appointmentId).value;
              st.appointments[k].id == q.appointmentId && r == RescheduleAt(st, k, q.newStart)
    ensures r.Success? && Valid(st) ==> Valid(r.value.store)
  {
    match AppointmentIndex(st, q.appointmentId)
    case None => Failure(DoesNotExist)
    case Some(k) => RescheduleAt(st, k, q.newStart)
  }

  /** `Availability.objects.filter(...).first()` in `reschedule_appointment`:
      the first availability matching appointment `a` at `newStart`. */
  function FirstMatchingSlot(slots: seq<Availability>, a: Appointment, newStart: Time): (r: Option<nat>)
    ensures r.None? <==> forall j :: 0 <= j < |slots| ==> !MatchingSlot(slots[j], a, newStart)
    ensures r.Some? ==> r.value < |slots| && MatchingSlot(slots[r.value], a, newStart)
    ensures r.Some? ==> forall j :: 0 <= j < r.value ==> !MatchingSlot(slots[j], a, newStart)
  {
    Seqs.FirstIndex(slots, (s: Availability) => MatchingSlot(s, a, newStart))
  }

  /** `reschedule_appointment` once the appointment is found at position `k`:
      without a matching availability the store is left as it is; otherwise
      the first one is taken. */
  function RescheduleAt(st: Store, k: nat, newStart: Time): (r: Result<Outcome, Exc>)
    requires k < |st.appointments|
    ensures var j := FirstMatchingSlot(st.slots, st.appointments[k], newStart);
            && (j.None? ==> r == Success(Outcome(Failed(NoMatchingSlot), st)))
            && (j.Some? ==> r == MoveToSlot(st, k, j.value))
    ensures r.Success? && Valid(st) ==> Valid(r.value.store)
  {
    match FirstMatchingSlot(st.slots, st.appointments[k], newStart)
    case None => Success(Outcome(Failed(NoMatchingSlot), st))
    case Some(j) => MoveToSlot(st, k, j)
  }

  /** The write half of `reschedule_appointment` once the appointment at `k`
      and the availability at `j` are chosen: the old time becomes a new
      availability, the appointment takes the slot's times (IntegrityError
      when the patient already holds another appointment at those times, and
      then nothing is written), and the slot is deleted. */
  function MoveToSlot(st: Store, k: nat, j: nat): (r: Result<Outcome, Exc>)
    requires k < |st.appointments| && j < |st.slots|
    ensures var prev, slot := st.appointments[k], st.slots[j];
            r.Failure? <==>
              exists i :: 0 <= i < |st.appointments| && i != k && st.appointments[i].patient == prev.patient
                          && st.appointments[i].start == slot.start && st.appointments[i].end == slot.end
    ensures r.Failure? ==> r.error == IntegrityError
    ensures r.Success? ==>
              var prev, slot, st' := st.appointments[k], st.slots[j], r.value.store;
              && r.value.reply == Scheduled(prev.id, slot.start, slot.end)
              && st'.appointments == st.appointments[k := prev.(start := slot.start, end := slot.end)]
              && st'.slots == Seqs.RemoveAt(st.slots, j) + [Availability(st.nextId, prev.start, prev.end, prev.apptType)]
              && st'.patients == st.patients && st'.alerts == st.alerts
              && st'.members == st.members && st'.families == st.families
              && st'.nextId == st.nextId + 1
    ensures r.Success? && Valid(st) ==> Valid(r.value.store)
  {
    var appt, slot := st.appointments[k], st.slots[j];
    var (freed, st1) := InsertAvailability(st, appt.start, appt.end, appt.apptType);
    var st2 :- MoveAppointment(st1, k, slot.start, slot.end);
    assert st2.slots[j] == slot;
    var st3 := DeleteSlotAt(st2, j);
    assert st3.slots == Seqs.RemoveAt(st.slots, j) + [freed];
    Success(Outcome(Scheduled(appt.id, slot.start, slot.end), st3))
  }

  /** A rescheduled appointment starts at the requested time and keeps its
      length rounded down to whole minutes (see `WholeMinutesExact`: exactly
      its length when that is whole minutes, as every generated slot's is). */
  lemma RescheduleKeepsDuration(st: Store, q: RescheduleRequest)
    ensures var r := RescheduleAppointment(st, q);
            r.Success? && r.value.reply.Scheduled? ==>
              exists a :: a in st.appointments && a.id == q.appointmentId
                          && r.value.reply.start == q.newStart
                          && r.value.reply.end - r.value.reply.start == SlotDurationMinutes(a.start, a.end) * SecondsPerMinute
  {
    var r := RescheduleAppointment(st, q);
    if r.Success? && r.value.reply.Scheduled? {
      assert HasAppointment(st, q.appointmentId);
      var k := AppointmentIndex(st, q.appointmentId).value;
      var a := st.appointments[k];
      var j := FirstMatchingSlot(st.slots, a, q.newStart).value;
      assert r == MoveToSlot(st, k, j);
      assert a in st.appointments;
    }
  }

  /** Rounding a length down to whole minutes changes nothing when it already
      is whole minutes. */
  lemma WholeMinutesExact(start: Time, end: Time)
    ensures (end - start) % SecondsPerMinute == 0 <==> SlotDurationMinutes(start, end) * SecondsPerMinute == end - start
  {
  }

  /** A slot the reschedule accepts starts at the new start and lasts the
      appointment's length rounded down to whole minutes, which is exactly
      that length when it is a whole number of minutes. */
  lemma MatchingSlotKeepsDuration(s: Availability, a: Appointment, newStart: Time)
    requires MatchingSlot(s, a, newStart)
    ensures s.start == newStart
    ensures s.end - s.start == SlotDurationMinutes(a.start, a.end) * SecondsPerMinute
    ensures (a.end - a.start) % SecondsPerMinute == 0 ==> s.end - s.start == a.end - a.start
  {
  }

  /** Rescheduling onto an existing matching slot raises IntegrityError exactly
      when the patient already holds another appointment at the new start
      with the same length in whole minutes. */
  lemma RescheduleConflict(st: Store, q: RescheduleRequest)
    ensures var k := AppointmentIndex(st, q.appointmentId);
            k.Some? && (exists j :: 0 <= j < |st.slots| && MatchingSlot(st.slots[j], st.appointments[k.value], q.newStart)) ==>
              var a := st.appointments[k.value];
              (RescheduleAppointment(st, q) == Failure(IntegrityError) <==>
                 exists i :: 0 <= i < |st.appointments| && i != k.value && st.appointments[i].patient == a.patient
                             && st.appointments[i].start == q.newStart
                             && st.appointments[i].end == q.newStart + SlotDurationMinutes(a.start, a.end) * SecondsPerMinute)
  {
    var k := AppointmentIndex(st, q.appointmentId);
    if k.Some? && (exists j :: 0 <= j < |st.slots| && MatchingSlot(st.slots[j], st.appointments[k.value], q.newStart)) {
      var a := st.appointments[k.value];
      assert HasAppointment(st, q.appointmentId);
      var j := FirstMatchingSlot(st.slots, a, q.newStart).value;
      var r, m, slot := RescheduleAppointment(st, q), MoveToSlot(st, k.value, j), st.slots[j];
      assert r == m;
      var end := q.newStart + SlotDurationMinutes(a.start, a.end) * SecondsPerMinute;
      assert slot.start == q.newStart && slot.end == end;
      if r == Failure(IntegrityError) {
        var i :| 0 <= i < |st.appointments| && i != k.value && st.appointments[i].patient == a.patient
                 && st.appointments[i].start == slot.start && st.appointments[i].end == slot.end;
        assert st.appointments[i].start == q.newStart && st.appointments[i].end == end;
      }
      if exists i :: 0 <= i < |st.appointments| && i != k.value && st.appointments[i].patient == a.patient
                     && st.appointments[i].start == q.newStart && st.appointments[i].end == end {
        var i :| 0 <= i < |st.appointments| && i != k.value && st.appointments[i].patient == a.patient
                 && st.appointments[i].start == q.newStart && st.appointments[i].end == end;
        assert st.appointments[i].start == slot.start && st.appointments[i].end == slot.end;
        assert m.Failure? && m.error == IntegrityError;
      }
    }
  }

  /** A successful reschedule: the appointment holding the id moves onto a
      matching slot, the slot is deleted, the old time is appended as a new
      availability under the next id, and no other table changes. */
  lemma RescheduleScheduled(st: Store, q: RescheduleRequest)
    ensures var r := RescheduleAppointment(st, q);
            r.Success? && r.value.reply.Scheduled? ==>
              exists k, j :: 0 <= k < |st.appointments| && 0 <= j < |st.slots|
                && var prev, slot, st' := st.appointments[k], st.slots[j], r.value.store;
                && prev.id == q.appointmentId && MatchingSlot(slot, prev, q.newStart)
                && r.value.reply == Scheduled(prev.id, slot.start, slot.end)
                && st'.appointments == st.appointments[k := prev.(start := slot.start, end := slot.end)]
                && st'.slots == Seqs.RemoveAt(st.slots, j) + [Availability(st.nextId, prev.start, prev.end, prev.apptType)]
                && st'.patients == st.patients && st'.alerts == st.alerts
                && st'.members == st.members && st'.families == st.families
                && st'.nextId == st.nextId + 1
  {
    var r := RescheduleAppointment(st, q);
    if r.Success? && r.value.reply.Scheduled? {
      assert HasAppointment(st, q.appointmentId);
      var k := AppointmentIndex(st, q.appointmentId).value;
      var j := FirstMatchingSlot(st.slots, st.appointments[k], q.newStart).value;
      assert r == MoveToSlot(st, k, j);
    }
  }


  /** `cancel_appointment`: marks the appointment CANCELED and gives its time
      back as one new availability of the same type; nothing else changes. */
  function CancelAppointment(st: Store, appointmentId: int): (r: Outcome)
    ensures r.reply.Failed? <==> !HasAppointment(st, appointmentId)
    ensures r.reply.Failed? ==> r.reply.error == NotFound && r.store == st
    ensures r.reply.Done? || r.reply.Failed?
    ensures r.reply.Done? ==>
              exists k :: 0 <= k < |st.appointments| && st.appointments[k].id == appointmentId
                && var a := st.appointments[k];
                && r.store.appointments == st.appointments[k := a.(status := Canceled)]
                && r.store.slots == st.slots + [Availability(st.nextId, a.start, a.end, a.apptType)]
                && r.store.patients == st.patients && r.store.alerts == st.alerts
                && r.store.members == st.members && r.store.families == st.families
                && r.store.nextId == st.nextId + 1
    ensures Valid(st) ==> Valid(r.store)
  {
    match AppointmentIndex(st, appointmentId)
    case None => Outcome(Failed(NotFound), st)
    case Some(k) =>
      var a := st.appointments[k];
      var st1 := SetStatus(st, k, Canceled);
      var (_, st2) := InsertAvailability(st1, a.start, a.end, a.apptType);
      Outcome(Done, st2)
  }

  /** Cancelling is not idempotent: cancelling an appointment that is
      already CANCELED succeeds again and gives its time back a second time. */
  lemma CancelTwiceFreesTwice(st: Store, appointmentId: int)
    requires HasAppointment(st, appointmentId)
    ensures var once := CancelAppointment(st, appointmentId);
            var twice := CancelAppointment(once.store, appointmentId);
            && once.reply == Done && twice.reply == Done
            && |twice.store.slots| == |st.slots| + 2
            && twice.store.slots[|st.slots|].start == twice.store.slots[|st.slots| + 1].start
            && twice.store.slots[|st.slots|].end == twice.store.slots[|st.slots| + 1].end
  {
    var k := AppointmentIndex(st, appointmentId).value;
    var a := st.appointments[k];
    var once := CancelAppointment(st, appointmentId);
    assert once.store.appointments == st.appointments[k := a.(status := Canceled)];
    IndexFromSameIds(st.appointments, once.store.appointments, AppointmentId, appointmentId, 0);
    assert AppointmentIndex(once.store, appointmentId) == Some(k);
    var freed := CancelAppointment(once.store, appointmentId).store.slots;
    assert freed == st.slots + [Availability(st.nextId, a.start, a.end, a.apptType)]
                    + [Availability(st.nextId + 1, a.start, a.end, a.apptType)];
  }

  /** The parameters of `create_staff_alert`. */
  datatype AlertRequest = AlertRequest(summary: string, appointmentId: Option<int>)

  /** `create_staff_alert`: an EMERGENCY alert whose summary is the first 2000
      characters of the given one. */
  function CreateStaffAlert(st: Store, q: AlertRequest): (r: Result<Outcome, Exc>)
    ensures r.Failure? <==> q.appointmentId.Some? && !HasAppointment(st, q.appointmentId.value)
    ensures r.Failure? ==> r.error == IntegrityError
    ensures r.Success? ==>
              && r.value.reply == AlertCreated(st.nextId)
              && |r.value.store.alerts| == |st.alerts| + 1
              && r.value.store.alerts[..|st.alerts|] == st.alerts
              && (var alert := r.value.store.alerts[|st.alerts|];
                  && alert.id == st.nextId
                  && alert.kind == EmergencyAlert
                  && |alert.summary| <= SummaryMaxLength
                  && StartsWith(q.summary, alert.summary)
                  && (|q.summary| <= SummaryMaxLength ==> alert.summary == q.summary)
                  && (|q.summary| > SummaryMaxLength ==> |alert.summary| == SummaryMaxLength)
                  && (alert.appointment.Some? <==> q.appointmentId.Some?)
                  && (q.appointmentId.Some? ==> alert.appointment.value == q.appointmentId.value)
                  && r.value.store == st.(alerts := st.alerts + [alert], nextId := st.nextId + 1))
              && r.value.store.appointments == st.appointments && r.value.store.slots == st.slots
              && r.value.store.patients == st.patients
    ensures r.Success? && Valid(st) ==> Valid(r.value.store)
  {
    var created :- InsertStaffAlert(st, q.appointmentId, Some(EmergencyAlert), Truncate(q.summary, SummaryMaxLength));
    var (alert, st') := created;
    assert st'.alerts[..|st.alerts|] == st.alerts;
    Success(Outcome(AlertCreated(alert.id), st'))
  }
}

=== FILE: views.dfy ===
/** The deterministic parts of the chat endpoint (backend/api/views.py): the
    message conversion for the model, the greeting menu, and the tool loop's
    bookkeeping. The language model is a parameter. */
module Views {
  import opened Wrappers
  import opened Text
  import opened Json
  import opened Models
  import opened Tools
  import opened Router
  import opened Flows

  /** A chat message as the frontend sends it. */
  datatype Message = Message(role: string, content: string)

  /** A message as the model client takes it: a role and one text part. */
  datatype Content = Content(role: string, text: string)

  /** The model calls `assistant` what the client calls `model`. */
  function ModelRole(role: string): string {
    if role == "assistant" then "model" else role
  }

  /** `convert_to_gemini_contents`: one content per message, in order. */
  function ConvertToGeminiContents(messages: seq<Message>): (r: seq<Content>)
    ensures |r| == |messages|
    ensures forall i :: 0 <= i < |r| ==>
              r[i].text == messages[i].content && r[i].role == ModelRole(messages[i].role)
  {
    if |messages| == 0 then []
    else
      var last := messages[|messages| - 1];
      ConvertToGeminiContents(messages[..|messages| - 1]) + [Content(ModelRole(last.role), last.content)]
  }

  /** After conversion no content has the role `assistant`, and a content has
      the role `model` exactly when its message was the assistant's or the
      model's. */
  lemma ConvertedRoles(messages: seq<Message>, i: nat)
    requires i < |messages|
    ensures ConvertToGeminiContents(messages)[i].role != "assistant"
    ensures ConvertToGeminiContents(messages)[i].role == "model" <==>
              messages[i].role in {"assistant", "model"}
  {
  }

  /** Converting a conversation piecewise gives the conversion of the whole. */
  lemma {:induction false} ConvertAppend(a: seq<Message>, b: seq<Message>)
    ensures ConvertToGeminiContents(a + b) == ConvertToGeminiContents(a) + ConvertToGeminiContents(b)
  {
    var l, r := ConvertToGeminiContents(a + b), ConvertToGeminiContents(a) + ConvertToGeminiContents(b);
    assert |l| == |r|;
    forall i | 0 <= i < |l|
      ensures l[i] == r[i]
    {
      if i < |a| {
        assert (a + b)[i] == a[i];
      } else {
        assert (a + b)[i] == b[i - |a|];
      }
    }
  }

  /** The greeting shown when a conversation starts. */
  const MenuText: string :=
    "Hi, this is DentalBot, your virtual assistant! How can I help today?\n"
    + "1) Book appointment\n"
    + "2) Change appointment\n"
    + "3) General inquiry\n"

  const DefaultFlow: string := "general_info"
  const ToolResultPrefix: string := "TOOL_RESULT: "
  const FirstReplyTokens: nat := 400
  const FollowupReplyTokens: nat := 1000

  /** The request body; a missing field is `None`. */
  datatype ChatRequest = ChatRequest(flow: Option<string>, messages: Option<seq<Message>>)

  /** Everything the endpoint takes from outside: the model (system prompt,
      contents and output-token budget to the reply's `text`, `None` when the
      reply has no text part), `json.loads`,
      `json.dumps` of a tool result, the tools' clock and date parser, the
      tools' parameter readers, and the prompt texts. */
  datatype Oracles = Oracles(
    generate: (string, seq<Content>, nat) -> Option<string>,
    parse: string -> Option<Json>,
    dumps: Reply -> string,
    env: Env,
    decoders: Decoders,
    texts: PromptTexts)

  /** The endpoint's answers: the menu, or the final reply with the chain of
      assistant replies and the extended message history. */
  datatype ChatResponse =
    | Menu(reply: string)
    | Answer(reply: string, chain: seq<Message>, messages: seq<Message>)

  /** How the endpoint can fail to answer: a tool name that is a list or an
      object cannot be looked up, and a model reply without text cannot be
      stripped (both server errors), and the tool loop ran longer than the
      model allows. Each carries the store as the failure leaves it: what
      earlier rounds' tools wrote stays written. */
  datatype ChatFailure = UnhashableTool(store: Store) | NoText(store: Store) | OutOfFuel(store: Store)

  /** The key a `tool` value is looked up by: strings as they are, other
      scalars by their `str()` text; lists and objects cannot be keys. */
  function ToolKey(j: Json): Option<string> {
    match j
    case JStr(s) => Some(s)
    case JNum(n) => Some(IntToString(n))
    case JBool(b) => Some(if b then "True" else "False")
    case JNull => Some("None")
    case _ => None
  }

  /** A tool is reached only through a string naming it: other scalars are
      reported as unknown tools. */
  lemma ScalarKeysAreUnknown(j: Json)
    requires ToolKey(j).Some?
    ensures ToolKey(j).value in ToolFns <==> j.JStr? && j.s in ToolFns
  {
    if j.JNum? {
      var name := IntToString(j.n);
      assert name[0] == '-' || IsDigit(name[0]);
      ToolNamesStartWithLetter(name);
    }
  }

  lemma ToolNamesStartWithLetter(name: string)
    ensures name in ToolFns ==> |name| > 0 && 'a' <= name[0] <= 'z'
  {
  }

  /** The user message that reports a tool's result to the model. */
  function ToolResultMessage(o: Oracles, reply: Reply): Message {
    Message("user", ToolResultPrefix + o.dumps(reply))
  }

  /** Where the tool loop ends: the last reply, every reply in order starting
      with the one the loop was entered with, the history and the store. */
  datatype LoopEnd = LoopEnd(reply: string, chain: seq<string>, messages: seq<Message>, store: Store)

  /** One round of the loop, given the store, the history and the model's
      latest reply: `None` when the reply calls no tool, else the store after
      the tool, the message reporting its result and the model's next reply. */
  type Stepper = (Store, seq<Message>, string) -> Option<Result<(Store, Message, string), ChatFailure>>

  /** The history after one round: the reply that called the tool, then the
      tool's result. */
  function Extend(messages: seq<Message>, text: string, result: Message): seq<Message> {
    messages + [Message("assistant", text), result]
  }

  /** The `while True` loop over any round function; `fuel` bounds the number
      of rounds, which in the running system only the model's replies do. */
  function Loop(step: Stepper, st: Store, messages: seq<Message>, text: string, fuel: nat): Result<LoopEnd, ChatFailure>
    decreases fuel
  {
    match step(st, messages, text)
    case None => Success(LoopEnd(text, [text], messages, st))
    case Some(round) =>
      if fuel == 0 then Failure(OutOfFuel(st))
      else
        var (st', result, followup) :- round;
        var rest :- Loop(step, st', Extend(messages, text, result), followup, fuel - 1);
        Success(rest.(chain := [text] + rest.chain))
  }

  /** A round of the chat endpoint: parse a tool call out of the reply; look
      up the prompt of the flow named like the tool; run the tool; report its
      result as `TOOL_RESULT: ` and its JSON text; ask the model again with
      up to 1000 output tokens. A next reply without text fails when the
      loop tries to parse it, after the tool's writes. */
  function TakeTurn(o: Oracles, st: Store, messages: seq<Message>, text: string)
    : Option<Result<(Store, Message, string), ChatFailure>>
  {
    match MaybeParseToolCall(text, o.parse)
    case None => None
    case Some(call) =>
      match ToolKey(call["tool"])
      case None => Some(Failure(UnhashableTool(st)))
      case Some(name) =>
        var prompt := GetPromptForFlow(o.texts, name);
        var out := ExecuteTool(st, o.env, o.decoders, name, call["parameters"]);
        var result := ToolResultMessage(o, out.reply);
        match o.generate(prompt, ConvertToGeminiContents(Extend(messages, text, result)), FollowupReplyTokens)
        case None => Some(Failure(NoText(out.store)))
        case Some(followup) => Some(Success((out.store, result, followup)))
  }

  /** The chat endpoint's tool loop. */
  function ToolLoop(st: Store, o: Oracles, messages: seq<Message>, text: string, fuel: nat): Result<LoopEnd, ChatFailure> {
    Loop((s, m, t) => TakeTurn(o, s, m, t), st, messages, text, fuel)
  }

  /** A round happens exactly when the reply holds a tool call; it fails
      on a tool value that is a list or an object, before any tool runs, and
      on a next reply without text, after the tool ran; otherwise it reports
      the tool's result as a user message starting with `TOOL_RESULT: `.
      Either way it keeps the store's constraints. */
  lemma TakeTurnFacts(o: Oracles, st: Store, messages: seq<Message>, text: string)
    ensures TakeTurn(o, st, messages, text).None? <==> MaybeParseToolCall(text, o.parse).None?
    ensures TakeTurn(o, st, messages, text).Some? ==>
              (TakeTurn(o, st, messages, text) == Some(Failure(UnhashableTool(st))) <==>
                 ToolKey(MaybeParseToolCall(text, o.parse).value["tool"]).None?)
    ensures TakeTurn(o, st, messages, text).Some? && TakeTurn(o, st, messages, text).value.Failure? ==>
              var e := TakeTurn(o, st, messages, text).value.error;
              && (e.UnhashableTool? || e.NoText?)
              && (e.UnhashableTool? ==> e.store == st)
              && (Valid(st) ==> Valid(e.store))
    ensures TakeTurn(o, st, messages, text).Some? && TakeTurn(o, st, messages, text).value.Success? ==>
              var (st', result, _) := TakeTurn(o, st, messages, text).value.value;
              && result.role == "user" && StartsWith(result.content, ToolResultPrefix)
              && (Valid(st) ==> Valid(st'))
  {
  }

  /** The history after the loop is the history before it followed by, for
      every reply that called a tool, that reply and then the tool's result. */
  ghost predicate Transcript(before: seq<Message>, after: seq<Message>, chain: seq<string>) {
    && |chain| > 0
    && |after| == |before| + 2 * (|chain| - 1)
    && after[..|before|] == before
    && forall k :: 0 <= k < |chain| - 1 ==>
         && after[|before| + 2 * k] == Message("assistant", chain[k])
         && after[|before| + 2 * k + 1].role == "user"
         && StartsWith(after[|before| + 2 * k + 1].content, ToolResultPrefix)
  }

  lemma TranscriptStep(before: seq<Message>, text: string, result: Message, after: seq<Message>, chain: seq<string>)
    requires result.role == "user" && StartsWith(result.content, ToolResultPrefix)
    requires Transcript(Extend(before, text, result), after, chain)
    ensures Transcript(before, after, [text] + chain)
  {
    var mid := Extend(before, text, result);
    assert after[..|mid|] == mid;
    assert after[..|before|] == mid[..|before|] == before;
    var c := [text] + chain;
    forall k | 0 <= k < |c| - 1
      ensures after[|before| + 2 * k] == Message("assistant", c[k])
      ensures after[|before| + 2 * k + 1].role == "user"
      ensures StartsWith(after[|before| + 2 * k + 1].content, ToolResultPrefix)
    {
      if k == 0 {
        assert after[|before|] == mid[|before|];
        assert after[|before| + 1] == mid[|before| + 1] == result;
      } else {
        assert c[k] == chain[k - 1];
        assert |before| + 2 * k == |mid| + 2 * (k - 1);
      }
    }
  }

  /** What a finished loop has done, for any round function that reports
      results the endpoint's way and runs a round exactly on the replies
      `calls` accepts: its chain starts with the reply it was entered with and
      ends with the reply it returns, every reply but the last called a tool
      and the last calls none, the history grew by one reply and one tool
      result per round, and there were at most `fuel` rounds. */
  lemma {:induction false} LoopShape(step: Stepper, calls: string -> bool, st: Store, messages: seq<Message>,
                                     text: string, fuel: nat)
    requires forall s, m, t :: step(s, m, t).None? <==> !calls(t)
    requires forall s, m, t :: step(s, m, t).Some? && step(s, m, t).value.Success? ==>
               step(s, m, t).value.value.1.role == "user"
               && StartsWith(step(s, m, t).value.value.1.content, ToolResultPrefix)
    requires Loop(step, st, messages, text, fuel).Success?
    ensures var e := Loop(step, st, messages, text, fuel).value;
            && Transcript(messages, e.messages, e.chain)
            && e.chain[0] == text
            && e.chain[|e.chain| - 1] == e.reply
            && |e.chain| <= fuel + 1
            && !calls(e.reply)
            && (forall k :: 0 <= k < |e.chain| - 1 ==> calls(e.chain[k]))
    decreases fuel
  {
    var e := Loop(step, st, messages, text, fuel).value;
    match step(st, messages, text)
    case None =>
      assert e.messages[..|messages|] == messages;
    case Some(round) =>
      var (st', result, followup) := round.value;
      var rest := Loop(step, st', Extend(messages, text, result), followup, fuel - 1).value;
      LoopShape(step, calls, st', Extend(messages, text, result), followup, fuel - 1);
      assert e.chain == [text] + rest.chain;
      TranscriptStep(messages, text, result, e.messages, rest.chain);
      forall k | 0 <= k < |e.chain| - 1
        ensures calls(e.chain[k])
      {
        if k > 0 {
          assert e.chain[k] == rest.chain[k - 1];
        }
      }
  }

  /** A loop whose rounds keep the store's constraints, whether they finish
      or fail, keeps them, whether it finishes or fails. */
  lemma {:induction false} LoopKeepsValid(step: Stepper, st: Store, messages: seq<Message>, text: string, fuel: nat)
    requires forall s, m, t :: Valid(s) && step(s, m, t).Some? && step(s, m, t).value.Success? ==>
               Valid(step(s, m, t).value.value.0)
    requires forall s, m, t :: Valid(s) && step(s, m, t).Some? && step(s, m, t).value.Failure? ==>
               Valid(step(s, m, t).value.error.store)
    requires Valid(st)
    ensures var r := Loop(step, st, messages, text, fuel);
            && (r.Success? ==> Valid(r.value.store))
            && (r.Failure? ==> Valid(r.error.store))
    decreases fuel
  {
    match step(st, messages, text)
    case None =>
    case Some(round) =>
      if fuel > 0 && round.Success? {
        var (st', result, followup) := round.value;
        LoopKeepsValid(step, st', Extend(messages, text, result), followup, fuel - 1);
      }
  }

  /** The endpoint's tool loop has that shape, with "calls a tool" meaning
      that `maybe_parse_tool_call` finds a call. */
  lemma ToolLoopShape(st: Store, o: Oracles, messages: seq<Message>, text: string, fuel: nat)
    requires ToolLoop(st, o, messages, text, fuel).Success?
    ensures var e := ToolLoop(st, o, messages, text, fuel).value;
            && Transcript(messages, e.messages, e.chain)
            && e.chain[0] == text
            && e.chain[|e.chain| - 1] == e.reply
            && |e.chain| <= fuel + 1
            && MaybeParseToolCall(e.reply, o.parse).None?
            && (forall k :: 0 <= k < |e.chain| - 1 ==> MaybeParseToolCall(e.chain[k], o.parse).Some?)
  {
    var step: Stepper := (s, m, t) => TakeTurn(o, s, m, t);
    var calls := t => MaybeParseToolCall(t, o.parse).Some?;
    forall s, m, t
      ensures step(s, m, t).None? <==> !calls(t)
      ensures step(s, m, t).Some? && step(s, m, t).value.Success? ==>
                step(s, m, t).value.value.1.role == "user"
                && StartsWith(step(s, m, t).value.value.1.content, ToolResultPrefix)
    {
      TakeTurnFacts(o, s, m, t);
    }
    LoopShape(step, calls, st, messages, text, fuel);
  }

  /** The tools keep the schema's constraints, so the endpoint's loop does
      too, and a failed loop leaves a store that keeps them. */
  lemma ToolLoopKeepsValid(st: Store, o: Oracles, messages: seq<Message>, text: string, fuel: nat)
    requires Valid(st)
    ensures var r := ToolLoop(st, o, messages, text, fuel);
            && (r.Success? ==> Valid(r.value.store))
            && (r.Failure? ==> Valid(r.error.store))
  {
    var step: Stepper := (s, m, t) => TakeTurn(o, s, m, t);
    forall s, m, t
      ensures Valid(s) && step(s, m, t).Some? && step(s, m, t).value.Success? ==> Valid(step(s, m, t).value.value.0)
      ensures Valid(s) && step(s, m, t).Some? && step(s, m, t).value.Failure? ==> Valid(step(s, m, t).value.error.store)
    {
      TakeTurnFacts(o, s, m, t);
    }
    LoopKeepsValid(step, st, messages, text, fuel);
  }

  /** A tool value that cannot be looked up fails the request without undoing
      the rounds before it: the failure carries the store the earlier tools
      left. */
  lemma UnhashableKeepsEarlierRounds(st: Store, o: Oracles, messages: seq<Message>, text: string, fuel: nat,
                                     st1: Store, result: Message, followup: string)
    requires fuel >= 2
    requires TakeTurn(o, st, messages, text) == Some(Success((st1, result, followup)))
    requires MaybeParseToolCall(followup, o.parse).Some?
    requires ToolKey(MaybeParseToolCall(followup, o.parse).value["tool"]).None?
    ensures ToolLoop(st, o, messages, text, fuel) == Failure(UnhashableTool(st1))
  {
    var step: Stepper := (s, m, t) => TakeTurn(o, s, m, t);
    TakeTurnFacts(o, st1, Extend(messages, text, result), followup);
    LoopSecondRoundFails(step, st, messages, text, fuel, st1, result, followup);
  }

  /** A next reply without text fails the round once the tool has run: the
      failure carries the store the tool left, so its writes stay. */
  lemma TextlessFollowupKeepsToolWrites(o: Oracles, st: Store, messages: seq<Message>, text: string)
    requires MaybeParseToolCall(text, o.parse).Some?
    requires ToolKey(MaybeParseToolCall(text, o.parse).value["tool"]).Some?
    ensures var call := MaybeParseToolCall(text, o.parse).value;
            var name := ToolKey(call["tool"]).value;
            var out := ExecuteTool(st, o.env, o.decoders, name, call["parameters"]);
            var result := ToolResultMessage(o, out.reply);
            o.generate(GetPromptForFlow(o.texts, name), ConvertToGeminiContents(Extend(messages, text, result)),
                       FollowupReplyTokens).None?
            ==> TakeTurn(o, st, messages, text) == Some(Failure(NoText(out.store)))
  {
  }

  /** A loop whose first round succeeds and whose second round fails fails
      with the second round's failure. */
  lemma LoopSecondRoundFails(step: Stepper, st: Store, messages: seq<Message>, text: string, fuel: nat,
                             st1: Store, result: Message, followup: string)
    requires fuel >= 2
    requires step(st, messages, text) == Some(Success((st1, result, followup)))
    requires step(st1, Extend(messages, text, result), followup).Some?
    requires step(st1, Extend(messages, text, result), followup).value.Failure?
    ensures Loop(step, st, messages, text, fuel) == Failure(step(st1, Extend(messages, text, result), followup).value.error)
  {
    var m1 := Extend(messages, text, result);
    assert Loop(step, st1, m1, followup, fuel - 1) == Failure(step(st1, m1, followup).value.error);
  }

  /** The response to a finished loop: its last reply, every reply as an
      assistant message, and the history. */
  function Respond(e: LoopEnd): ChatResponse {
    Answer(e.reply, seq(|e.chain|, k requires 0 <= k < |e.chain| => Message("assistant", e.chain[k])), e.messages)
  }

  /** An answer to the history `before` in which exactly the replies `calls`
      accepts called a tool: its chain is every reply as an assistant message
      ending with the one returned, and its history is `before` followed by
      each calling reply and then its tool's result. */
  ghost predicate Answered(before: seq<Message>, a: ChatResponse, calls: string -> bool) {
    && a.Answer?
    && |a.chain| > 0
    && (forall k :: 0 <= k < |a.chain| ==> a.chain[k].role == "assistant")
    && a.chain[|a.chain| - 1].content == a.reply
    && |a.messages| == |before| + 2 * (|a.chain| - 1)
    && a.messages[..|before|] == before
    && (forall k :: 0 <= k < |a.chain| - 1 ==>
          && a.messages[|before| + 2 * k] == a.chain[k]
          && a.messages[|before| + 2 * k + 1].role == "user"
          && StartsWith(a.messages[|before| + 2 * k + 1].content, ToolResultPrefix)
          && calls(a.chain[k].content))
    && !calls(a.reply)
  }

  lemma RespondShape(before: seq<Message>, e: LoopEnd, calls: string -> bool)
    requires Transcript(before, e.messages, e.chain)
    requires e.chain[|e.chain| - 1] == e.reply && !calls(e.reply)
    requires forall k :: 0 <= k < |e.chain| - 1 ==> calls(e.chain[k])
    ensures Answered(before, Respond(e), calls)
  {
    var a := Respond(e);
    forall k | 0 <= k < |a.chain| - 1
      ensures a.messages[|before| + 2 * k] == a.chain[k]
      ensures calls(a.chain[k].content)
    {
      assert a.chain[k].content == e.chain[k];
    }
  }

  /** `ChatbotView.post`. An empty history gets the menu without asking the
      model. Otherwise the model answers under the flow's prompt (up to 400
      output tokens) and the tool loop runs; an answer without text fails
      before any tool runs. */
  function ChatbotPost(st: Store, o: Oracles, req: ChatRequest, fuel: nat): (r: Result<(ChatResponse, Store), ChatFailure>)
    ensures req.messages.GetOr([]) == [] <==> r == Success((Menu(MenuText), st))
    ensures r.Success? ==> (r.value.0.Menu? <==> req.messages.GetOr([]) == [])
    ensures req.messages.GetOr([]) != [] && FirstReply(o, req).None? ==> r == Failure(NoText(st))
    ensures r.Success? && r.value.0.Answer? ==> FirstReply(o, req).Some?
  {
    var messages := req.messages.GetOr([]);
    if messages == [] then Success((Menu(MenuText), st))
    else
      match FirstReply(o, req)
      case None => Failure(NoText(st))
      case Some(text) =>
        var e :- ToolLoop(st, o, messages, text, fuel);
        Success((Respond(e), e.store))
  }

  /** The model's first reply to a non-empty history. */
  function FirstReply(o: Oracles, req: ChatRequest): Option<string> {
    o.generate(GetPromptForFlow(o.texts, req.flow.GetOr(DefaultFlow)),
               ConvertToGeminiContents(req.messages.GetOr([])), FirstReplyTokens)
  }

  /** Every answer has the endpoint's shape, with "calls a tool" meaning that
      `maybe_parse_tool_call` finds a call: the history grew by one reply and
      one tool result per tool call, and the reply returned calls none. */
  lemma AnswerShape(st: Store, o: Oracles, req: ChatRequest, fuel: nat)
    requires ChatbotPost(st, o, req, fuel).Success?
    requires ChatbotPost(st, o, req, fuel).value.0.Answer?
    ensures Answered(req.messages.GetOr([]), ChatbotPost(st, o, req, fuel).value.0,
                     t => MaybeParseToolCall(t, o.parse).Some?)
  {
    var messages := req.messages.GetOr([]);
    var text := FirstReply(o, req).value;
    var e := ToolLoop(st, o, messages, text, fuel).value;
    ToolLoopShape(st, o, messages, text, fuel);
    RespondShape(messages, e, t => MaybeParseToolCall(t, o.parse).Some?);
  }

  /** The menu does not depend on the model, the parsers, the flow or the
      store's contents. */
  lemma MenuIgnoresModel(st: Store, o1: Oracles, o2: Oracles, flow1: Option<string>, flow2: Option<string>,
                         fuel1: nat, fuel2: nat)
    ensures ChatbotPost(st, o1, ChatRequest(flow1, None), fuel1)
            == ChatbotPost(st, o2, ChatRequest(flow2, Some([])), fuel2)
            == Success((Menu(MenuText), st))
  {
  }

  /** A conversation the model answers without calling a tool: the reply is
      the model's first answer under the flow's prompt (the general
      information prompt when no flow is given), the chain holds just that
      reply, and the history and store are unchanged. */
  lemma NoToolCall(st: Store, o: Oracles, req: ChatRequest, fuel: nat)
    requires req.messages.Some? && req.messages.value != []
    requires FirstReply(o, req).Some? && MaybeParseToolCall(FirstReply(o, req).value, o.parse).None?
    ensures ChatbotPost(st, o, req, fuel)
            == Success((Answer(FirstReply(o, req).value, [Message("assistant", FirstReply(o, req).value)],
                               req.messages.value), st))
  {
    var messages := req.messages.value;
    var text := FirstReply(o, req).value;
    TakeTurnFacts(o, st, messages, text);
    var e := ToolLoop(st, o, messages, text, fuel).value;
    assert e == LoopEnd(text, [text], messages, st);
    assert Respond(e).chain == [Message("assistant", text)];
  }

  /** Answering a chat keeps the store's constraints, and so does failing to. */
  lemma ChatKeepsValid(st: Store, o: Oracles, req: ChatRequest, fuel: nat)
    requires Valid(st)
    ensures var r := ChatbotPost(st, o, req, fuel);
            && (r.Success? ==> Valid(r.value.1))
            && (r.Failure? ==> Valid(r.error.store))
  {
    var messages := req.messages.GetOr([]);
    if messages != [] && FirstReply(o, req).Some? {
      ToolLoopKeepsValid(st, o, messages, FirstReply(o, req).value, fuel);
    }
  }
}

=== FILE: wrappers.dfy ===
/** Failure-compatible Option and Result types used throughout the model. */
module Wrappers {

  datatype Option<+T> = None | Some(value: T) {

    predicate IsFailure() {
      None?
    }

    function PropagateFailure<U>(): Option<U>
      requires None?
    {
      None
    }

    function Extract(): T
      requires Some?
    {
      value
    }

    /** The Python idiom `x or default` for an optional value. */
    function GetOr(default: T): T {
      match this
      case Some(v) => v
      case None => default
    }
  }

  datatype Result<+R, +E> = Success(value: R) | Failure(error: E) {

    predicate IsFailure() {
      Failure?
    }

    function PropagateFailure<U>(): Result<U, E>
      requires Failure?
    {
      Failure(error)
    }

    function Extract(): R
      requires Success?
    {
      value
    }
  }
}
